=== FILE: README.md ===
# pmbot-weather in Dafny

A model of the decision core of pmbot-weather, a bot that trades Polymarket
temperature-bucket markets. It turns weather forecasts into bucket
probabilities and compares them with market prices. It then sizes trades by
fractional Kelly, gates them with a risk check and sends them through an
order client. It also keeps a position ledger and takes profit when an edge
has gone. The model covers, in pipeline order:

- **Bucket probabilities:**
  - the statistics of `src/utils/math.ts` (module `Stats`);
  - the ensemble aggregation of `src/weather/aggregator.ts` (module `Aggregator`).
- **Edges, sizing and signals:** `Edge`, `Kelly` and `Signals` (`src/strategy/`).
- **Risk and the ledger:**
  - the risk predicate `Risk`;
  - the in-memory `PositionTracker` as an immutable `Ledger.Tracker`.
- **Exits:** the exit evaluator and exit loop `ProfitTaker` (`src/trading/profit-taker.ts`).
- **Execution:** the order execution loop `Executor` (`src/trading/executor.ts`).
- **Market side:**
  - the title parser `Parser`, with the bucket labels it builds (`BucketLabel`);
  - the event scanner `Scanner`;
  - the order-book summary `Prices`.
- **Weather side:**
  - the HRRR transform `Hrrr`;
  - the NWS transform `Nws`;
  - the Open-Meteo member extraction `OpenMeteo`.
- **The legacy keyword strategy:**
  - `LegacyStrategy` (`src/strategy/weatherStrategy.ts`);
  - its per-day forecast `WeatherService` (`src/weather/weatherService.ts`).

Supporting modules:

- `Wrappers`: `Option` and `Result`.
- `Seqs`: sums, maxima, and keeping the present values.
- `Grouping`: insertion-ordered group-by, standing in for a JS `Map`.
- `Sorting`: the stable descending sort that `Array.prototype.sort` performs with a numeric comparator. A stable sort's result is unique, so an insertion sort stands in for the engine's.
- `Text`: prefixes and lower-casing.
- `Decimal`: integer to text and back.
- `Numeric`: `Math.round` and clamping.
- `Config`, plus the type modules.

Modelling conventions:

- **Numbers** are `real`.
  - `Math.round(x)` is `floor(x + 1/2)`. `Numeric.Round2` is `Math.round(x*100)/100` computed on exact reals; the code multiplies binary floating-point numbers, so the two can differ when the product lands just off a half (see "## Left out").
  - JavaScript `NaN` and `Infinity` appear only where a result depends on them. That is the legacy strategy's confidence, a `Num` datatype.
  - Elsewhere a `-Infinity` seed of a running maximum becomes `None`.
- **Everything that leaves the process is a parameter.** This covers the order client, the balance query, the Gamma page fetches and the fan-out fetches.
  - An order call is an oracle `respond: nat -> OrderOutcome`, indexed by the position of the signal or exit in its batch.
  - A page fetch is `page: nat -> PageOutcome`.
  - A `Promise.allSettled` is a `seq<Option<T>>` of its settled results.
- **Abstract functions:**
  - the regular expressions of `extractBucket` (`BucketPatterns`);
  - the clock-dependent `extractDate`;
  - the legacy strategy's "above N" matcher;
  - `parseFloat`;
  - `Math.sqrt`.
- **Kept concrete:**
  - the precedence of the bucket patterns and the bucket labels they build;
  - the word-bounded "low temperature" test;
  - the city alias table of `src/config/settings.ts`.
- **Dates** stay the `YYYY-MM-DD` text they are cut from.
- **A JS `Map` keyed by token or by day** is a sequence with unique keys, kept in insertion order. This covers the position tracker and the per-day groupings.
- **The order-book `Map` of `fetchOrderBooks`** is a Dafny `map`. Its keys and values are modelled, its iteration order is not.

Where the tests under `src/__tests__` describe another revision of the code, the model follows the code:

- There is no `unit` field and no °C titles in the parser.
- The exposure check in `evaluateRisk` uses 0.8 × bankroll. The risk tests that expect 980 of exposure to reach the bankroll check do not hold. `Risk.ExposureLimitComesFirst` shows the case.

Quirks of the code that the model keeps as written:

- A NO edge reports `marketPrice = 1 - m`. Kelly sizing is then called with the YES probability against that NO price.
- A NO signal is sent as a SELL order.
- NO exits are judged at the YES price.
- An exit closes its position whenever the response carries an order id, even with `success: false`.
- NWS converts the following night's figure by the day period's unit. A Celsius day with no night therefore gets a low of 32°F.
- A rain question with no forecast days gets an `Infinity` confidence in the legacy strategy. It therefore passes every confidence floor.

## Model

| member | source | states |
|---|---|---|
| Stats.Mean | src/utils/math.ts:5-8 | the mean of no values is 0; otherwise the mean times the count is the sum |
| Stats.StdDev | src/utils/math.ts:10-15 | fewer than two samples give 0; otherwise it is sqrt of the sample variance, which is non-negative (n − 1 denominator) |
| Stats.EmpiricalProbability | src/utils/math.ts:82-94 | 0 for no samples; always within [0, 1]; times the sample count it equals the number of samples inside the inclusive, possibly unbounded bounds |
| Stats.UnboundedBucketIsCertain | src/utils/math.ts:88-93 | with no bound on either side and at least one sample, the probability is exactly 1 |
| Stats.CountUnbounded | src/utils/math.ts:88-92 | every sample lies in a bucket with no bounds |
| Stats.CountMonotone | src/utils/math.ts:88-92 | a bucket that covers another holds at least as many samples |
| Stats.WideningNeverLowers | src/utils/math.ts:88-93 | widening a bucket (lower bound down or upper bound up, or dropping one) never lowers its probability |
| Aggregator.HighUpTo | src/weather/aggregator.ts:72-81 | the running maximum over the first n times is attained at a counted index and bounds every counted index, where counted means the time starts with the date and the temperature is not null |
| Aggregator.NoHighIffNothingCounts | src/weather/aggregator.ts:77-85 | a member has no daily high exactly when none of its times on that date carries a temperature |
| Aggregator.HighsOf | src/weather/aggregator.ts:65-89 | no more highs than members; none exactly when no member has a high on the date; every high is some member's daily high |
| Aggregator.ExtractDailyHighs | src/weather/aggregator.ts:65-89 | the loop computes exactly the members' daily highs in member order, at most one per member |
| Aggregator.AllMembers | src/weather/aggregator.ts:16-19 | the flattened member list is empty exactly when every forecast has no members |
| Aggregator.ComputeBucketProbabilities | src/weather/aggregator.ts:94-102 | one result per bucket in bucket order, with bounds and label copied and the empirical probability of the samples added, each within [0, 1] |
| Aggregator.AggregateForecasts | src/weather/aggregator.ts:11-60 | fails with "no ensemble members" exactly when the flattened list is empty. Fails with "no temperature data" exactly when members exist but none has a high. Otherwise: city from the first forecast, the highs of all members, `totalMembers` equal to their count, their mean, standard deviation and bucket probabilities |
| Aggregator.IncidencesAddBucket | src/weather/aggregator.ts:94-102 | counting sample-bucket incidences sample by sample and adding one bucket adds exactly that bucket's count |
| Aggregator.DoubleCounting | src/weather/aggregator.ts:94-102 | the per-bucket counts summed over buckets equal the incidences counted per sample |
| Aggregator.IncidencesOfPartition | src/weather/aggregator.ts:94-102 | when every sample lies in exactly one bucket, there are as many incidences as samples |
| Aggregator.SumOfProbabilities | src/weather/aggregator.ts:94-102 | the bucket probabilities sum to the total bucket count divided by the sample count |
| Aggregator.PartitionProbabilitiesSumToOne | src/weather/aggregator.ts:94-102 | with at least one sample, and buckets that are disjoint and cover every sample, the probabilities sum to 1 |
| Edge.FindMatchingBucket | src/strategy/edge.ts:80-90 | none exactly when no bucket has both bounds equal to the market's; otherwise the first such bucket |
| Edge.EdgeFor | src/strategy/edge.ts:18-65 | no matching bucket gives nothing. YES exactly when the forecast exceeds the price, with edge p − m at price m. NO exactly when the price exceeds the forecast, with edge m − p at reported price 1 − m. Nothing at equality. Any edge is positive and carries the market's ids and labels |
| Edge.ComputeEdges | src/strategy/edge.ts:12-78 | at most one edge per market, each positive and each the edge of some market |
| Edge.ComputeEdgesAppend | src/strategy/edge.ts:18-65 | the edges of two market lists are the edges of each, concatenated, so output order follows market order |
| Edge.OneEdgePerMarket | src/strategy/edge.ts:40-64 | one market yields at most one edge, and one exactly when it has an edge, so YES and NO never both appear |
| Kelly.Stake | src/strategy/kelly.ts:42-47 | the stake is the fraction of the bankroll rounded to the cent: a whole number of cents within half a cent, non-negative, and at most the bankroll plus half a cent |
| Kelly.EdgeOverOdds | src/strategy/kelly.ts:37 | the full Kelly fraction times the odds 1 − m gives back the edge; it is positive, and at most 1 when the edge does not exceed the odds |
| Kelly.KellySize | src/strategy/kelly.ts:26-49 | all zero when the forecast does not beat the price, the price is outside (0, 1) or there is no bankroll. Otherwise full Kelly solves f·(1 − m) = p − m and is positive, fractional Kelly is the clamp of f·fraction to [0, 1], and the size is its stake |
| Kelly.FullKellyAtMostOne | src/strategy/kelly.ts:37 | with a forecast that is a probability, full Kelly is at most 1 |
| Kelly.FullKellyMonotone | src/strategy/kelly.ts:33-37 | at a fixed price, a higher forecast never lowers full Kelly |
| Kelly.ExampleStrongEdge | src/strategy/kelly.ts:26-49 | (0.7, 0.5, 1000, 0.5) sizes 0.4 / 0.2 / 200 |
| Kelly.ExampleSmallEdge | src/strategy/kelly.ts:26-49 | (0.55, 0.5, 1000, 0.5) sizes 0.1 / 0.05 / 50 |
| Signals.Confidence | src/strategy/signals.ts:47 | within [0, 1]: 1 for no spread, 0 from a spread of 20 up, 1 − sd/20 between |
| Signals.ConfidenceAntitone | src/strategy/signals.ts:47 | a wider spread never raises confidence |
| Signals.SignalFor | src/strategy/signals.ts:22-62 | a signal exactly when the edge reaches the threshold and the Kelly stake is at least a dollar. It copies the edge's fields, carries the fractional Kelly, and is sized to the smaller of the stake and the position cap |
| Signals.NoSignalWithoutKellyEdge | src/strategy/signals.ts:31-41 | an edge whose forecast does not beat its reported price is never signalled |
| Signals.NoEdgeNeedsOverround | src/strategy/signals.ts:31-36 | a NO edge is sized as kellySize(p, 1 − m), so it is dropped unless p + m > 1 |
| Sorting.Slot | src/strategy/signals.ts:66 | the insertion point lies after every element whose key is at least the new one's and before the first with a smaller key |
| Sorting.Insert | src/strategy/signals.ts:66 | inserting into a list sorted by descending key keeps it sorted and adds exactly the new element |
| Sorting.SortDesc | src/strategy/signals.ts:66 | the result is sorted by descending key and is a permutation of the input |
| Sorting.InsertTied | src/strategy/signals.ts:66 | an insertion appends the new element to the elements that share its key and leaves every other key's elements as they were |
| Sorting.SortIsStable | src/strategy/signals.ts:66 | for every key value, the elements with that key appear in the same order after the sort as before |
| Sorting.InsertLast | src/strategy/signals.ts:66 | an element whose key is no greater than any placed one goes last |
| Sorting.SortKeepsSorted | src/strategy/signals.ts:66 | sorting an already sorted list changes nothing |
| Signals.SortByEdgeDesc | src/strategy/signals.ts:66 | the result is sorted by descending edge, is a permutation of the input, and is stable: for every edge value, the signals with that edge appear in input order |
| Signals.SortKeepsOrdered | src/strategy/signals.ts:66 | signals already in descending edge order are left as they are |
| Signals.GenerateSignals | src/strategy/signals.ts:13-78 | the kept signals sorted by descending edge, as a permutation of the per-edge signals, with signals of equal edge in edge-list order. Each reaches the threshold, is capped, has the forecast's confidence and a Kelly fraction in [0, 1], and comes from some edge |
| Signals.ExampleCappedSignal | src/strategy/signals.ts:38-62 | a $200 Kelly stake under a $50 cap gives a $50 signal with the edge's fields |
| Risk.EvaluateRisk | src/trading/risk.ts:10-36 | exposure is the sum of cost bases and the count is the number of positions. The position limit trips exactly at exposure ≥ 0.8·bankroll and the loss limit exactly at pnl ≤ −max loss. Trading is allowed exactly when neither trips |
| Risk.CanPlaceTrade | src/trading/risk.ts:41-62 | "risk limits hit" exactly when the risk state forbids trading; otherwise "exceeds max position" exactly when the size is above the cap; otherwise "would exceed bankroll" exactly when exposure plus size is above the bankroll; otherwise allowed |
| Risk.AllowedTradeFits | src/trading/risk.ts:47-61 | an allowed trade keeps exposure under 0.8·bankroll before it, within the bankroll after it, and within the position cap |
| Risk.ExposureLimitComesFirst | src/trading/risk.ts:17 | with $980 of exposure on a $1000 bankroll, a $30 trade is blocked by the risk limits, not the bankroll check |
| Ledger.Find | src/trading/positions.ts:33 | the index of the position holding a token, or none exactly when no position holds it |
| Ledger.AverageIn | src/trading/positions.ts:101-108 | a repeat fill adds the stake to the cost basis and stake/price to the shares, re-derives the average price, and changes nothing else |
| Ledger.Opened | src/trading/positions.ts:113-128 | a first fill opens at the fill price with the stake as cost basis, stake/price shares and no unrealized pnl |
| Ledger.AddFill | src/trading/positions.ts:91-137 | averages into the token's position if there is one, else appends a new one. Keeps one position per token, leaves realized pnl alone, and raises exposure by the stake |
| Ledger.AddFillKeepsValid | src/trading/positions.ts:91-137 | a fill at a positive price and stake keeps one position per token with positive share counts |
| Ledger.FirstFillOpens | src/trading/positions.ts:113-128 | the first fill of a token appends its position, with cost basis the stake and shares stake/price |
| Ledger.TwoFillAverage | src/trading/positions.ts:101-108 | two fills of one token average to (s1 + s2)/(s1/p1 + s2/p2) |
| Ledger.Marked | src/trading/positions.ts:140-148 | a priced position gets the new price and pnl (price − avg)·size; an unpriced one is unchanged |
| Ledger.UpdatePrices | src/trading/positions.ts:140-148 | every priced position is marked to its price with only price and pnl changed; every other position is untouched |
| Ledger.UpdatePricesKeepsBook | src/trading/positions.ts:140-148 | marking keeps the tracker valid and its exposure unchanged |
| Ledger.ClosePosition | src/trading/positions.ts:151-168 | a missing token returns 0 and changes nothing. Otherwise returns (settle − avg)·size, adds it to realized pnl, removes exactly that position and lowers exposure by its cost basis |
| Ledger.CloseRemovesToken | src/trading/positions.ts:151-168 | after a close the tracker is valid and no longer holds the token |
| Ledger.UnrealizedPnl | src/trading/positions.ts:180-183 | the sum of the open positions' unrealized pnl: 0 with no positions, and non-negative when every position's is |
| Ledger.CloseDropsUnrealized | src/trading/positions.ts:151-168 | closing a position lowers the unrealized total by exactly that position's unrealized pnl |
| Ledger.UnrealizedAfterMark | src/trading/positions.ts:140-148 | once every position is priced, the unrealized pnl is the sum of the price moves times shares |
| Ledger.ResetDaily | src/trading/positions.ts:186-189 | positions are kept and realized pnl becomes 0 |
| ProfitTaker.RemainingEdge | src/trading/profit-taker.ts:45-86 | YES keeps f − price; NO keeps price − f, that is (1 − f) − (1 − price) |
| ProfitTaker.ExitReasonFor | src/trading/profit-taker.ts:41-86 | "near certain" exactly when its rule holds. Otherwise "edge reversed" exactly when the remaining edge is negative, otherwise "edge gone" exactly when its rule holds, otherwise no exit: the last matching rule wins |
| ProfitTaker.ExitFor | src/trading/profit-taker.ts:35-96 | an exit exactly when the token has a price and a forecast and some rule fires; it carries that price, forecast, remaining edge and reason |
| ProfitTaker.EvaluateExits | src/trading/profit-taker.ts:26-107 | at most one exit per position; each is the exit of one of the positions; every position with an exit is in the output |
| ProfitTaker.EvaluateExitsAppend | src/trading/profit-taker.ts:35-96 | the exits of two position lists are the exits of each, concatenated, so the output is an ordered subsequence |
| ProfitTaker.ExampleNearCertain | src/trading/profit-taker.ts:61-64 | a YES bought at 0.30 and priced at 0.85 exits as near certain even though its edge is gone |
| ProfitTaker.ExitOrderFor | src/trading/profit-taker.ts:142-143 | the exit order sells YES and buys for NO, for the share count rounded to the cent: a whole number of cents within half a cent of it |
| ProfitTaker.RejectedExitWithIdCloses | src/trading/profit-taker.ts:170-177 | a response with `success: false` but an order id still closes the position |
| ProfitTaker.AfterExitsValid | src/trading/profit-taker.ts:170-177 | closing positions exit by exit keeps a valid ledger valid |
| ProfitTaker.ClosedTokensGone | src/trading/profit-taker.ts:170-177 | after the loop no position is left for the token of any exit that closed, whatever later exits did |
| ProfitTaker.ExecuteExits | src/trading/profit-taker.ts:112-194 | dry run counts every exit and changes nothing. Live mode counts exactly the exits that close. Its ledger is the fold of `closePosition` at the exit's current price over the closing exits, in order. Its orders are the exit order of each exit of at least one unit, in order. It keeps the tracker valid, leaves no position for a closed token, and removes only positions of closing exits |
| ProfitTaker.CloseKeepsOthers | src/trading/profit-taker.ts:177 | closing one token keeps every position of another token |
| Executor.CheckBalance | src/trading/executor.ts:25-32 | a raw balance above one million is divided by 10^6, giving more than a dollar; a smaller one is kept; a non-negative balance never grows |
| Executor.CheckBalanceIdempotent | src/trading/executor.ts:25-32 | for raw balances up to 10^12, scaling an already scaled balance changes nothing |
| Executor.ValidateOrderResponse | src/trading/executor.ts:15-20 | no error exactly when there is a response, `success` is not false and it has an order id. Otherwise empty response, rejection with its message or "unknown", or missing order id, each exactly in its case |
| Executor.Confirm | src/trading/executor.ts:112-132 | an order is confirmed exactly when the call returned a response that validates; a thrown call fails with its message |
| Executor.OrderPrice | src/trading/executor.ts:171 | the limit price is a whole number of thousandths in [0.001, 0.999]. It is 0.001 for a market price below 0.0015 and 0.999 from 0.9985 up. In between it is the market price rounded to the nearest thousandth, within half a thousandth of it |
| Executor.OrderFor | src/trading/executor.ts:165-190 | the order is for the signal's token on its side at `OrderPrice` of the signal's price. Its size is a whole number of cents within half a cent of the stake over that price |
| Executor.StatusOf | src/trading/executor.ts:195 | FILLED exactly when the status is "matched", else PLACED |
| Executor.Step | src/trading/executor.ts:61-133 | one loop iteration keeps the ledger valid and echoes the signal. "insufficient remaining balance" exactly when live and over budget; an order only when live and within budget; the ledger changes only on a committed order |
| Executor.StepOutcomes | src/trading/executor.ts:61-133 | one signal: "insufficient remaining balance" exactly when live and over budget, checked before risk. Otherwise the risk reason exactly when blocked, or DRY_RUN exactly when dry-run and allowed. An order is sent exactly when live, within budget and allowed. The ledger changes, by exactly this fill, only when the response validates |
| Executor.StepBasics | src/trading/executor.ts:61-133 | one step keeps the ledger valid and realized pnl fixed; a dry run never orders or touches the ledger |
| Executor.RunFrom | src/trading/executor.ts:61-133 | one result per remaining signal, each echoing it. Exposure grows by exactly the confirmed stakes. A live run never commits more than its remaining balance. A dry run commits and sends nothing |
| Executor.CommittedCons | src/trading/executor.ts:115-118 | the committed total of a result list is its head's stake, if confirmed, plus the rest's total |
| Executor.ExecuteSignals | src/trading/executor.ts:38-136 | live mode with a failed or sub-dollar balance returns nothing and changes nothing. Otherwise one result per signal in order, each echoing it, with exposure up by exactly the confirmed stakes, which stay within the balance |
| Executor.ExampleOversizeBlocked | src/trading/executor.ts:82-105 | a $60 signal under a $50 cap fails as risk-blocked, sends nothing and leaves the ledger empty |
| Parser.ByLength | src/market/parser.ts:50 | the aliases sorted longest first, as a permutation, and stable: aliases of equal length keep their table order |
| Parser.FirstContained | src/market/parser.ts:51-55 | the first alias that occurs in the title, or none exactly when none does |
| Parser.LongestOccurringIndex | src/market/parser.ts:48-57 | independently of the sort: none exactly when no alias occurs. Otherwise an occurring alias no shorter than any occurring one and strictly longer than every occurring one before it in the table |
| Parser.SpliceFirstOccurring | src/market/parser.ts:50-55 | inserting an alias after the ones at least as long makes it the first occurring alias exactly when it occurs and is strictly longer than the previous first |
| Parser.InsertFirstOccurring | src/market/parser.ts:50-55 | the same for the sort's stable insertion |
| Parser.LongestOccurringStep | src/market/parser.ts:48-57 | the reference choice grows one alias at a time: the new alias wins exactly when it occurs and is strictly longer |
| Parser.SortedScanFindsLongest | src/market/parser.ts:48-57 | scanning the sorted aliases for the first occurring one finds the first, in table order, of the longest occurring aliases |
| Parser.MatchedAlias | src/market/parser.ts:48-57 | the alias `extractCity` returns is the reference choice: none exactly when no alias occurs; otherwise an occurring alias of the table no shorter than any occurring one, and the first in table order among those of its length |
| Parser.ExtractCity | src/market/parser.ts:48-57 | the slug of the reference choice, or none exactly when no alias occurs |
| Parser.TableOrderBreaksTies | src/market/parser.ts:50-55 | with "miami" listed before "paris", the title "paris or miami" resolves to miami |
| Parser.MetricOf | src/market/parser.ts:34 | low exactly when the title mentions "low temperature" as whole words |
| Parser.ExtractBucket | src/market/parser.ts:85-127 | none exactly when no pattern matches. A range wins and gives both bounds, then "or higher" gives a lower bound only, then "or lower" gives an upper bound only. The label reads back as the bounds |
| Parser.ParseMarketTitle | src/market/parser.ts:22-46 | a result exactly when city, date and bucket are all found. It has the longest alias's city, the date and the metric. Its bounds and label are exactly those `extractBucket` found in the title: at least one bound, and a label that reads back as its bounds |
| Parser.LongestConfiguredAlias | src/config/settings.ts:131-149 | the longest configured alias has 13 letters and every alias of that length names nyc |
| Parser.LongestAliasDecides | src/market/parser.ts:48-57 | a title containing an alias longer than every other, or tied only with aliases for the same city, maps to that city |
| Parser.NewYorkCityIsNyc | src/market/parser.ts:48-57 | a title mentioning "new york city" maps to nyc with the configured table, not to a shorter alias |
| Parser.LowTemperatureTitle | src/market/parser.ts:34 | "the low temperature in nyc" is a low-temperature market |
| Parser.LowestIsNotLow | src/market/parser.ts:34 | "lowest temperature" is not, because of the word boundary |
| BucketLabel.RangeLabelRoundTrip | src/market/parser.ts:91-97 | the label `low-high°F` reads back as both bounds, negative ones included |
| BucketLabel.HigherLabelRoundTrip | src/market/parser.ts:105-110 | the label `val°F or higher` reads back as a lower bound only |
| BucketLabel.LowerLabelRoundTrip | src/market/parser.ts:118-123 | the label `val°F or lower` reads back as an upper bound only |
| BucketLabel.LabelOf | src/market/parser.ts:85-127 | the label built for any bounds reads back as those bounds |
| BucketLabel.LabelsDistinguishBounds | src/market/parser.ts:85-127 | distinct bounds never share a label |
| Decimal.IntToStringRoundTrip | src/market/parser.ts:91-97 | the decimal text of an integer, sign included, parses back to that integer |
| Decimal.NatToStringInjective | src/market/parser.ts:91-97 | distinct naturals have distinct decimal texts |
| Scanner.MarketFor | src/market/scanner.ts:99-147 | a market is kept exactly when it accepts orders, its question (or the event title) parses, it has a first token id and its YES price lies strictly in (0, 1). It carries that token, price and the parsed city, date, label and bounds |
| Scanner.ParseEventMarkets | src/market/scanner.ts:99-147 | at most one market per input market; every kept market is one that qualifies; every qualifying one is kept |
| Scanner.KeptMarketsArePriced | src/market/scanner.ts:121-129 | every kept market has outcome "Yes" and a price strictly between 0 and 1 |
| Scanner.Survivors | src/market/scanner.ts:41-54 | the events with surviving markets, none of them empty, whose markets together are all the surviving markets in order |
| Scanner.ScanEvents | src/market/scanner.ts:41-54 | no event without markets survives, and the surviving events' markets are exactly all parsed markets in order |
| Scanner.SurvivorsKeepLive | src/market/scanner.ts:42-53 | an event with a surviving market is kept |
| Scanner.SurvivorsAreEvents | src/market/scanner.ts:42-53 | every kept event is an input event with its surviving markets |
| Scanner.ScanKeepsLiveEvents | src/market/scanner.ts:42-53 | every event whose markets parse to something appears in the scan |
| Scanner.ScanKeepsOnlyParsedEvents | src/market/scanner.ts:42-53 | every scanned event is an input event carrying exactly its parsed markets |
| Scanner.Paginate | src/market/scanner.ts:67-97 | nothing exactly when the offset has reached 1000 or the page at the offset failed or came back empty |
| Scanner.PaginateStep | src/market/scanner.ts:75-92 | below offset 1000 a non-empty page's events come first, in order, followed by the events from the next offset; a failed or empty page ends the paging |
| Scanner.PaginateSources | src/market/scanner.ts:67-97 | every collected event came from a successful page at an offset below 1000 |
| Scanner.FirstPageFailure | src/market/scanner.ts:90-93 | a failing first page yields no events |
| Scanner.FetchTemperatureEvents | src/market/scanner.ts:67-97 | the loop collects the paginated events, requesting pages at offsets 0, 100, 200, … and at most ten of them |
| Scanner.ScanWeatherMarkets | src/market/scanner.ts:33-65 | the scan of the fetched events: no empty event, and exactly the parsed markets in order |
| Hrrr.Readings | src/weather/hrrr.ts:47-54 | the (date, temperature) readings are exactly those of the times with a temperature |
| Hrrr.DailyHighs | src/weather/hrrr.ts:47-57 | one entry per distinct date in first-appearance order, each the maximum of that date's readings |
| Hrrr.DailyHighIsMax | src/weather/hrrr.ts:47-54 | each day's high bounds every non-null temperature of that date and is attained by one |
| Hrrr.HrrrForecast | src/weather/hrrr.ts:19-71 | nothing for a non-US city. Otherwise one forecast per daily high, with the city, source "hrrr", the given weight, horizon 18 hours and no low |
| Hrrr.DatesAreDistinct | src/weather/hrrr.ts:47-57 | no date appears twice |
| Nws.InFahrenheit | src/weather/nws.ts:73-77 | a Celsius figure becomes ×9/5 + 32; any other passes unchanged |
| Nws.NightAfter | src/weather/nws.ts:70-71 | the low is the next period's temperature when that period is a night, else 0 |
| Nws.ForecastAt | src/weather/nws.ts:66-88 | a daytime period's forecast: the date before "T", the high and following night's low converted by the day's unit, source "nws", the weight and the short forecast |
| Nws.DaytimeIndices | src/weather/nws.ts:64-66 | exactly the daytime periods, in order |
| Nws.NwsForecast | src/weather/nws.ts:30-93 | nothing for a non-US city; otherwise one forecast per daytime period, in period order |
| Nws.CelsiusDayWithoutNight | src/weather/nws.ts:70-77 | a lone Celsius day gets a low of 32°F, the converted default 0 |
| OpenMeteo.PadTwo | src/weather/openmeteo.ts:105 | a one-digit index is zero-padded to two |
| OpenMeteo.MemberKeyDigits | src/weather/openmeteo.ts:105 | the digits after the member-key prefix read back as the member index |
| OpenMeteo.MemberKeyInjective | src/weather/openmeteo.ts:105 | distinct members have distinct keys |
| OpenMeteo.MembersBelowShape | src/weather/openmeteo.ts:104-118 | the members read so far have increasing indices below the bound, each with the series under its key, the shared times and the model name |
| OpenMeteo.PresentKeysAreRead | src/weather/openmeteo.ts:104-118 | every index whose key is present yields a member |
| OpenMeteo.ParseMembers | src/weather/openmeteo.ts:98-121 | at most memberCount members, with strictly increasing indices below memberCount. Each has its key present, that key's temperatures, the shared times and the model name. Every present key is read |
| OpenMeteo.AllKeysAllMembers | src/weather/openmeteo.ts:104-118 | when every key is present, member i is the i-th result |
| OpenMeteo.FetchAllModels | src/weather/openmeteo.ts:55-78 | exactly the fulfilled forecasts, none invented; empty exactly when every fetch failed |
| Prices.Levels | src/market/prices.ts:28-35 | book levels are parsed element by element, keeping length and order |
| Prices.BestBid | src/market/prices.ts:37 | the highest bid price, attained by a bid, or 0 without bids |
| Prices.BestAsk | src/market/prices.ts:38 | the lowest ask price, attained by an ask, or 1 without asks |
| Prices.Summarize | src/market/prices.ts:16-53 | the book's levels are the response's levels parsed in order, price and size, with an absent side empty. Its best bid and ask are those of the levels, and its spread is best ask minus best bid |
| Prices.UncrossedBookHasPositiveSpread | src/market/prices.ts:37-51 | a book with prices in (0, 1) whose bids are all below its asks has a positive spread |
| Prices.OrderBooks | src/market/prices.ts:58-77 | every key is a token id whose fetch succeeded, holding one of that token's fetched books, and every successfully fetched token is a key |
| Prices.OrderBooksKeys | src/market/prices.ts:58-77 | the map is keyed by exactly the token ids whose fetch succeeded |
| Prices.OrderBooksLastWins | src/market/prices.ts:66-75 | a token fetched successfully maps to its last successful book |
| WeatherService.Summary | src/weather/weatherService.ts:95-113 | a day's entry has the day and the middle item's description |
| WeatherService.SummaryBounds | src/weather/weatherService.ts:95-112 | the minimum, maximum and precipitation chance bound every item of the day and are attained by one |
| WeatherService.AggregateDailyForecasts | src/weather/weatherService.ts:71-115 | one entry per day cut before the first space, in first-appearance order, each summarising exactly that day's items |
| WeatherService.DaysAreDistinct | src/weather/weatherService.ts:88-108 | no day has two entries |
| WeatherService.EveryDayHasEntry | src/weather/weatherService.ts:88-108 | every item's day has an entry |
| WeatherService.EveryEntryIsADay | src/weather/weatherService.ts:88-108 | every entry is some item's day |
| WeatherService.ItemsOnDay | src/weather/weatherService.ts:88-99 | an item is among a day's items exactly when it falls on that day |
| WeatherService.SliceTo | src/weather/weatherService.ts:67 | `slice(0, end)`: a prefix, of length end capped at the length, counting from the back for a negative end |
| WeatherService.GetForecast | src/weather/weatherService.ts:50-69 | a prefix of the daily entries, with exactly `days` of them when there are enough |
| LegacyStrategy.BuySignal | src/strategy/weatherStrategy.ts:90-112 | a BUY signal with the market's id and question, and the outcome and price at the index if they exist |
| LegacyStrategy.TemperatureConfidence | src/strategy/weatherStrategy.ts:87-88 | within [0.5, 0.95]: 0.5 plus a twentieth of the distance, capped at 0.95 from a distance of 9 |
| LegacyStrategy.DetectTemperature | src/strategy/weatherStrategy.ts:73-113 | a signal exactly when the question has an "above N" phrase. Without a number or forecast it is outcome 1 at NaN confidence. Otherwise outcome 0 exactly when the average high exceeds N, at the distance confidence |
| LegacyStrategy.DetectPrecipitation | src/strategy/weatherStrategy.ts:115-156 | a signal exactly when rain, precipitation or snow is mentioned. With no days it is outcome 1 at Infinity confidence. Otherwise outcome 0 exactly when some chance exceeds 0.5, with confidence taken from the largest chance |
| LegacyStrategy.AnalyzeMarket | src/strategy/weatherStrategy.ts:56-71 | nothing unless the question names the location; otherwise temperature detection when it applies, else precipitation; nothing exactly when neither applies |
| LegacyStrategy.ActiveMarkets | src/strategy/weatherStrategy.ts:40 | exactly the active, open markets |
| LegacyStrategy.ActiveMarketsAppend | src/strategy/weatherStrategy.ts:40 | the filter distributes over concatenation, so the kept markets stay in input order |
| LegacyStrategy.Kept | src/strategy/weatherStrategy.ts:47 | a signal is kept exactly when its confidence reaches the floor |
| LegacyStrategy.SignalsAt | src/strategy/weatherStrategy.ts:42-51 | for one location: every kept signal of some market, all of them, each reaching the floor |
| LegacyStrategy.FindTradeSignals | src/strategy/weatherStrategy.ts:36-54 | every signal reaches the confidence floor |
| LegacyStrategy.SignalsComeFromActiveMarkets | src/strategy/weatherStrategy.ts:36-54 | every signal is the analysis of an active, open market naming one of the locations |
| LegacyStrategy.KeptSignalsAreFound | src/strategy/weatherStrategy.ts:36-54 | every analysis of an active, open market that reaches the floor is found |
| LegacyStrategy.RainWithoutForecastAlwaysPasses | src/strategy/weatherStrategy.ts:127-155 | a rain question with no forecast days gets outcome 1 at Infinity confidence and passes any floor |
| LegacyStrategy.TemperatureWithoutForecastNeverPasses | src/strategy/weatherStrategy.ts:83-88 | a temperature question with no forecast days has NaN confidence and passes no floor |
| LegacyStrategy.HighMinimumDropsTemperatureSignals | src/strategy/weatherStrategy.ts:87-88 | a floor above 0.95 drops every temperature signal |
| LegacyStrategy.PrecipitationConfidenceAtMostOne | src/strategy/weatherStrategy.ts:131 | with chances in [0, 1], precipitation confidence lies in [0.5, 1] |
| Numeric.JsRound | src/strategy/kelly.ts:47 | `Math.round` lands within half a unit of its argument, rounding halves up |
| Numeric.Round2 | src/strategy/kelly.ts:47 | rounding to the cent gives a whole number of cents within half a cent of the value, non-negative for a non-negative value |
| Numeric.Round3 | src/trading/executor.ts:171 | rounding to the thousandth gives a whole number of thousandths within half a thousandth of the value |
| TradingTypes.OrderSideOf | src/trading/executor.ts:172 | BUY exactly for a YES signal |
| Text.LowerChar | src/market/parser.ts:23 | A to Z and the Latin-1 capitals À to Þ (except ×) move 32 code points up to their small letters; every other character is kept; no such capital remains |
| Text.ToLower | src/market/parser.ts:23 | lower-casing keeps the length and lowers each character |
| Text.ToLowerIdempotent | src/market/parser.ts:23 | lower-casing twice is lower-casing once |
| Text.LowerSaoPaulo | src/config/settings.ts:143 | "SÃO PAULO" lowers to the alias "são paulo" |
| Text.PrefixBefore | src/weather/hrrr.ts:50 | the prefix before a separator is a prefix without it, followed by the separator when shorter than the text |

## Left out

- Network and I/O are parameters and are not modelled. This covers HTTP, the Gamma and CLOB clients, the wallet, file persistence (`loadState`, `saveState`, `persistTrade`) and logging.
- Retry with random backoff is not modelled: a fetch is one oracle outcome.
- The polling loop and `Promise.all` fan-out in `src/index.ts` and `src/weather/deterministic.ts` are not modelled: they are concurrency and source selection. Settled fan-outs appear only as `seq<Option<T>>` inputs.
- Clock and timezone code is an abstract date function: `src/utils/time.ts` and `extractDate`.
- Kernel density estimation and `Math.sqrt` are not modelled: they are floating-point transcendental code. `sqrt` is a parameter of `Stats.StdDev`.
- Regular expressions are abstract matchers, because Dafny has no regex engine. This covers the bucket patterns, the date pattern and the legacy "above N" matcher. The rain/snow keyword test is concrete: `LegacyStrategy.MentionsPrecipitation` checks for the three words with `includes`.
- `getCurrentWeather` and `src/weather/weatherapi.ts` are not modelled: they copy fields after an HTTP call.
- Reasoning and log strings are left out: they are text for humans.
- The scanner's constant `unit` field is left out: nothing downstream reads it.
- `new Date(day)` in the weather service is left out: days stay date text.
- WeatherService.Summary: an item with an empty `weather` array makes the code throw. The model takes the description as given per item.
- WeatherService.GetForecast: a non-integer `days` is not modelled; `days` is an `int`.
- Ledger.AddFill requires a non-zero price and a non-zero resulting share count. The code would store `Infinity` or `NaN` there, and reals have neither.
- Executor.ExecuteSignals requires every live signal to have a positive price and stake (`Fillable`), for the same reason.
- Executor.ExecuteSignals: in dry-run mode the code's remaining balance is `Infinity` and is never read. The model uses a budget of 0 that it never consults.
- Executor.ExecuteSignals: a dry-run order id is a parameter, not a timestamp.
- LegacyStrategy.FindTradeSignals: `forecastFor` is a function parameter standing for `getForecast(location, 5)`. Its failures are not modelled.
- Text.ToLower: only A to Z and the Latin-1 capitals À to Þ are lowered. JavaScript's `toLowerCase` also lowers the capitals of other scripts, such as Greek, Cyrillic and Latin Extended; none of them occurs in the alias table.
- Prices.OrderBooks: the iteration order of the JavaScript `Map` is not modelled, only its keys and values.
- Numeric.Round2: rounds the exact real product `x*100`. The code multiplies binary floating-point numbers, so a product that should sit on a half can land just below it and round the other way: `1.005*100` is `100.49999999999999` in JavaScript, giving 1 where the model gives 1.01.
- Numeric.Round3: the same for `x*1000`, so `Executor.OrderPrice` can differ from the code by one thousandth on such inputs.
- Kelly.Stake: the stake is `Round2` of `fraction * bankroll` on exact reals, so it inherits the floating-point difference of Numeric.Round2.
- NaN and Infinity appear only in the legacy confidence. Elsewhere the model assumes finite inputs, as the forecast sources and aggregator produce them.

=== FILE: aggregator.dfy ===
/** Ensemble aggregation (`src/weather/aggregator.ts`): one daily high per
    member, pooled over every model, then turned into bucket probabilities by
    empirical counting. */
module Aggregator {
  import opened Wrappers
  import opened Text
  import opened Seqs
  import opened Stats
  import opened WeatherTypes

  /** `member.temperatures[i]`; an index past the end reads `undefined`, which
      the `!= null` test treats like `null`. */
  function TempAt(m: EnsembleMember, i: nat): Option<real>
  {
    if i < |m.temperatures| then m.temperatures[i] else None
  }

  /** Hour `i` of the member counts towards the high of `date`: its timestamp
      starts with the date and its temperature is present. */
  predicate Counts(m: EnsembleMember, date: string, i: nat)
    requires i < |m.times|
  {
    StartsWith(m.times[i], date) && TempAt(m, i).Some?
  }

  /** The running maximum over the first `n` hours; `None` stands for the
      `-Infinity` seed, i.e. nothing counted yet. */
  function HighUpTo(m: EnsembleMember, date: string, n: nat): (r: Option<real>)
    requires n <= |m.times|
    ensures r.Some? ==> exists i :: 0 <= i < n && Counts(m, date, i) && TempAt(m, i).value == r.value
    ensures forall i :: 0 <= i < n && Counts(m, date, i) ==> r.Some? && TempAt(m, i).value <= r.value
  {
    if n == 0 then None
    else
      var prev := HighUpTo(m, date, n - 1);
      var t := TempAt(m, n - 1);
      if Counts(m, date, n - 1) && (prev.None? || t.value > prev.value) then t else prev
  }

  /** The member's daily high for `date`, if any hour of that date has a temperature. */
  function DailyHigh(m: EnsembleMember, date: string): Option<real>
  {
    HighUpTo(m, date, |m.times|)
  }

  /** A member contributes no high exactly when no hour of the date has a temperature. */
  lemma NoHighIffNothingCounts(m: EnsembleMember, date: string)
    ensures DailyHigh(m, date).None? <==> forall i :: 0 <= i < |m.times| ==> !Counts(m, date, i)
  {
  }

  /** The highs of the members that have one, in member order. */
  function HighsOf(members: seq<EnsembleMember>, date: string): (r: seq<real>)
    ensures |r| <= |members|
    ensures |r| == 0 <==> forall j :: 0 <= j < |members| ==> DailyHigh(members[j], date).None?
    ensures forall k :: 0 <= k < |r| ==>
              exists j :: 0 <= j < |members| && DailyHigh(members[j], date) == Some(r[k])
  {
    if |members| == 0 then []
    else
      var init := members[..|members| - 1];
      var rest := HighsOf(init, date);
      assert forall j :: 0 <= j < |init| ==> init[j] == members[j];
      var h := DailyHigh(members[|members| - 1], date);
      if h.Some? then rest + [h.value] else rest
  }

  /** `extractDailyHighs`: the nested loops of the source. */
  method ExtractDailyHighs(members: seq<EnsembleMember>, date: string) returns (highs: seq<real>)
    ensures highs == HighsOf(members, date)
    ensures |highs| <= |members|
  {
    highs := [];
    for j := 0 to |members|
      invariant highs == HighsOf(members[..j], date)
    {
      var member := members[j];
      var maxTemp: Option<real> := None;
      var found := false;
      for i := 0 to |member.times|
        invariant maxTemp == HighUpTo(member, date, i)
        invariant maxTemp.Some? ==> found
      {
        if StartsWith(member.times[i], date) {
          found := true;
          var t := TempAt(member, i);
          if t.Some? && (maxTemp.None? || t.value > maxTemp.value) {
            maxTemp := t;
          }
        }
      }
      if found && maxTemp.Some? {
        highs := highs + [maxTemp.value];
      }
      assert members[..j + 1][..j] == members[..j];
    }
    assert members[..|members|] == members;
  }

  /** All members of all forecasts, in forecast order. */
  function AllMembers(forecasts: seq<EnsembleForecast>): (r: seq<EnsembleMember>)
    ensures |r| == 0 <==> forall f :: 0 <= f < |forecasts| ==> |forecasts[f].members| == 0
  {
    if |forecasts| == 0 then []
    else
      var init := forecasts[..|forecasts| - 1];
      assert forall f :: 0 <= f < |init| ==> init[f] == forecasts[f];
      AllMembers(init) + forecasts[|forecasts| - 1].members
  }

  /** `computeBucketProbabilities`: each bucket unchanged, with the share of samples in it. */
  function ComputeBucketProbabilities(samples: seq<real>, buckets: seq<Bucket>): (r: seq<BucketProbability>)
    ensures |r| == |buckets|
    ensures forall i :: 0 <= i < |r| ==>
              && r[i].lower == buckets[i].lower
              && r[i].upper == buckets[i].upper
              && r[i].bucketLabel == buckets[i].bucketLabel
              && r[i].probability == EmpiricalProbability(samples, buckets[i].lower, buckets[i].upper)
    ensures forall i :: 0 <= i < |r| ==> 0.0 <= r[i].probability <= 1.0
  {
    seq(|buckets|, i requires 0 <= i < |buckets| =>
      BucketProbability(buckets[i].lower, buckets[i].upper, buckets[i].bucketLabel,
                        EmpiricalProbability(samples, buckets[i].lower, buckets[i].upper)))
  }

  datatype AggregateError = NoEnsembleMembers(date: string) | NoTemperatureData(date: string)

  /** `aggregateForecasts`; the two thrown errors are `Failure`s. The square
      root used by the standard deviation is the parameter `sqrt`. */
  function AggregateForecasts(forecasts: seq<EnsembleForecast>, targetDate: string,
                              buckets: seq<Bucket>, sqrt: real -> real)
    : (r: Result<AggregatedForecast, AggregateError>)
    ensures r == Failure(NoEnsembleMembers(targetDate)) <==> |AllMembers(forecasts)| == 0
    ensures r == Failure(NoTemperatureData(targetDate)) <==>
              && |AllMembers(forecasts)| > 0
              && forall j :: 0 <= j < |AllMembers(forecasts)| ==> DailyHigh(AllMembers(forecasts)[j], targetDate).None?
    ensures r.Success? ==>
              && |forecasts| > 0
              && r.value.city == forecasts[0].city
              && r.value.date == targetDate
              && r.value.highTemps == HighsOf(AllMembers(forecasts), targetDate)
              && r.value.totalMembers == |r.value.highTemps| > 0
              && r.value.totalMembers <= |AllMembers(forecasts)|
              && r.value.mean == Mean(r.value.highTemps)
              && r.value.stdDev == StdDev(r.value.highTemps, sqrt)
              && r.value.bucketProbabilities == ComputeBucketProbabilities(r.value.highTemps, buckets)
  {
    var all := AllMembers(forecasts);
    if |all| == 0 then Failure(NoEnsembleMembers(targetDate))
    else
      var highs := HighsOf(all, targetDate);
      if |highs| == 0 then Failure(NoTemperatureData(targetDate))
      else
        Success(AggregatedForecast(
          forecasts[0].city, targetDate, |highs|, highs,
          Mean(highs), StdDev(highs, sqrt),
          ComputeBucketProbabilities(highs, buckets)))
  }

  // ---- Probabilities of a partition sum to one ----

  /** How many of the buckets contain `v`. */
  function NumContaining(buckets: seq<Bucket>, v: real): nat
  {
    if |buckets| == 0 then 0
    else
      var b := buckets[|buckets| - 1];
      NumContaining(buckets[..|buckets| - 1], v) + (if InBucket(v, b.lower, b.upper) then 1 else 0)
  }

  /** Every sample lies in exactly one bucket: the buckets are disjoint and cover the samples. */
  predicate PartitionsSamples(buckets: seq<Bucket>, samples: seq<real>)
  {
    forall i :: 0 <= i < |samples| ==> NumContaining(buckets, samples[i]) == 1
  }

  function Probabilities(bps: seq<BucketProbability>): (r: seq<real>)
    ensures |r| == |bps|
  {
    seq(|bps|, i requires 0 <= i < |bps| => bps[i].probability)
  }

  /** Sum over buckets of the samples each holds. */
  function TotalCount(samples: seq<real>, buckets: seq<Bucket>): nat
  {
    if |buckets| == 0 then 0
    else
      var b := buckets[|buckets| - 1];
      TotalCount(samples, buckets[..|buckets| - 1]) + CountIn(samples, b.lower, b.upper)
  }

  /** Sum over samples of the buckets each lies in. */
  function Incidences(samples: seq<real>, buckets: seq<Bucket>): nat
  {
    if |samples| == 0 then 0
    else Incidences(samples[..|samples| - 1], buckets) + NumContaining(buckets, samples[|samples| - 1])
  }

  lemma {:induction false} IncidencesAddBucket(samples: seq<real>, buckets: seq<Bucket>, b: Bucket)
    ensures Incidences(samples, buckets + [b]) == Incidences(samples, buckets) + CountIn(samples, b.lower, b.upper)
    decreases |samples|
  {
    if |samples| > 0 {
      assert (buckets + [b])[..|buckets + [b]| - 1] == buckets;
      IncidencesAddBucket(samples[..|samples| - 1], buckets, b);
    }
  }

  /** Counting sample-bucket incidences by bucket or by sample gives the same total. */
  lemma {:induction false} DoubleCounting(samples: seq<real>, buckets: seq<Bucket>)
    ensures TotalCount(samples, buckets) == Incidences(samples, buckets)
    decreases |buckets|
  {
    if |buckets| == 0 {
      IncidencesWithoutBuckets(samples);
    } else {
      var init := buckets[..|buckets| - 1];
      var b := buckets[|buckets| - 1];
      DoubleCounting(samples, init);
      assert init + [b] == buckets;
      IncidencesAddBucket(samples, init, b);
    }
  }

  lemma {:induction false} IncidencesWithoutBuckets(samples: seq<real>)
    ensures Incidences(samples, []) == 0
    decreases |samples|
  {
    if |samples| > 0 {
      IncidencesWithoutBuckets(samples[..|samples| - 1]);
    }
  }

  lemma {:induction false} IncidencesOfPartition(samples: seq<real>, buckets: seq<Bucket>)
    requires PartitionsSamples(buckets, samples)
    ensures Incidences(samples, buckets) == |samples|
    decreases |samples|
  {
    if |samples| > 0 {
      var init := samples[..|samples| - 1];
      assert PartitionsSamples(buckets, init) by {
        forall i | 0 <= i < |init| ensures NumContaining(buckets, init[i]) == 1 {
          assert init[i] == samples[i];
        }
      }
      IncidencesOfPartition(init, buckets);
    }
  }

  lemma ProbabilitiesOfPrefix(samples: seq<real>, buckets: seq<Bucket>)
    requires |buckets| > 0
    ensures var ps := Probabilities(ComputeBucketProbabilities(samples, buckets));
            var b := buckets[|buckets| - 1];
            && ps[..|ps| - 1] == Probabilities(ComputeBucketProbabilities(samples, buckets[..|buckets| - 1]))
            && ps[|ps| - 1] == EmpiricalProbability(samples, b.lower, b.upper)
  {
    var ps := Probabilities(ComputeBucketProbabilities(samples, buckets));
    var qs := Probabilities(ComputeBucketProbabilities(samples, buckets[..|buckets| - 1]));
    assert |ps[..|ps| - 1]| == |qs|;
    forall k | 0 <= k < |qs| ensures ps[..|ps| - 1][k] == qs[k] {
      assert buckets[..|buckets| - 1][k] == buckets[k];
    }
  }

  lemma {:induction false} SumOfProbabilities(samples: seq<real>, buckets: seq<Bucket>)
    requires |samples| > 0
    ensures Sum(Probabilities(ComputeBucketProbabilities(samples, buckets)))
            == TotalCount(samples, buckets) as real / |samples| as real
    decreases |buckets|
  {
    if |buckets| > 0 {
      var n := |samples| as real;
      var init := buckets[..|buckets| - 1];
      var b := buckets[|buckets| - 1];
      var ps := Probabilities(ComputeBucketProbabilities(samples, buckets));
      ProbabilitiesOfPrefix(samples, buckets);
      SumOfProbabilities(samples, init);
      var t := TotalCount(samples, init) as real;
      var c := CountIn(samples, b.lower, b.upper) as real;
      var qs := Probabilities(ComputeBucketProbabilities(samples, init));
      assert Sum(ps) == Sum(ps[..|ps| - 1]) + ps[|ps| - 1];
      assert Sum(qs) == t / n;
      assert ps[|ps| - 1] == c / n;
      AddFractions(t, c, n);
      assert TotalCount(samples, buckets) as real == t + c;
    }
  }

  lemma AddFractions(a: real, b: real, n: real)
    requires n > 0.0
    ensures a / n + b / n == (a + b) / n
  {
  }

  /** For buckets that partition the samples, the bucket probabilities sum to 1. */
  lemma PartitionProbabilitiesSumToOne(samples: seq<real>, buckets: seq<Bucket>)
    requires |samples| > 0
    requires PartitionsSamples(buckets, samples)
    ensures Sum(Probabilities(ComputeBucketProbabilities(samples, buckets))) == 1.0
  {
    SumOfProbabilities(samples, buckets);
    DoubleCounting(samples, buckets);
    IncidencesOfPartition(samples, buckets);
    var n := |samples| as real;
    assert TotalCount(samples, buckets) as real == n;
    DivSelf(n);
  }

  lemma DivSelf(n: real)
    requires n > 0.0
    ensures n / n == 1.0
  {
  }
}

=== FILE: bucket_label.dfy ===
/** The bucket labels the market parser writes (`src/market/parser.ts`):
    `${low}-${high}°F`, `${val}°F or higher` and `${val}°F or lower`, with a
    reader that recovers the bounds from a label. */
module BucketLabel {
  import opened Wrappers
  import opened Text
  import opened Decimal

  /** The degree sign and unit every label carries. */
  const Fahrenheit: string := "\U{00B0}F"
  const HigherSuffix: string := Fahrenheit + " or higher"
  const LowerSuffix: string := Fahrenheit + " or lower"

  /** The bounds of a bucket; `None` is an open side. */
  datatype Bounds = Bounds(lower: Option<int>, upper: Option<int>)

  function RangeLabel(low: int, high: int): string
  {
    IntToString(low) + "-" + IntToString(high) + Fahrenheit
  }

  function HigherLabel(val: int): string
  {
    IntToString(val) + HigherSuffix
  }

  function LowerLabel(val: int): string
  {
    IntToString(val) + LowerSuffix
  }

  /** The first `-` at or after index `i`, if any. */
  function DashFrom(s: string, i: nat): (k: Option<nat>)
    requires i <= |s|
    ensures k.Some? ==> i <= k.value < |s| && s[k.value] == '-'
    ensures k.Some? ==> forall j :: i <= j < k.value ==> s[j] != '-'
    ensures k.None? ==> forall j :: i <= j < |s| ==> s[j] != '-'
    decreases |s| - i
  {
    if i == |s| then None
    else if s[i] == '-' then Some(i)
    else DashFrom(s, i + 1)
  }

  /** Reads `low-high`, where `low` may carry its own leading minus. */
  function ReadRange(body: string): (r: Option<Bounds>)
    ensures r.Some? ==> r.value.lower.Some? && r.value.upper.Some?
  {
    if |body| == 0 then None
    else match DashFrom(body, 1)
      case None => None
      case Some(k) =>
        var low := body[..k];
        var high := body[k + 1..];
        if IsIntegerText(low) && IsIntegerText(high)
        then Some(Bounds(Some(ParseInt(low)), Some(ParseInt(high))))
        else None
  }

  /** Reads a one-sided value. */
  function ReadValue(text: string): (r: Option<int>)
  {
    if IsIntegerText(text) then Some(ParseInt(text)) else None
  }

  /** The bounds a label describes, or `None` for text that is no label. */
  function ReadLabel(tag: string): (r: Option<Bounds>)
    ensures r.Some? ==> EndsWith(tag, Fahrenheit) || EndsWith(tag, HigherSuffix) || EndsWith(tag, LowerSuffix)
  {
    if EndsWith(tag, HigherSuffix) then
      match ReadValue(tag[..|tag| - |HigherSuffix|])
      case None => None
      case Some(v) => Some(Bounds(Some(v), None))
    else if EndsWith(tag, LowerSuffix) then
      match ReadValue(tag[..|tag| - |LowerSuffix|])
      case None => None
      case Some(v) => Some(Bounds(None, Some(v)))
    else if EndsWith(tag, Fahrenheit) then
      ReadRange(tag[..|tag| - |Fahrenheit|])
    else None
  }

  /** Past a leading minus, the text of an integer holds no `-`. */
  lemma NoDashInDigits(i: int)
    ensures forall j :: 1 <= j < |IntToString(i)| ==> IntToString(i)[j] != '-'
  {
    var s := IntToString(i);
    if i < 0 {
      assert s == "-" + NatToString(-i);
      forall j | 1 <= j < |s| ensures s[j] != '-' {
        assert s[j] == NatToString(-i)[j - 1];
      }
    }
  }

  /** Reading a range label gives back its two bounds. */
  lemma RangeLabelRoundTrip(low: int, high: int)
    ensures ReadLabel(RangeLabel(low, high)) == Some(Bounds(Some(low), Some(high)))
  {
    var a := IntToString(low);
    var b := IntToString(high);
    var tag := RangeLabel(low, high);
    assert tag[|tag| - 1] == 'F';
    assert HigherSuffix[|HigherSuffix| - 1] == 'r' && LowerSuffix[|LowerSuffix| - 1] == 'r';
    assert !EndsWith(tag, HigherSuffix) by {
      if EndsWith(tag, HigherSuffix) {
        assert false;
      }
    }
    assert !EndsWith(tag, LowerSuffix) by {
      if EndsWith(tag, LowerSuffix) {
        assert false;
      }
    }
    var body := a + "-" + b;
    assert tag == body + Fahrenheit;
    assert EndsWith(tag, Fahrenheit);
    assert tag[..|tag| - |Fahrenheit|] == body;
    NoDashInDigits(low);
    assert |a| >= 1;
    forall j | 1 <= j < |a| ensures body[j] != '-' {
      assert body[j] == a[j];
    }
    assert body[|a|] == '-';
    assert DashFrom(body, 1) == Some(|a|) by {
      DashFromFinds(body, 1, |a|);
    }
    assert body[..|a|] == a;
    assert body[|a| + 1..] == b;
    IntToStringRoundTrip(low);
    IntToStringRoundTrip(high);
  }

  /** `DashFrom` stops at the first dash. */
  lemma {:induction false} DashFromFinds(s: string, i: nat, k: nat)
    requires i <= k < |s|
    requires s[k] == '-'
    requires forall j :: i <= j < k ==> s[j] != '-'
    ensures DashFrom(s, i) == Some(k)
    decreases k - i
  {
    if i < k {
      DashFromFinds(s, i + 1, k);
    }
  }

  /** Reading an "or higher" label gives back its lower bound. */
  lemma HigherLabelRoundTrip(val: int)
    ensures ReadLabel(HigherLabel(val)) == Some(Bounds(Some(val), None))
  {
    var tag := HigherLabel(val);
    assert tag[|tag| - |HigherSuffix|..] == HigherSuffix;
    assert tag[..|tag| - |HigherSuffix|] == IntToString(val);
    IntToStringRoundTrip(val);
  }

  /** Reading an "or lower" label gives back its upper bound. */
  lemma LowerLabelRoundTrip(val: int)
    ensures ReadLabel(LowerLabel(val)) == Some(Bounds(None, Some(val)))
  {
    var tag := LowerLabel(val);
    assert tag[|tag| - 5] == 'l';
    assert HigherSuffix[|HigherSuffix| - 5] == 'i';
    assert !EndsWith(tag, HigherSuffix) by {
      if EndsWith(tag, HigherSuffix) {
        assert false;
      }
    }
    assert tag[|tag| - |LowerSuffix|..] == LowerSuffix;
    assert tag[..|tag| - |LowerSuffix|] == IntToString(val);
    IntToStringRoundTrip(val);
  }

  /** The label of a bucket: a range when both bounds are set, else the open
      side's form. A bucket with neither bound has no label. */
  function LabelOf(b: Bounds): (r: string)
    requires b.lower.Some? || b.upper.Some?
    ensures ReadLabel(r) == Some(b)
  {
    if b.lower.Some? && b.upper.Some? then
      RangeLabelRoundTrip(b.lower.value, b.upper.value);
      RangeLabel(b.lower.value, b.upper.value)
    else if b.lower.Some? then
      HigherLabelRoundTrip(b.lower.value);
      HigherLabel(b.lower.value)
    else
      LowerLabelRoundTrip(b.upper.value);
      LowerLabel(b.upper.value)
  }

  /** Different bounds never share a label. */
  lemma LabelsDistinguishBounds(a: Bounds, b: Bounds)
    requires a.lower.Some? || a.upper.Some?
    requires b.lower.Some? || b.upper.Some?
    requires LabelOf(a) == LabelOf(b)
    ensures a == b
  {
  }
}

=== FILE: config.dfy ===
/** Configuration records (`src/config/types.ts`) and the constants of
    `src/config/settings.ts` that the modelled code reads. */
module Config {

  datatype CityConfig = CityConfig(
    name: string,
    slug: string,
    latitude: real,
    longitude: real,
    timezone: string,
    country: string)

  datatype EnsembleModelConfig = EnsembleModelConfig(name: string, memberCount: int, apiParam: string)

  /** The strategy and operational fields of `AppConfig` the core reads. */
  datatype AppConfig = AppConfig(
    edgeThreshold: real,
    kellyFraction: real,
    maxPositionUsd: real,
    maxDailyLossUsd: real,
    bankrollUsd: real,
    dryRun: bool)

  /** `HRRR_CONFIG.maxHorizonHours`. */
  const HrrrMaxHorizonHours: int := 18

  /** `CITY_ALIASES`, in declaration order: alias (lower case) to city slug. */
  const CityAliases: seq<(string, string)> := [
    ("new york city", "nyc"),
    ("new york", "nyc"),
    ("nyc", "nyc"),
    ("chicago", "chicago"),
    ("london", "london"),
    ("seoul", "seoul"),
    ("seattle", "seattle"),
    ("dallas", "dallas"),
    ("atlanta", "atlanta"),
    ("miami", "miami"),
    ("paris", "paris"),
    ("sao paulo", "sao-paulo"),
    ("são paulo", "sao-paulo"),
    ("buenos aires", "buenos-aires"),
    ("toronto", "toronto"),
    ("ankara", "ankara"),
    ("wellington", "wellington")
  ]
}

=== FILE: decimal.dfy ===
/** Decimal rendering of integers, as JavaScript's `String(n)` and template
    literals print them, with the parse that inverts it. */
module Decimal {

  predicate IsDigit(c: char)
  {
    '0' <= c <= '9'
  }

  predicate AllDigits(s: string)
  {
    forall i :: 0 <= i < |s| ==> IsDigit(s[i])
  }

  function DigitChar(d: nat): (c: char)
    requires d < 10
    ensures IsDigit(c)
  {
    ('0' as int + d) as char
  }

  function DigitValue(c: char): (d: nat)
    requires IsDigit(c)
    ensures d < 10
  {
    c as int - '0' as int
  }

  /** `String(n)` for a natural number: its decimal digits, no leading zero. */
  function NatToString(n: nat): (r: string)
    ensures |r| >= 1
    ensures AllDigits(r)
    ensures n < 10 <==> |r| == 1
    ensures n >= 10 ==> r[0] != '0'
    decreases n
  {
    if n < 10 then [DigitChar(n)] else NatToString(n / 10) + [DigitChar(n % 10)]
  }

  /** The value of a string of decimal digits. */
  function ParseDigits(s: string): nat
    requires AllDigits(s)
  {
    if |s| == 0 then 0 else ParseDigits(s[..|s| - 1]) * 10 + DigitValue(s[|s| - 1])
  }

  /** Printing a natural number and parsing it back gives the number. */
  lemma {:induction false} ParseNatToString(n: nat)
    ensures ParseDigits(NatToString(n)) == n
    decreases n
  {
    if n >= 10 {
      var r := NatToString(n);
      assert r[..|r| - 1] == NatToString(n / 10);
      ParseNatToString(n / 10);
    }
  }

  /** Leading zeros do not change the value of a digit string. */
  lemma {:induction false} ParseLeadingZero(s: string)
    requires AllDigits(s)
    ensures AllDigits("0" + s)
    ensures ParseDigits("0" + s) == ParseDigits(s)
    decreases |s|
  {
    if |s| > 0 {
      assert ("0" + s)[..|"0" + s| - 1] == "0" + s[..|s| - 1];
      ParseLeadingZero(s[..|s| - 1]);
    }
  }

  lemma NatToStringInjective(a: nat, b: nat)
    requires NatToString(a) == NatToString(b)
    ensures a == b
  {
    ParseNatToString(a);
    ParseNatToString(b);
  }

  /** `${i}` for an integer. */
  function IntToString(i: int): string
  {
    if i < 0 then "-" + NatToString(-i) else NatToString(i)
  }

  /** Text `parseInt` reads back in full: an optional minus and at least one digit. */
  predicate IsIntegerText(s: string)
  {
    if |s| > 0 && s[0] == '-' then |s| > 1 && AllDigits(s[1..]) else |s| > 0 && AllDigits(s)
  }

  function ParseInt(s: string): int
    requires IsIntegerText(s)
  {
    if s[0] == '-' then -(ParseDigits(s[1..]) as int) else ParseDigits(s)
  }

  /** Printing an integer and parsing it back gives the integer. */
  lemma IntToStringRoundTrip(i: int)
    ensures IsIntegerText(IntToString(i))
    ensures ParseInt(IntToString(i)) == i
  {
    var s := IntToString(i);
    if i < 0 {
      var digits := NatToString(-i);
      assert s == "-" + digits;
      assert s[0] == '-' && s[1..] == digits;
      ParseNatToString(-i);
    } else {
      assert IsDigit(s[0]);
      ParseNatToString(i);
    }
  }
}

=== FILE: edge.dfy ===
/** Edge selection (`src/strategy/edge.ts`): per market, the YES side when the
    forecast beats the price, else the NO side when the price beats the
    forecast, else nothing. */
module Edge {
  import opened Wrappers
  import opened Seqs
  import opened WeatherTypes
  import opened MarketTypes
  import opened StrategyTypes

  /** Both bounds equal (`===`), a `null` bound matching only `null`. */
  predicate BoundsMatch(b: BucketProbability, m: WeatherMarket)
  {
    b.lower == m.bucketLower && b.upper == m.bucketUpper
  }

  /** `findMatchingBucket`: the first bucket whose bounds equal the market's. */
  function FindMatchingBucket(buckets: seq<BucketProbability>, m: WeatherMarket): (r: Option<BucketProbability>)
    ensures r.None? <==> forall i :: 0 <= i < |buckets| ==> !BoundsMatch(buckets[i], m)
    ensures r.Some? ==> exists i :: 0 <= i < |buckets| && buckets[i] == r.value && BoundsMatch(buckets[i], m)
                                    && forall j :: 0 <= j < i ==> !BoundsMatch(buckets[j], m)
  {
    if |buckets| == 0 then None
    else if BoundsMatch(buckets[0], m) then Some(buckets[0])
    else
      var r := FindMatchingBucket(buckets[1..], m);
      assert forall i :: 0 <= i < |buckets| - 1 ==> buckets[1..][i] == buckets[i + 1];
      r
  }

  /** The loop body of `computeEdges` for one market. */
  function EdgeFor(buckets: seq<BucketProbability>, m: WeatherMarket): (r: Option<EdgeResult>)
    ensures FindMatchingBucket(buckets, m).None? ==> r.None?
    ensures FindMatchingBucket(buckets, m).Some? ==>
              var p := FindMatchingBucket(buckets, m).value.probability;
              && ((r.Some? && r.value.side == Yes) <==> p > m.price)
              && ((r.Some? && r.value.side == No) <==> m.price > p)
              && (r.None? <==> p == m.price)
              && (r.Some? ==> r.value.forecastProb == p)
              && (r.Some? && r.value.side == Yes ==> r.value.edge == p - m.price && r.value.marketPrice == m.price)
              && (r.Some? && r.value.side == No ==> r.value.edge == m.price - p && r.value.marketPrice == 1.0 - m.price)
    ensures r.Some? ==> && r.value.edge > 0.0
                        && r.value.tokenId == m.tokenId
                        && r.value.conditionId == m.conditionId
                        && r.value.city == m.city
                        && r.value.date == m.date
                        && r.value.bucketLabel == m.bucketLabel
  {
    match FindMatchingBucket(buckets, m)
    case None => None
    case Some(bucket) =>
      var forecastProb := bucket.probability;
      var marketPrice := m.price;
      var yesEdge := forecastProb - marketPrice;
      var noEdge := (1.0 - forecastProb) - (1.0 - marketPrice);
      if yesEdge > 0.0 then
        Some(EdgeResult(m.tokenId, m.conditionId, m.city, m.date, m.bucketLabel,
                        forecastProb, marketPrice, yesEdge, Yes))
      else if noEdge > 0.0 then
        Some(EdgeResult(m.tokenId, m.conditionId, m.city, m.date, m.bucketLabel,
                        forecastProb, 1.0 - marketPrice, noEdge, No))
      else None
  }

  /** `computeEdges`: at most one edge per market, in market order. */
  function ComputeEdges(forecast: AggregatedForecast, markets: seq<WeatherMarket>): (r: seq<EdgeResult>)
    ensures |r| <= |markets|
    ensures forall e :: e in r ==> e.edge > 0.0
    ensures forall e :: e in r ==> exists j :: 0 <= j < |markets| && EdgeFor(forecast.bucketProbabilities, markets[j]) == Some(e)
  {
    var candidates := seq(|markets|, j requires 0 <= j < |markets| => EdgeFor(forecast.bucketProbabilities, markets[j]));
    Somes(candidates)
  }

  /** Edges of a concatenation of market lists are the concatenated edges:
      output order follows market order. */
  lemma ComputeEdgesAppend(forecast: AggregatedForecast, a: seq<WeatherMarket>, b: seq<WeatherMarket>)
    ensures ComputeEdges(forecast, a + b) == ComputeEdges(forecast, a) + ComputeEdges(forecast, b)
  {
    var ca := seq(|a|, j requires 0 <= j < |a| => EdgeFor(forecast.bucketProbabilities, a[j]));
    var cb := seq(|b|, j requires 0 <= j < |b| => EdgeFor(forecast.bucketProbabilities, b[j]));
    var cab := seq(|a + b|, j requires 0 <= j < |a + b| => EdgeFor(forecast.bucketProbabilities, (a + b)[j]));
    assert cab == ca + cb;
    SomesAppend(ca, cb);
  }

  /** One market yields at most one edge: YES and NO are never both emitted. */
  lemma OneEdgePerMarket(forecast: AggregatedForecast, m: WeatherMarket)
    ensures |ComputeEdges(forecast, [m])| <= 1
    ensures |ComputeEdges(forecast, [m])| == 1 <==> EdgeFor(forecast.bucketProbabilities, m).Some?
  {
    var c := seq(1, j requires 0 <= j < 1 => EdgeFor(forecast.bucketProbabilities, [m][j]));
    assert c == [EdgeFor(forecast.bucketProbabilities, m)];
    assert c[1..] == [];
  }
}

=== FILE: executor.dfy ===
/** Order execution (`src/trading/executor.ts`): the batch loop over trade
    signals with a per-cycle balance budget, the risk gate, dry-run results,
    and live orders that reach the ledger only once their response is
    validated. The order client is an oracle: `respond(i)` is what the
    order call for the `i`-th signal did. */
module Executor {
  import opened Wrappers
  import opened Seqs
  import opened Numeric
  import opened Config
  import opened StrategyTypes
  import opened TradingTypes
  import opened Ledger
  import opened Risk

  /** USDC has six decimals: a raw balance above one million is in base units. */
  const UsdcUnit: real := 1000000.0

  /** What the balance query did: failed, or returned a raw balance. */
  datatype BalanceOutcome = BalanceFailed | Balance(raw: real)

  /** `checkBalance`: the raw balance, scaled down when it is in base units. */
  function CheckBalance(raw: real): (r: real)
    ensures raw > UsdcUnit ==> r * UsdcUnit == raw && r > 1.0
    ensures raw <= UsdcUnit ==> r == raw
    ensures raw >= 0.0 ==> 0.0 <= r <= raw
  {
    if raw > UsdcUnit then raw / UsdcUnit else raw
  }

  /** A balance already in dollars, up to a trillion base units, is not
      scaled a second time. */
  lemma CheckBalanceIdempotent(raw: real)
    requires raw <= UsdcUnit * UsdcUnit
    ensures CheckBalance(CheckBalance(raw)) == CheckBalance(raw)
  {
    if raw > UsdcUnit {
      assert CheckBalance(raw) * UsdcUnit <= UsdcUnit * UsdcUnit;
    }
  }

  /** `validateOrderResponse`: `None` when the response confirms an order,
      else the error it throws. */
  function ValidateOrderResponse(resp: Option<OrderResponse>): (r: Option<OrderError>)
    ensures r.None? <==> resp.Some? && resp.value.success != Some(false) && resp.value.orderId != ""
    ensures r == Some(EmptyResponse) <==> resp.None?
    ensures r.Some? && r.value.Rejected? <==> resp.Some? && resp.value.success == Some(false)
    ensures r.Some? && r.value.Rejected? ==>
              r.value.errorMsg == (if resp.value.errorMsg == "" then "unknown" else resp.value.errorMsg)
    ensures r == Some(MissingOrderId) <==>
              resp.Some? && resp.value.success != Some(false) && resp.value.orderId == ""
  {
    match resp
    case None => Some(EmptyResponse)
    case Some(res) =>
      if res.success == Some(false) then
        Some(Rejected(if res.errorMsg == "" then "unknown" else res.errorMsg))
      else if res.orderId == "" then Some(MissingOrderId)
      else None
  }

  /** The confirmed response of an order call, or why it failed. */
  function Confirm(outcome: OrderOutcome): (r: Result<OrderResponse, OrderError>)
    ensures r.Success? <==> outcome.Responded? && ValidateOrderResponse(outcome.response).None?
    ensures r.Success? ==> Some(r.value) == outcome.response && r.value.orderId != ""
    ensures outcome.Threw? ==> r == Failure(ClientError(outcome.message))
  {
    match outcome
    case Threw(message) => Failure(ClientError(message))
    case Responded(resp) =>
      match ValidateOrderResponse(resp)
      case Some(e) => Failure(e)
      case None => Success(resp.value)
  }

  /** The limit price sent: the signal's price to a tenth of a cent, clamped
      to the exchange's bounds. */
  function OrderPrice(marketPrice: real): (r: real)
    ensures 0.001 <= r <= 0.999
    ensures OnMilliGrid(r)
    ensures marketPrice < 0.0015 ==> r == 0.001
    ensures marketPrice >= 0.9985 ==> r == 0.999
    ensures 0.0015 <= marketPrice <= 0.9985 ==> r == Round3(marketPrice)
    ensures 0.0015 <= marketPrice <= 0.9985 ==> marketPrice - 0.0005 < r <= marketPrice + 0.0005
  {
    Clamp(Round3(marketPrice), 0.001, 0.999)
  }

  /** The order sent for a live signal: shares are dollars over the limit
      price, to the cent. */
  function OrderFor(s: TradeSignal): (r: OrderRequest)
    ensures r.tokenId == s.tokenId && r.side == OrderSideOf(s.side)
    ensures r.price == OrderPrice(s.marketPrice)
    ensures 0.001 <= r.price <= 0.999
    ensures OnCentGrid(r.size)
    ensures s.sizeUsd / r.price - 0.005 < r.size <= s.sizeUsd / r.price + 0.005
    ensures s.sizeUsd >= 0.0 ==> r.size >= 0.0
  {
    var price := OrderPrice(s.marketPrice);
    var size := Round2(s.sizeUsd / price);
    OrderRequest(s.tokenId, OrderSideOf(s.side), price, size)
  }

  /** FILLED when the exchange matched the order at once, else PLACED. */
  function StatusOf(resp: OrderResponse): (r: ExecStatus)
    ensures r == Filled <==> resp.status == "matched"
    ensures r == Filled || r == Placed
  {
    if resp.status == "matched" then Filled else Placed
  }

  /** The result recorded for a signal that did not trade. */
  function FailedResult(s: TradeSignal, e: ExecError): ExecutionResult
  {
    ExecutionResult("", s.tokenId, OrderSideOf(s.side), s.marketPrice, s.sizeUsd, Failed, Some(e))
  }

  /** The result recorded for a signal that did trade or would have. */
  function PlacedResult(s: TradeSignal, orderId: string, status: ExecStatus): ExecutionResult
  {
    ExecutionResult(orderId, s.tokenId, OrderSideOf(s.side), s.marketPrice, s.sizeUsd, status, None)
  }

  /** A live order confirmed by the exchange. */
  predicate Committing(r: ExecutionResult)
  {
    r.status == Placed || r.status == Filled
  }

  /** The dollars committed by confirmed live orders. */
  function Committed(results: seq<ExecutionResult>): real
  {
    if |results| == 0 then 0.0
    else Committed(results[..|results| - 1]) + (if Committing(results[|results| - 1]) then results[|results| - 1].size else 0.0)
  }

  /** Whether the loop runs at all: always in dry-run mode, and in live mode
      only with a readable balance of at least a dollar. */
  predicate Proceeds(config: AppConfig, balance: BalanceOutcome)
  {
    config.dryRun || (balance.Balance? && CheckBalance(balance.raw) >= 1.0)
  }

  /** The dollars a live cycle may commit (unused in dry-run mode). */
  function Budget(config: AppConfig, balance: BalanceOutcome): real
  {
    if config.dryRun || balance.BalanceFailed? then 0.0 else CheckBalance(balance.raw)
  }

  /** A live signal the ledger can record: a positive price and stake. */
  predicate Fillable(s: TradeSignal)
  {
    s.marketPrice > 0.0 && s.sizeUsd > 0.0
  }

  /** The result fields that echo the signal. */
  predicate Echoes(r: ExecutionResult, s: TradeSignal)
  {
    r.tokenId == s.tokenId && r.side == OrderSideOf(s.side) && r.price == s.marketPrice && r.size == s.sizeUsd
  }

  /** The ledger after recording a confirmed order for `s`. */
  function Record(t: Tracker, s: TradeSignal, now: string): Tracker
    requires FillDefined(t, s.tokenId, s.marketPrice, s.sizeUsd)
  {
    AddFill(t, s.tokenId, s.conditionId, s.city, s.date, s.bucketLabel, s.side, s.marketPrice, s.sizeUsd, now)
  }

  /** What one iteration did; `ordered` says whether it sent `OrderFor` of
      its signal to the exchange. */
  datatype StepOutcome = StepOutcome(result: ExecutionResult, tracker: Tracker, ordered: bool)

  /** One iteration of the `executeSignals` loop, with `remaining` dollars
      left in the cycle's budget and `outcome` the order call's behaviour. */
  function Step(s: TradeSignal, t: Tracker, remaining: real, config: AppConfig, outcome: OrderOutcome,
                dryRunId: string, now: string): (r: StepOutcome)
    requires Valid(t)
    requires !config.dryRun ==> Fillable(s)
    ensures Valid(r.tracker) && Echoes(r.result, s)
    ensures r.result.error == Some(InsufficientRemainingBalance) <==> !config.dryRun && s.sizeUsd > remaining
    ensures r.ordered ==> !config.dryRun && s.sizeUsd <= remaining
    ensures r.tracker != t ==> r.ordered && Committing(r.result)
  {
    if !config.dryRun && s.sizeUsd > remaining then
      StepOutcome(FailedResult(s, InsufficientRemainingBalance), t, false)
    else
      match CanPlaceTrade(s.sizeUsd, t.positions, t.realizedPnl, config)
      case Some(reason) => StepOutcome(FailedResult(s, RiskBlocked(reason)), t, false)
      case None =>
        if config.dryRun then StepOutcome(PlacedResult(s, dryRunId, DryRun), t, false)
        else
          match Confirm(outcome)
          case Failure(e) => StepOutcome(FailedResult(s, OrderFailed(e)), t, true)
          case Success(resp) =>
            AddFillKeepsValid(t, s.tokenId, s.conditionId, s.city, s.date, s.bucketLabel, s.side,
                              s.marketPrice, s.sizeUsd, now);
            StepOutcome(PlacedResult(s, resp.orderId, StatusOf(resp)), Record(t, s, now), true)
  }

  /** What one step does: the error it records, when it sends an order,
      and how the ledger and the committed exposure move. */
  lemma StepOutcomes(s: TradeSignal, t: Tracker, remaining: real, config: AppConfig, outcome: OrderOutcome,
                     dryRunId: string, now: string, r: StepOutcome)
    requires Valid(t)
    requires !config.dryRun ==> Fillable(s)
    requires r == Step(s, t, remaining, config, outcome, dryRunId, now)
    ensures Valid(r.tracker) && r.tracker.realizedPnl == t.realizedPnl
    ensures Echoes(r.result, s)
    ensures r.result.status == Failed <==> r.result.error.Some?
    ensures r.result.error == Some(InsufficientRemainingBalance) <==> !config.dryRun && s.sizeUsd > remaining
    ensures forall reason :: r.result.error == Some(RiskBlocked(reason)) <==>
              && !(!config.dryRun && s.sizeUsd > remaining)
              && CanPlaceTrade(s.sizeUsd, t.positions, t.realizedPnl, config) == Some(reason)
    ensures r.result.status == DryRun <==>
              config.dryRun && CanPlaceTrade(s.sizeUsd, t.positions, t.realizedPnl, config).None?
    ensures r.result.status == DryRun ==> r.result.orderId == dryRunId
    ensures r.ordered <==>
              && !config.dryRun && s.sizeUsd <= remaining
              && CanPlaceTrade(s.sizeUsd, t.positions, t.realizedPnl, config).None?
    ensures Committing(r.result) <==> r.ordered && Confirm(outcome).Success?
    ensures Committing(r.result) ==>
              && r.result.status == StatusOf(Confirm(outcome).value)
              && r.result.orderId == Confirm(outcome).value.orderId
              && FillDefined(t, s.tokenId, s.marketPrice, s.sizeUsd)
              && r.tracker == Record(t, s, now)
    ensures !Committing(r.result) ==> r.tracker == t
    ensures Exposure(r.tracker.positions) == Exposure(t.positions) + (if Committing(r.result) then s.sizeUsd else 0.0)
  {
    if !(!config.dryRun && s.sizeUsd > remaining) && CanPlaceTrade(s.sizeUsd, t.positions, t.realizedPnl, config).None?
       && !config.dryRun && Confirm(outcome).Success? {
      AddFillKeepsValid(t, s.tokenId, s.conditionId, s.city, s.date, s.bucketLabel, s.side,
                        s.marketPrice, s.sizeUsd, now);
    }
  }

  /** The facts about one step that the loop's properties rest on. */
  lemma StepBasics(s: TradeSignal, t: Tracker, remaining: real, config: AppConfig, outcome: OrderOutcome,
                   dryRunId: string, now: string, r: StepOutcome)
    requires Valid(t)
    requires !config.dryRun ==> Fillable(s)
    requires r == Step(s, t, remaining, config, outcome, dryRunId, now)
    ensures Valid(r.tracker) && r.tracker.realizedPnl == t.realizedPnl
    ensures Echoes(r.result, s)
    ensures Committing(r.result) ==> !config.dryRun && s.sizeUsd <= remaining
    ensures config.dryRun ==> r.tracker == t && !r.ordered && !Committing(r.result)
    ensures Exposure(r.tracker.positions) == Exposure(t.positions) + (if Committing(r.result) then s.sizeUsd else 0.0)
  {
    if !(!config.dryRun && s.sizeUsd > remaining) && CanPlaceTrade(s.sizeUsd, t.positions, t.realizedPnl, config).None?
       && !config.dryRun && Confirm(outcome).Success? {
      AddFillKeepsValid(t, s.tokenId, s.conditionId, s.city, s.date, s.bucketLabel, s.side,
                        s.marketPrice, s.sizeUsd, now);
    }
  }

  /** What the loop leaves behind: a result per signal, the ledger, and the
      orders sent to the exchange, in order. */
  datatype Execution = Execution(results: seq<ExecutionResult>, ledger: Tracker, requests: seq<OrderRequest>)

  /** The signals the loop may be given: any in dry-run mode, and in live
      mode only ones the ledger can record. */
  predicate Admissible(signals: seq<TradeSignal>, config: AppConfig)
  {
    !config.dryRun ==> forall k :: 0 <= k < |signals| ==> Fillable(signals[k])
  }

  /** The dollars a step spends from the cycle's balance. */
  function Spent(s: TradeSignal, step: StepOutcome): real
  {
    if Committing(step.result) then s.sizeUsd else 0.0
  }

  /** The order a step sent, if any. */
  function Sent(s: TradeSignal, step: StepOutcome): seq<OrderRequest>
  {
    if step.ordered then [OrderFor(s)] else []
  }

  /** The loop from the `i`-th signal on, with ledger `t` and `remaining`
      dollars of the cycle's balance left: every result echoes its signal,
      the ledger's exposure grows by exactly the stakes of the confirmed
      live orders, a live run never commits more than it had left, a dry
      run sends and commits nothing. */
  function RunFrom(signals: seq<TradeSignal>, i: nat, t: Tracker, remaining: real, config: AppConfig,
                   respond: nat -> OrderOutcome, dryRunId: string, now: string): (r: Execution)
    requires Valid(t) && i <= |signals| && Admissible(signals, config)
    ensures |r.results| == |signals| - i && |r.requests| <= |r.results|
    ensures Valid(r.ledger) && r.ledger.realizedPnl == t.realizedPnl
    ensures forall k :: 0 <= k < |r.results| ==> Echoes(r.results[k], signals[i + k])
    ensures Exposure(r.ledger.positions) == Exposure(t.positions) + Committed(r.results)
    ensures !config.dryRun && remaining >= 0.0 ==> Committed(r.results) <= remaining
    ensures config.dryRun ==> r.ledger == t && r.requests == [] && Committed(r.results) == 0.0
    decreases |signals| - i
  {
    if i == |signals| then Execution([], t, [])
    else
      var step := Step(signals[i], t, remaining, config, respond(i), dryRunId, now);
      StepBasics(signals[i], t, remaining, config, respond(i), dryRunId, now, step);
      var rest := RunFrom(signals, i + 1, step.tracker, remaining - Spent(signals[i], step), config, respond, dryRunId, now);
      CommittedCons(step.result, rest.results);
      var results := [step.result] + rest.results;
      assert forall k :: 0 <= k < |results| ==> Echoes(results[k], signals[i + k]) by {
        forall k | 0 < k < |results| ensures Echoes(results[k], signals[i + k]) {
          assert results[k] == rest.results[k - 1];
        }
      }
      Execution(results, rest.ledger, Sent(signals[i], step) + rest.requests)
  }

  /** The dollars committed by a result followed by more. */
  lemma {:induction false} CommittedCons(r: ExecutionResult, results: seq<ExecutionResult>)
    ensures Committed([r] + results) == (if Committing(r) then r.size else 0.0) + Committed(results)
    decreases |results|
  {
    if |results| > 0 {
      var init := results[..|results| - 1];
      CommittedCons(r, init);
      assert ([r] + results)[..|results|] == [r] + init;
    }
  }

  /** `executeSignals`: nothing when a live cycle has no usable balance,
      else the loop over every signal from the caller's ledger. */
  function ExecuteSignals(signals: seq<TradeSignal>, t0: Tracker, config: AppConfig, balance: BalanceOutcome,
                          respond: nat -> OrderOutcome, dryRunId: string, now: string): (r: Execution)
    requires Valid(t0) && Admissible(signals, config)
    ensures !Proceeds(config, balance) ==> r == Execution([], t0, [])
    ensures Proceeds(config, balance) ==> |r.results| == |signals|
    ensures forall k :: 0 <= k < |r.results| ==> Echoes(r.results[k], signals[k])
    ensures Valid(r.ledger) && r.ledger.realizedPnl == t0.realizedPnl
    ensures Exposure(r.ledger.positions) == Exposure(t0.positions) + Committed(r.results)
    ensures !config.dryRun && Proceeds(config, balance) ==> Committed(r.results) <= Budget(config, balance)
    ensures config.dryRun ==> r.ledger == t0 && r.requests == [] && Committed(r.results) == 0.0
    ensures |r.requests| <= |r.results|
  {
    if !Proceeds(config, balance) then Execution([], t0, [])
    else
      RunFrom(signals, 0, t0, Budget(config, balance), config, respond, dryRunId, now)
  }

  /** A dry-run $60 signal against a $50 cap on a fresh ledger is refused
      for its size, with no order placed and the ledger untouched. */
  lemma ExampleOversizeBlocked(s: TradeSignal, respond: OrderOutcome)
    requires s.sizeUsd == 60.0
    ensures var config := AppConfig(0.08, 0.5, 50.0, 100.0, 1000.0, true);
            var step := Step(s, Empty, 0.0, config, respond, "dry-run", "now");
            && step.result.status == Failed
            && step.result.error == Some(RiskBlocked(ExceedsMaxPosition(60.0, 50.0)))
            && !step.ordered
            && step.tracker == Empty
  {
    assert CostBases([]) == [];
  }
}

=== FILE: exits.dfy ===
/** Profit taking (`src/trading/profit-taker.ts`): flag open positions whose
    edge has gone, reversed, or whose market is near-certain, then close them
    with market orders. The order client is an oracle: `respond(i)` is what
    the exit order for the `i`-th exit did. */
module ProfitTaker {
  import opened Wrappers
  import opened Seqs
  import opened Numeric
  import opened Config
  import opened StrategyTypes
  import opened TradingTypes
  import opened Ledger

  datatype ExitReason = EdgeGone | EdgeReversed | NearCertain

  datatype ExitSignal = ExitSignal(
    position: Position,
    currentPrice: real,
    forecastProb: real,
    remainingEdge: real,
    reason: ExitReason)

  /** A market order that sells a YES holding or buys back a NO one. */
  datatype ExitOrder = ExitOrder(tokenId: string, side: OrderSide, amount: real)

  /** Exit once the edge falls below half the entry threshold. */
  function ExitThreshold(config: AppConfig): real
  {
    config.edgeThreshold * 0.5
  }

  /** The edge still held at the current YES price. */
  function RemainingEdge(side: Side, forecastProb: real, currentPrice: real): (r: real)
    ensures side == Yes ==> r == forecastProb - currentPrice
    ensures side == No ==> r == currentPrice - forecastProb
  {
    if side == Yes then forecastProb - currentPrice
    else (1.0 - forecastProb) - (1.0 - currentPrice)
  }

  /** Rule 1: the market caught up with the forecast, at a profit. */
  predicate EdgeGoneRule(pos: Position, currentPrice: real, remaining: real, threshold: real)
  {
    remaining < threshold
    && (if pos.side == Yes then currentPrice > pos.avgPrice else 1.0 - currentPrice > pos.avgPrice)
  }

  /** Rule 3: the held outcome is priced above 80 cents after a cheap entry. */
  predicate NearCertainRule(pos: Position, currentPrice: real)
  {
    (if pos.side == Yes then currentPrice > 0.8 else currentPrice < 0.2) && pos.avgPrice < 0.5
  }

  /** The exit reason: each rule that matches overwrites the previous one. */
  function ExitReasonFor(pos: Position, currentPrice: real, forecastProb: real, threshold: real): (r: Option<ExitReason>)
    ensures var rem := RemainingEdge(pos.side, forecastProb, currentPrice);
            && (r == Some(NearCertain) <==> NearCertainRule(pos, currentPrice))
            && (r == Some(EdgeReversed) <==> rem < 0.0 && !NearCertainRule(pos, currentPrice))
            && (r == Some(EdgeGone) <==>
                  EdgeGoneRule(pos, currentPrice, rem, threshold) && rem >= 0.0 && !NearCertainRule(pos, currentPrice))
            && (r.None? <==>
                  !EdgeGoneRule(pos, currentPrice, rem, threshold) && rem >= 0.0 && !NearCertainRule(pos, currentPrice))
  {
    var rem := RemainingEdge(pos.side, forecastProb, currentPrice);
    var afterRule1 := if EdgeGoneRule(pos, currentPrice, rem, threshold) then Some(EdgeGone) else None;
    var afterRule2 := if rem < 0.0 then Some(EdgeReversed) else afterRule1;
    if NearCertainRule(pos, currentPrice) then Some(NearCertain) else afterRule2
  }

  /** The loop body of `evaluateExits` for one position. */
  function ExitFor(pos: Position, forecastMap: map<string, real>, priceMap: map<string, real>, threshold: real): (r: Option<ExitSignal>)
    ensures r.Some? <==>
              && pos.tokenId in priceMap && pos.tokenId in forecastMap
              && ExitReasonFor(pos, priceMap[pos.tokenId], forecastMap[pos.tokenId], threshold).Some?
    ensures r.Some? ==>
              && r.value.position == pos
              && r.value.currentPrice == priceMap[pos.tokenId]
              && r.value.forecastProb == forecastMap[pos.tokenId]
              && r.value.remainingEdge == RemainingEdge(pos.side, r.value.forecastProb, r.value.currentPrice)
              && Some(r.value.reason) == ExitReasonFor(pos, r.value.currentPrice, r.value.forecastProb, threshold)
  {
    if pos.tokenId !in priceMap || pos.tokenId !in forecastMap then None
    else
      var currentPrice := priceMap[pos.tokenId];
      var forecastProb := forecastMap[pos.tokenId];
      match ExitReasonFor(pos, currentPrice, forecastProb, threshold)
      case None => None
      case Some(reason) =>
        Some(ExitSignal(pos, currentPrice, forecastProb, RemainingEdge(pos.side, forecastProb, currentPrice), reason))
  }

  function Candidates(positions: seq<Position>, forecastMap: map<string, real>, priceMap: map<string, real>,
                      threshold: real): (r: seq<Option<ExitSignal>>)
    ensures |r| == |positions|
    ensures forall i :: 0 <= i < |positions| ==> r[i] == ExitFor(positions[i], forecastMap, priceMap, threshold)
  {
    seq(|positions|, i requires 0 <= i < |positions| => ExitFor(positions[i], forecastMap, priceMap, threshold))
  }

  /** `evaluateExits`. */
  function EvaluateExits(positions: seq<Position>, forecastMap: map<string, real>, priceMap: map<string, real>,
                         config: AppConfig): (r: seq<ExitSignal>)
    ensures |r| <= |positions|
    ensures forall e :: e in r ==>
              && e.position in positions
              && ExitFor(e.position, forecastMap, priceMap, ExitThreshold(config)) == Some(e)
    ensures forall i :: 0 <= i < |positions| && ExitFor(positions[i], forecastMap, priceMap, ExitThreshold(config)).Some? ==>
              ExitFor(positions[i], forecastMap, priceMap, ExitThreshold(config)).value in r
  {
    var candidates := Candidates(positions, forecastMap, priceMap, ExitThreshold(config));
    assert forall e :: Some(e) in candidates ==> e.position in positions by {
      forall e | Some(e) in candidates ensures e.position in positions {
        var i :| 0 <= i < |candidates| && candidates[i] == Some(e);
      }
    }
    Somes(candidates)
  }

  /** Exits follow position order: evaluating a concatenation concatenates
      the exits. */
  lemma EvaluateExitsAppend(a: seq<Position>, b: seq<Position>, forecastMap: map<string, real>,
                            priceMap: map<string, real>, config: AppConfig)
    ensures EvaluateExits(a + b, forecastMap, priceMap, config)
            == EvaluateExits(a, forecastMap, priceMap, config) + EvaluateExits(b, forecastMap, priceMap, config)
  {
    var thr := ExitThreshold(config);
    var ca, cb, cab := Candidates(a, forecastMap, priceMap, thr), Candidates(b, forecastMap, priceMap, thr),
                       Candidates(a + b, forecastMap, priceMap, thr);
    assert forall i :: 0 <= i < |a| + |b| ==> cab[i] == (ca + cb)[i] by {
      forall i | 0 <= i < |a| + |b| ensures cab[i] == (ca + cb)[i] {
        if i < |a| {
          assert (a + b)[i] == a[i];
        } else {
          assert (a + b)[i] == b[i - |a|];
        }
      }
    }
    assert cab == ca + cb;
    SomesAppend(ca, cb);
  }

  /** A YES position bought at 30 cents whose market now trades at 85 cents
      is exited as near-certain, even though its forecast of 95% still
      leaves a 10-point edge. */
  lemma ExampleNearCertain(pos: Position)
    requires pos.side == Yes && pos.avgPrice == 0.3
    ensures ExitReasonFor(pos, 0.85, 0.95, 0.04) == Some(NearCertain)
  {
  }

  /** The order that closes a position: shares to the cent, selling YES or
      buying back NO. */
  function ExitOrderFor(pos: Position): (r: ExitOrder)
    ensures r.tokenId == pos.tokenId
    ensures r.side == (if pos.side == Yes then Sell else Buy)
    ensures OnCentGrid(r.amount)
    ensures pos.size - 0.005 < r.amount <= pos.size + 0.005
  {
    ExitOrder(pos.tokenId, if pos.side == Yes then Sell else Buy, Round2(pos.size))
  }

  /** Whether the exit order's response carries an order id; the `success`
      flag is not consulted. */
  predicate Acknowledged(outcome: OrderOutcome)
  {
    outcome.Responded? && outcome.response.Some? && outcome.response.value.orderId != ""
  }

  /** Whether a live exit closes its position. */
  predicate Closes(e: ExitSignal, outcome: OrderOutcome)
  {
    ExitOrderFor(e.position).amount >= 1.0 && Acknowledged(outcome)
  }

  /** The number of live exits that close their position. */
  function CountClosing(exits: seq<ExitSignal>, respond: nat -> OrderOutcome): (n: nat)
    ensures n <= |exits|
  {
    if |exits| == 0 then 0
    else CountClosing(exits[..|exits| - 1], respond) + (if Closes(exits[|exits| - 1], respond(|exits| - 1)) then 1 else 0)
  }

  /** An exit refused by the exchange's `success` flag still closes the
      position when the response carries an order id. */
  lemma RejectedExitWithIdCloses(e: ExitSignal, msg: string)
    requires ExitOrderFor(e.position).amount >= 1.0
    ensures Closes(e, Responded(Some(OrderResponse(Some(false), "order-1", msg, ""))))
  {
  }

  /** The ledger after the live exits: each exit that closes its position
      settles that token at the exit's current YES price, one after another
      in input order. */
  function AfterExits(t0: Tracker, exits: seq<ExitSignal>, respond: nat -> OrderOutcome): Tracker
  {
    if |exits| == 0 then t0
    else
      var n := |exits| - 1;
      var t := AfterExits(t0, exits[..n], respond);
      if Closes(exits[n], respond(n)) then ClosePosition(t, exits[n].position.tokenId, exits[n].currentPrice).0 else t
  }

  /** The exit orders a live run sends: one per exit of at least one share,
      in input order. */
  function SentOrders(exits: seq<ExitSignal>): seq<ExitOrder>
  {
    if |exits| == 0 then []
    else
      var n := |exits| - 1;
      var o := ExitOrderFor(exits[n].position);
      SentOrders(exits[..n]) + (if o.amount >= 1.0 then [o] else [])
  }

  /** One more exit: the ledger closes its token exactly when it closes,
      and its order is sent exactly when it is of at least one unit. */
  lemma ExitStep(t0: Tracker, exits: seq<ExitSignal>, respond: nat -> OrderOutcome, i: nat)
    requires i < |exits|
    ensures var e := exits[i];
            var t := AfterExits(t0, exits[..i], respond);
            AfterExits(t0, exits[..i + 1], respond)
              == if Closes(e, respond(i)) then ClosePosition(t, e.position.tokenId, e.currentPrice).0 else t
    ensures var o := ExitOrderFor(exits[i].position);
            SentOrders(exits[..i + 1]) == SentOrders(exits[..i]) + (if o.amount >= 1.0 then [o] else [])
  {
    assert exits[..i + 1][..i] == exits[..i];
  }

  /** Closing positions one by one keeps a well-formed ledger well formed. */
  lemma {:induction false} AfterExitsValid(t0: Tracker, exits: seq<ExitSignal>, respond: nat -> OrderOutcome)
    requires Valid(t0)
    ensures Valid(AfterExits(t0, exits, respond))
    decreases |exits|
  {
    if |exits| > 0 {
      var n := |exits| - 1;
      AfterExitsValid(t0, exits[..n], respond);
      CloseRemovesToken(AfterExits(t0, exits[..n], respond), exits[n].position.tokenId, exits[n].currentPrice);
    }
  }

  /** Once an exit has closed its position, no position of that token is
      left, whatever later exits do. */
  lemma {:induction false} ClosedTokensGone(t0: Tracker, exits: seq<ExitSignal>, respond: nat -> OrderOutcome, i: nat)
    requires Valid(t0)
    requires i < |exits| && Closes(exits[i], respond(i))
    ensures Find(AfterExits(t0, exits, respond).positions, exits[i].position.tokenId).None?
    decreases |exits|
  {
    var n := |exits| - 1;
    var before := AfterExits(t0, exits[..n], respond);
    var tok := exits[i].position.tokenId;
    if i == n {
      AfterExitsValid(t0, exits[..n], respond);
      CloseRemovesToken(before, tok, exits[n].currentPrice);
    } else {
      assert exits[..n][i] == exits[i];
      ClosedTokensGone(t0, exits[..n], respond, i);
      var after := AfterExits(t0, exits, respond);
      forall k | 0 <= k < |after.positions| ensures after.positions[k].tokenId != tok {
        assert after.positions[k] in before.positions;
      }
    }
  }

  /** `executeExits`: the number of exits carried out, the ledger after
      closing their positions at the exit's current YES price, and the
      orders sent. */
  method ExecuteExits(exits: seq<ExitSignal>, t0: Tracker, config: AppConfig, respond: nat -> OrderOutcome)
    returns (count: nat, t: Tracker, orders: seq<ExitOrder>)
    ensures config.dryRun ==> count == |exits| && t == t0 && orders == []
    ensures !config.dryRun ==> count == CountClosing(exits, respond)
    ensures count <= |exits| && |orders| <= |exits|
    ensures !config.dryRun ==> count <= |orders|
    ensures forall o :: o in orders ==> o.amount >= 1.0
    ensures forall p :: p in t.positions ==> p in t0.positions
    ensures Valid(t0) ==> Valid(t)
    ensures forall p :: p in t0.positions && p !in t.positions ==>
              exists i :: 0 <= i < |exits| && exits[i].position.tokenId == p.tokenId && Closes(exits[i], respond(i))
    ensures !config.dryRun ==> t == AfterExits(t0, exits, respond)
    ensures !config.dryRun ==> orders == SentOrders(exits)
    ensures !config.dryRun && Valid(t0) ==>
              forall i :: 0 <= i < |exits| && Closes(exits[i], respond(i)) ==> Find(t.positions, exits[i].position.tokenId).None?
  {
    count, t, orders := 0, t0, [];
    for i := 0 to |exits|
      invariant config.dryRun ==> count == i && t == t0 && orders == []
      invariant !config.dryRun ==> count == CountClosing(exits[..i], respond)
      invariant count <= i && |orders| <= i
      invariant !config.dryRun ==> count <= |orders|
      invariant forall o :: o in orders ==> o.amount >= 1.0
      invariant forall p :: p in t.positions ==> p in t0.positions
      invariant Valid(t0) ==> Valid(t)
      invariant forall p :: p in t0.positions && p !in t.positions ==>
                  exists j :: 0 <= j < i && exits[j].position.tokenId == p.tokenId && Closes(exits[j], respond(j))
      invariant !config.dryRun ==> t == AfterExits(t0, exits[..i], respond) && orders == SentOrders(exits[..i])
    {
      assert exits[..i + 1][..i] == exits[..i];
      ExitStep(t0, exits, respond, i);
      var e := exits[i];
      if config.dryRun {
        count := count + 1;
      } else {
        var order := ExitOrderFor(e.position);
        if order.amount >= 1.0 {
          orders := orders + [order];
          if Acknowledged(respond(i)) {
            var before := t;
            if Valid(t0) {
              CloseRemovesToken(t, e.position.tokenId, e.currentPrice);
            }
            t := ClosePosition(t, e.position.tokenId, e.currentPrice).0;
            CloseKeepsOthers(before, e.position.tokenId, e.currentPrice);
            count := count + 1;
          }
        }
      }
    }
    assert exits[..|exits|] == exits;
    if !config.dryRun && Valid(t0) {
      forall i | 0 <= i < |exits| && Closes(exits[i], respond(i))
        ensures Find(t.positions, exits[i].position.tokenId).None?
      {
        ClosedTokensGone(t0, exits, respond, i);
      }
    }
  }

  /** Closing a token removes no position of another token. */
  lemma CloseKeepsOthers(t: Tracker, tokenId: string, settlementPrice: real)
    ensures forall p :: p in t.positions && p.tokenId != tokenId ==> p in ClosePosition(t, tokenId, settlementPrice).0.positions
  {
    match Find(t.positions, tokenId)
    case None =>
    case Some(i) =>
      var ps := t.positions;
      forall p | p in ps && p.tokenId != tokenId
        ensures p in ClosePosition(t, tokenId, settlementPrice).0.positions
      {
        var k :| 0 <= k < |ps| && ps[k] == p;
        if k < i {
          assert p == (ps[..i] + ps[i + 1..])[k];
        } else {
          assert k != i;
          assert p == (ps[..i] + ps[i + 1..])[k - 1];
        }
      }
  }
}

=== FILE: grouping.dfy ===
/** Grouping keyed values into a JavaScript `Map<K, V[]>`: keys keep the
    order of their first insertion, and each key's values keep input order.
    The HRRR and legacy forecast transforms group hourly and three-hourly
    readings by date this way. */
module Grouping {
  import opened Wrappers

  /** The keys of `s` with repeats removed, each where it first appears. */
  function Distinct(s: seq<string>): (r: seq<string>)
    ensures forall k :: k in r <==> k in s
    ensures forall i, j :: 0 <= i < j < |r| ==> r[i] != r[j]
  {
    if |s| == 0 then []
    else
      var init := Distinct(s[..|s| - 1]);
      var k := s[|s| - 1];
      assert forall x :: x in s <==> x in s[..|s| - 1] || x == k;
      if k in init then init else init + [k]
  }

  /** The values recorded under `k`, in order. */
  function ValuesOf<V>(pairs: seq<(string, V)>, k: string): (r: seq<V>)
    ensures |r| <= |pairs|
  {
    if |pairs| == 0 then []
    else if pairs[|pairs| - 1].0 == k then ValuesOf(pairs[..|pairs| - 1], k) + [pairs[|pairs| - 1].1]
    else ValuesOf(pairs[..|pairs| - 1], k)
  }

  function Keys<V>(pairs: seq<(string, V)>): (r: seq<string>)
    ensures |r| == |pairs|
    ensures forall i :: 0 <= i < |pairs| ==> r[i] == pairs[i].0
  {
    seq(|pairs|, i requires 0 <= i < |pairs| => pairs[i].0)
  }

  /** Where key `k` sits among the groups. */
  function IndexOf<V>(groups: seq<(string, V)>, k: string): (r: Option<nat>)
    ensures r.Some? ==> r.value < |groups| && groups[r.value].0 == k
    ensures r.None? <==> forall i :: 0 <= i < |groups| ==> groups[i].0 != k
  {
    if |groups| == 0 then None
    else if groups[|groups| - 1].0 == k then Some(|groups| - 1)
    else IndexOf(groups[..|groups| - 1], k)
  }

  /** `map.get(k) ?? []` then `push(v)`: append to the key's group, opening a
      group at the end for a new key. */
  function Add<V>(groups: seq<(string, seq<V>)>, k: string, v: V): (r: seq<(string, seq<V>)>)
  {
    match IndexOf(groups, k)
    case Some(i) => groups[i := (k, groups[i].1 + [v])]
    case None => groups + [(k, [v])]
  }

  /** `g` is the grouping of `pairs`: its keys are the distinct keys of
      the input in order of first appearance, and each group holds exactly
      that key's values, in input order. */
  predicate GroupsOf<V(==)>(g: seq<(string, seq<V>)>, pairs: seq<(string, V)>)
  {
    && Keys(g) == Distinct(Keys(pairs))
    && (forall j :: 0 <= j < |g| ==> g[j].1 == ValuesOf(pairs, g[j].0))
    && (forall j :: 0 <= j < |g| ==> |g[j].1| > 0)
  }

  lemma AddKeys<V>(g: seq<(string, seq<V>)>, pairs: seq<(string, V)>, k: string, v: V)
    requires Keys(g) == Distinct(Keys(pairs))
    ensures Keys(Add(g, k, v)) == Distinct(Keys(pairs + [(k, v)]))
  {
    var all := Keys(pairs + [(k, v)]);
    assert all[..|all| - 1] == Keys(pairs);
    assert all[|all| - 1] == k;
    match IndexOf(g, k)
    case Some(i) =>
      assert Keys(g)[i] == k;
      assert Keys(Add(g, k, v)) == Keys(g);
    case None =>
      assert forall i :: 0 <= i < |Keys(g)| ==> Keys(g)[i] != k;
      assert Keys(Add(g, k, v)) == Keys(g) + [k];
  }

  lemma ValuesOfSnoc<V>(pairs: seq<(string, V)>, k: string, v: V, key: string)
    ensures ValuesOf(pairs + [(k, v)], key) == if key == k then ValuesOf(pairs, key) + [v] else ValuesOf(pairs, key)
  {
    assert (pairs + [(k, v)])[..|pairs|] == pairs;
  }

  lemma AddValues<V>(g: seq<(string, seq<V>)>, pairs: seq<(string, V)>, k: string, v: V)
    requires Keys(g) == Distinct(Keys(pairs))
    requires forall j :: 0 <= j < |g| ==> g[j].1 == ValuesOf(pairs, g[j].0)
    requires forall j :: 0 <= j < |g| ==> |g[j].1| > 0
    ensures forall j :: 0 <= j < |Add(g, k, v)| ==> Add(g, k, v)[j].1 == ValuesOf(pairs + [(k, v)], Add(g, k, v)[j].0)
    ensures forall j :: 0 <= j < |Add(g, k, v)| ==> |Add(g, k, v)[j].1| > 0
  {
    var r := Add(g, k, v);
    forall j | 0 <= j < |r| ensures r[j].1 == ValuesOf(pairs + [(k, v)], r[j].0) && |r[j].1| > 0 {
      ValuesOfSnoc(pairs, k, v, r[j].0);
      match IndexOf(g, k)
      case Some(i) =>
        if j != i {
          assert r[j] == g[j];
        }
      case None =>
        if j < |g| {
          assert r[j] == g[j];
        } else {
          assert k !in Keys(pairs) by {
            assert forall i :: 0 <= i < |Keys(g)| ==> Keys(g)[i] != k;
          }
          NoValuesWithoutKey(pairs, k);
        }
    }
  }

  /** The grouping of `pairs`: `Add` applied to each pair in order. */
  function GroupBy<V(==)>(pairs: seq<(string, V)>): (r: seq<(string, seq<V>)>)
    ensures GroupsOf(r, pairs)
  {
    if |pairs| == 0 then []
    else
      var init := pairs[..|pairs| - 1];
      var (k, v) := pairs[|pairs| - 1];
      var g := GroupBy(init);
      assert pairs == init + [(k, v)];
      AddKeys(g, init, k, v);
      AddValues(g, init, k, v);
      Add(g, k, v)
  }

  /** A key no pair carries has no values. */
  lemma {:induction false} NoValuesWithoutKey<V>(pairs: seq<(string, V)>, k: string)
    requires k !in Keys(pairs)
    ensures ValuesOf(pairs, k) == []
    decreases |pairs|
  {
    if |pairs| > 0 {
      var init := pairs[..|pairs| - 1];
      assert Keys(pairs)[|pairs| - 1] == pairs[|pairs| - 1].0;
      assert Keys(init) == Keys(pairs)[..|pairs| - 1];
      NoValuesWithoutKey(init, k);
    }
  }

  /** A key has a group exactly when some pair carries it. */
  lemma GroupedKeys<V>(pairs: seq<(string, V)>, k: string)
    ensures IndexOf(GroupBy(pairs), k).Some? <==> k in Keys(pairs)
  {
    var r := GroupBy(pairs);
    assert forall i :: 0 <= i < |r| ==> Keys(r)[i] == r[i].0;
    assert k in Keys(r) <==> k in Keys(pairs);
  }

  /** A value sits in its key's group exactly when the pair is in the input. */
  lemma {:induction false} InValuesOf<V>(pairs: seq<(string, V)>, k: string, v: V)
    ensures v in ValuesOf(pairs, k) <==> (k, v) in pairs
    decreases |pairs|
  {
    if |pairs| > 0 {
      var init := pairs[..|pairs| - 1];
      InValuesOf(init, k, v);
      assert pairs == init + [pairs[|pairs| - 1]];
    }
  }
}

=== FILE: hrrr.dfy ===
/** The HRRR point forecast (`src/weather/hrrr.ts`): hourly temperatures
    grouped by date into daily highs. The HTTP call is left out: the hourly
    arrays of the response are the input, and the fetch time a parameter. */
module Hrrr {
  import opened Wrappers
  import opened Seqs
  import opened Text
  import opened Config
  import opened WeatherTypes
  import opened Grouping

  const Source: string := "hrrr"

  /** The reading at hour `i`, keyed by the date before the `T`, when a
      temperature is present (an index past the temperature array reads
      `undefined`, which the source skips like `null`). */
  function ReadingAt(times: seq<string>, temps: seq<Option<real>>, i: nat): (r: Option<(string, real)>)
    requires i < |times|
  {
    if i < |temps| && temps[i].Some? then Some((PrefixBefore(times[i], 'T'), temps[i].value)) else None
  }

  function Readings(times: seq<string>, temps: seq<Option<real>>): (r: seq<(string, real)>)
    ensures forall p :: p in r ==> exists i :: 0 <= i < |times| && ReadingAt(times, temps, i) == Some(p)
    ensures forall i :: 0 <= i < |times| && ReadingAt(times, temps, i).Some? ==> ReadingAt(times, temps, i).value in r
  {
    var hours := seq(|times|, i requires 0 <= i < |times| => ReadingAt(times, temps, i));
    var r := Somes(hours);
    forall p | p in r ensures exists i :: 0 <= i < |times| && ReadingAt(times, temps, i) == Some(p) {
      var i :| 0 <= i < |hours| && hours[i] == Some(p);
    }
    forall i | 0 <= i < |times| && ReadingAt(times, temps, i).Some? ensures ReadingAt(times, temps, i).value in r {
      assert hours[i] == ReadingAt(times, temps, i);
    }
    r
  }

  /** The `dailyHighs` map of `fetchHrrrForecast`, in insertion order: one
      entry per date, holding the largest reading of that date. */
  function DailyHighs(times: seq<string>, temps: seq<Option<real>>): (r: seq<(string, real)>)
    ensures Keys(r) == Distinct(Keys(Readings(times, temps)))
    ensures forall j :: 0 <= j < |r| ==> && |ValuesOf(Readings(times, temps), r[j].0)| > 0
                                         && r[j].1 == MaxOf(ValuesOf(Readings(times, temps), r[j].0))
  {
    var groups := GroupBy(Readings(times, temps));
    var r := seq(|groups|, j requires 0 <= j < |groups| => (groups[j].0, MaxOf(groups[j].1)));
    assert Keys(r) == Keys(groups);
    r
  }

  /** Each date's high is at least every temperature read on that date, and
      is one of them. */
  lemma DailyHighIsMax(times: seq<string>, temps: seq<Option<real>>, j: nat)
    ensures j < |DailyHighs(times, temps)| ==>
              forall i :: (&& 0 <= i < |times| && i < |temps| && temps[i].Some?
                           && PrefixBefore(times[i], 'T') == DailyHighs(times, temps)[j].0) ==>
                temps[i].value <= DailyHighs(times, temps)[j].1
    ensures j < |DailyHighs(times, temps)| ==>
              exists i :: && 0 <= i < |times| && i < |temps|
                          && temps[i] == Some(DailyHighs(times, temps)[j].1)
                          && PrefixBefore(times[i], 'T') == DailyHighs(times, temps)[j].0
  {
    var r := DailyHighs(times, temps);
    if j >= |r| { return; }
    var pairs := Readings(times, temps);
    var (date, high) := r[j];
    var values := ValuesOf(pairs, date);
    forall i | 0 <= i < |times| && i < |temps| && temps[i].Some? && PrefixBefore(times[i], 'T') == date
      ensures temps[i].value <= high
    {
      assert ReadingAt(times, temps, i) == Some((date, temps[i].value));
      InValuesOf(pairs, date, temps[i].value);
      var k :| 0 <= k < |values| && values[k] == temps[i].value;
    }
    InValuesOf(pairs, date, high);
    var i :| 0 <= i < |times| && ReadingAt(times, temps, i) == Some((date, high));
  }

  /** `fetchHrrrForecast`: nothing outside the US, else one forecast per
      date with its high, tagged with the HRRR horizon. */
  function HrrrForecast(city: CityConfig, weight: int, times: seq<string>, temps: seq<Option<real>>,
                        fetchedAt: string): (r: seq<DeterministicForecast>)
    ensures city.country != "US" ==> r == []
    ensures city.country == "US" ==> |r| == |DailyHighs(times, temps)|
    ensures forall j :: 0 <= j < |r| ==>
              && r[j].city == city.slug
              && (r[j].date, r[j].highF) == DailyHighs(times, temps)[j]
              && r[j].source == Source
              && r[j].weight == weight
              && r[j].horizonHours == Some(HrrrMaxHorizonHours)
              && r[j].lowF.None?
  {
    if city.country != "US" then []
    else
      var highs := DailyHighs(times, temps);
      seq(|highs|, j requires 0 <= j < |highs| =>
        DeterministicForecast(city.slug, highs[j].0, Source, highs[j].1, None, None, weight, fetchedAt,
                              Some(HrrrMaxHorizonHours)))
  }

  /** One high per date: no date appears twice. */
  lemma DatesAreDistinct(times: seq<string>, temps: seq<Option<real>>)
    ensures forall a, b :: 0 <= a < b < |DailyHighs(times, temps)| ==>
              DailyHighs(times, temps)[a].0 != DailyHighs(times, temps)[b].0
  {
    var r := DailyHighs(times, temps);
    forall a, b | 0 <= a < b < |r| ensures r[a].0 != r[b].0 {
      assert Keys(r)[a] == r[a].0 && Keys(r)[b] == r[b].0;
    }
  }
}

=== FILE: kelly.dfy ===
/** Fractional-Kelly position sizing (`src/strategy/kelly.ts`) for a binary
    contract bought at `marketPrice` and believed to pay out with
    probability `forecastProb`. */
module Kelly {
  import opened Numeric

  /** The default Kelly fraction: half-Kelly. */
  const DefaultFraction: real := 0.5

  datatype KellyResult = KellyResult(fullKelly: real, fractionalKelly: real, sizeUsd: real)

  /** No edge, a price outside (0, 1), or no bankroll: nothing to bet. */
  predicate NoBet(forecastProb: real, marketPrice: real, bankroll: real)
  {
    forecastProb <= marketPrice || marketPrice <= 0.0 || marketPrice >= 1.0 || bankroll <= 0.0
  }

  /** The stake in dollars for a bankroll fraction, rounded to the cent. */
  function Stake(fraction: real, bankroll: real): (r: real)
    ensures OnCentGrid(r)
    ensures fraction * bankroll - 0.005 < r <= fraction * bankroll + 0.005
    ensures 0.0 <= fraction && 0.0 <= bankroll ==> r >= 0.0
    ensures 0.0 <= fraction <= 1.0 && 0.0 < bankroll ==> r <= bankroll + 0.005
  {
    ScaleDown(fraction, bankroll);
    Round2(fraction * bankroll)
  }

  /** `kellySize`. */
  function KellySize(forecastProb: real, marketPrice: real, bankroll: real, fraction: real): (r: KellyResult)
    ensures NoBet(forecastProb, marketPrice, bankroll) ==> r == KellyResult(0.0, 0.0, 0.0)
    ensures !NoBet(forecastProb, marketPrice, bankroll) ==>
              && r.fullKelly * (1.0 - marketPrice) == forecastProb - marketPrice
              && r.fullKelly > 0.0
              && r.fractionalKelly == Clamp(r.fullKelly * fraction, 0.0, 1.0)
              && r.sizeUsd == Stake(r.fractionalKelly, bankroll)
    ensures 0.0 <= r.fractionalKelly <= 1.0
    ensures 0.0 <= r.sizeUsd
    ensures bankroll > 0.0 ==> r.sizeUsd <= bankroll + 0.005
  {
    if NoBet(forecastProb, marketPrice, bankroll) then KellyResult(0.0, 0.0, 0.0)
    else
      var fullKelly := EdgeOverOdds(forecastProb - marketPrice, 1.0 - marketPrice);
      var clamped := Clamp(fullKelly * fraction, 0.0, 1.0);
      KellyResult(fullKelly, clamped, Stake(clamped, bankroll))
  }

  /** `(p - m) / (1 - m)`: the edge divided by the payout odds. */
  function EdgeOverOdds(edge: real, odds: real): (r: real)
    requires edge > 0.0 && odds > 0.0
    ensures r * odds == edge
    ensures r > 0.0
    ensures edge <= odds ==> r <= 1.0
  {
    edge / odds
  }

  lemma ScaleDown(c: real, b: real)
    ensures 0.0 <= c <= 1.0 && b > 0.0 ==> 0.0 <= c * b <= b
  {
    assert b - c * b == (1.0 - c) * b;
  }

  /** With a forecast that is a probability, full Kelly never exceeds the whole bankroll. */
  lemma FullKellyAtMostOne(forecastProb: real, marketPrice: real, bankroll: real, fraction: real)
    requires forecastProb <= 1.0
    ensures KellySize(forecastProb, marketPrice, bankroll, fraction).fullKelly <= 1.0
  {
  }

  /** At a fixed price, a higher forecast never gets a smaller full-Kelly stake. */
  lemma FullKellyMonotone(p: real, q: real, marketPrice: real, bankroll: real, fraction: real)
    requires p <= q
    ensures KellySize(p, marketPrice, bankroll, fraction).fullKelly <= KellySize(q, marketPrice, bankroll, fraction).fullKelly
  {
    var rp := KellySize(p, marketPrice, bankroll, fraction);
    var rq := KellySize(q, marketPrice, bankroll, fraction);
    if NoBet(p, marketPrice, bankroll) {
      assert rp.fullKelly == 0.0 && rq.fullKelly >= 0.0;
    } else {
      assert !NoBet(q, marketPrice, bankroll);
      var odds := 1.0 - marketPrice;
      CancelPositive(rp.fullKelly, rq.fullKelly, odds, p - marketPrice, q - marketPrice);
    }
  }

  /** A positive common factor cancels from both sides of `<=`. */
  lemma CancelPositive(a: real, b: real, c: real, x: real, y: real)
    requires c > 0.0 && a * c == x && b * c == y && x <= y
    ensures a <= b
  {
    assert (b - a) * c == y - x;
  }

  /** (0.7, 0.5, 1000, 0.5) sizes 0.4 / 0.2 / $200. */
  lemma ExampleStrongEdge()
    ensures KellySize(0.7, 0.5, 1000.0, DefaultFraction) == KellyResult(0.4, 0.2, 200.0)
  {
    assert JsRound(20000.0) == 20000;
  }

  /** (0.55, 0.5, 1000, 0.5) sizes 0.1 / 0.05 / $50. */
  lemma ExampleSmallEdge()
    ensures KellySize(0.55, 0.5, 1000.0, DefaultFraction) == KellyResult(0.1, 0.05, 50.0)
  {
    assert JsRound(5000.0) == 5000;
  }
}

=== FILE: ledger.dfy ===
/** The in-memory state of `PositionTracker` (`src/trading/positions.ts`): a
    map from token id to position, kept as a sequence in insertion order
    with distinct token ids, plus the realized P&L of the day. */
module Ledger {
  import opened Wrappers
  import opened Seqs
  import opened StrategyTypes
  import opened TradingTypes

  datatype Tracker = Tracker(positions: seq<Position>, realizedPnl: real)

  /** The fresh tracker. */
  const Empty: Tracker := Tracker([], 0.0)

  predicate UniqueTokens(positions: seq<Position>)
  {
    forall i, j :: 0 <= i < j < |positions| ==> positions[i].tokenId != positions[j].tokenId
  }

  /** What every reachable tracker satisfies: one position per token, each
      holding a positive number of shares. */
  predicate Valid(t: Tracker)
  {
    && UniqueTokens(t.positions)
    && forall i :: 0 <= i < |t.positions| ==> t.positions[i].size > 0.0
  }

  /** `positions.get(tokenId)`, as an index. */
  function Find(positions: seq<Position>, tokenId: string): (r: Option<nat>)
    ensures r.Some? ==> r.value < |positions| && positions[r.value].tokenId == tokenId
    ensures r.None? <==> forall i :: 0 <= i < |positions| ==> positions[i].tokenId != tokenId
  {
    if |positions| == 0 then None
    else if positions[|positions| - 1].tokenId == tokenId then Some(|positions| - 1)
    else Find(positions[..|positions| - 1], tokenId)
  }

  /** A fill whose share arithmetic divides by non-zero amounts. */
  predicate FillDefined(t: Tracker, tokenId: string, price: real, sizeUsd: real)
  {
    && price != 0.0
    && (Find(t.positions, tokenId).Some? ==>
          t.positions[Find(t.positions, tokenId).value].size + sizeUsd / price != 0.0)
  }

  /** The position after averaging a fill into `p`. */
  function AverageIn(p: Position, price: real, sizeUsd: real): (r: Position)
    requires price != 0.0 && p.size + sizeUsd / price != 0.0
    ensures r.costBasis == p.costBasis + sizeUsd
    ensures r.size == p.size + sizeUsd / price
    ensures r.avgPrice * r.size == r.costBasis
    ensures r == p.(avgPrice := r.avgPrice, size := r.size, costBasis := r.costBasis)
  {
    var totalCost := p.costBasis + sizeUsd;
    var totalShares := p.size + sizeUsd / price;
    p.(avgPrice := totalCost / totalShares, size := totalShares, costBasis := totalCost)
  }

  /** The position a first fill opens. */
  function Opened(tokenId: string, conditionId: string, city: string, date: string, bucketLabel: string,
                  side: Side, price: real, sizeUsd: real, now: string): (r: Position)
    requires price != 0.0
    ensures r.avgPrice * r.size == r.costBasis
    ensures r.costBasis == sizeUsd && r.avgPrice == price && r.currentPrice == price
    ensures r.unrealizedPnl == 0.0
  {
    Position(tokenId, conditionId, city, date, bucketLabel, side, price, sizeUsd / price, sizeUsd,
             price, 0.0, now)
  }

  /** `addFill`: average into the token's position, or open one at the end. */
  function AddFill(t: Tracker, tokenId: string, conditionId: string, city: string, date: string,
                   bucketLabel: string, side: Side, price: real, sizeUsd: real, now: string): (r: Tracker)
    requires FillDefined(t, tokenId, price, sizeUsd)
    ensures r.realizedPnl == t.realizedPnl
    ensures Find(t.positions, tokenId).Some? ==>
              var i := Find(t.positions, tokenId).value;
              r.positions == t.positions[i := AverageIn(t.positions[i], price, sizeUsd)]
    ensures Find(t.positions, tokenId).None? ==>
              r.positions == t.positions + [Opened(tokenId, conditionId, city, date, bucketLabel, side, price, sizeUsd, now)]
    ensures UniqueTokens(t.positions) ==> UniqueTokens(r.positions)
    ensures Exposure(r.positions) == Exposure(t.positions) + sizeUsd
  {
    match Find(t.positions, tokenId)
    case Some(i) =>
      var updated := AverageIn(t.positions[i], price, sizeUsd);
      assert CostBases(t.positions[i := updated]) == CostBases(t.positions)[i := updated.costBasis];
      SumUpdate(CostBases(t.positions), i, updated.costBasis);
      t.(positions := t.positions[i := updated])
    case None =>
      var newPos := Opened(tokenId, conditionId, city, date, bucketLabel, side, price, sizeUsd, now);
      assert CostBases(t.positions + [newPos]) == CostBases(t.positions) + [sizeUsd];
      SumAppend(CostBases(t.positions), [sizeUsd]);
      assert Sum([sizeUsd]) == sizeUsd by {
        assert [sizeUsd][..0] == [];
      }
      t.(positions := t.positions + [newPos])
  }

  /** Fills of positive dollars at positive prices keep the tracker valid. */
  lemma AddFillKeepsValid(t: Tracker, tokenId: string, conditionId: string, city: string, date: string,
                          bucketLabel: string, side: Side, price: real, sizeUsd: real, now: string)
    requires Valid(t) && price > 0.0 && sizeUsd > 0.0
    ensures FillDefined(t, tokenId, price, sizeUsd)
    ensures Valid(AddFill(t, tokenId, conditionId, city, date, bucketLabel, side, price, sizeUsd, now))
  {
    assert sizeUsd / price > 0.0;
  }

  /** The mark-to-market of one position. */
  function Marked(p: Position, priceMap: map<string, real>): (r: Position)
    ensures p.tokenId in priceMap ==>
              r == p.(currentPrice := priceMap[p.tokenId],
                      unrealizedPnl := (priceMap[p.tokenId] - p.avgPrice) * p.size)
    ensures p.tokenId !in priceMap ==> r == p
  {
    if p.tokenId in priceMap then
      var price := priceMap[p.tokenId];
      p.(currentPrice := price, unrealizedPnl := (price - p.avgPrice) * p.size)
    else p
  }

  /** `updatePrices`: mark to market every position the price map covers. */
  function UpdatePrices(t: Tracker, priceMap: map<string, real>): (r: Tracker)
    ensures r.realizedPnl == t.realizedPnl
    ensures |r.positions| == |t.positions|
    ensures forall i :: 0 <= i < |t.positions| && t.positions[i].tokenId !in priceMap ==>
              r.positions[i] == t.positions[i]
    ensures forall i :: 0 <= i < |t.positions| && t.positions[i].tokenId in priceMap ==>
              && r.positions[i].currentPrice == priceMap[t.positions[i].tokenId]
              && r.positions[i].unrealizedPnl == (priceMap[t.positions[i].tokenId] - t.positions[i].avgPrice) * t.positions[i].size
              && r.positions[i] == t.positions[i].(currentPrice := r.positions[i].currentPrice,
                                                   unrealizedPnl := r.positions[i].unrealizedPnl)
  {
    t.(positions := seq(|t.positions|, i requires 0 <= i < |t.positions| => Marked(t.positions[i], priceMap)))
  }

  /** Marking to market changes neither the tokens nor the exposure. */
  lemma UpdatePricesKeepsBook(t: Tracker, priceMap: map<string, real>)
    ensures Valid(t) ==> Valid(UpdatePrices(t, priceMap))
    ensures Exposure(UpdatePrices(t, priceMap).positions) == Exposure(t.positions)
  {
    assert CostBases(UpdatePrices(t, priceMap).positions) == CostBases(t.positions);
  }

  /** `closePosition`: settle the token's position, returning the new
      tracker and the P&L realized. */
  function ClosePosition(t: Tracker, tokenId: string, settlementPrice: real): (r: (Tracker, real))
    ensures Find(t.positions, tokenId).None? ==> r == (t, 0.0)
    ensures Find(t.positions, tokenId).Some? ==>
              var i := Find(t.positions, tokenId).value;
              var pos := t.positions[i];
              && r.1 == (settlementPrice - pos.avgPrice) * pos.size
              && r.0.realizedPnl == t.realizedPnl + r.1
              && r.0.positions == t.positions[..i] + t.positions[i + 1..]
              && Exposure(r.0.positions) == Exposure(t.positions) - pos.costBasis
    ensures forall p :: p in r.0.positions ==> p in t.positions
  {
    match Find(t.positions, tokenId)
    case None => (t, 0.0)
    case Some(i) =>
      var pos := t.positions[i];
      var pnl := (settlementPrice - pos.avgPrice) * pos.size;
      var rest := t.positions[..i] + t.positions[i + 1..];
      ExposureRemove(t.positions, i);
      (Tracker(rest, t.realizedPnl + pnl), pnl)
  }

  /** Dropping a position takes its cost basis off the exposure. */
  lemma ExposureRemove(ps: seq<Position>, i: nat)
    requires i < |ps|
    ensures Exposure(ps[..i] + ps[i + 1..]) == Exposure(ps) - ps[i].costBasis
    ensures forall p :: p in ps[..i] + ps[i + 1..] ==> p in ps
  {
    var rest := ps[..i] + ps[i + 1..];
    assert CostBases(rest) == CostBases(ps)[..i] + CostBases(ps)[i + 1..];
    SumRemove(CostBases(ps), i);
    forall p | p in rest ensures p in ps {
      var k :| 0 <= k < |rest| && rest[k] == p;
      assert rest[k] == ps[if k < i then k else k + 1];
    }
  }

  /** Closing removes exactly the settled token and keeps the tracker valid. */
  lemma CloseRemovesToken(t: Tracker, tokenId: string, settlementPrice: real)
    requires Valid(t)
    ensures Valid(ClosePosition(t, tokenId, settlementPrice).0)
    ensures Find(ClosePosition(t, tokenId, settlementPrice).0.positions, tokenId).None?
  {
    var r := ClosePosition(t, tokenId, settlementPrice).0;
    match Find(t.positions, tokenId)
    case None =>
    case Some(i) =>
      RemoveKeepsValid(t.positions, i, r.positions);
  }

  /** Removing one position from a valid list keeps it valid and leaves no
      position with the removed token. */
  lemma RemoveKeepsValid(ps: seq<Position>, i: nat, rest: seq<Position>)
    requires i < |ps| && rest == ps[..i] + ps[i + 1..]
    requires UniqueTokens(ps) && forall k :: 0 <= k < |ps| ==> ps[k].size > 0.0
    ensures UniqueTokens(rest) && forall k :: 0 <= k < |rest| ==> rest[k].size > 0.0
    ensures forall k :: 0 <= k < |rest| ==> rest[k].tokenId != ps[i].tokenId
  {
    RemoveAt(ps, i, rest);
    forall a, b | 0 <= a < b < |rest| ensures rest[a].tokenId != rest[b].tokenId {
      var a', b' := if a < i then a else a + 1, if b < i then b else b + 1;
      assert rest[a] == ps[a'] && rest[b] == ps[b'] && a' < b';
    }
    forall k | 0 <= k < |rest| ensures rest[k].tokenId != ps[i].tokenId {
      var k' := if k < i then k else k + 1;
      assert rest[k] == ps[k'] && k' != i;
    }
  }

  function UnrealizedPnls(positions: seq<Position>): (r: seq<real>)
    ensures |r| == |positions|
    ensures forall i :: 0 <= i < |positions| ==> r[i] == positions[i].unrealizedPnl
  {
    seq(|positions|, i requires 0 <= i < |positions| => positions[i].unrealizedPnl)
  }

  /** `getUnrealizedPnl`: the open positions' unrealized P&L, summed. */
  function UnrealizedPnl(t: Tracker): (r: real)
    ensures |t.positions| == 0 ==> r == 0.0
    ensures (forall i :: 0 <= i < |t.positions| ==> t.positions[i].unrealizedPnl >= 0.0) ==> r >= 0.0
  {
    if forall i :: 0 <= i < |t.positions| ==> t.positions[i].unrealizedPnl >= 0.0 then
      SumNonNegative(UnrealizedPnls(t.positions));
      Sum(UnrealizedPnls(t.positions))
    else Sum(UnrealizedPnls(t.positions))
  }

  /** Closing a position takes exactly its unrealized P&L off the total. */
  lemma CloseDropsUnrealized(t: Tracker, tokenId: string, settlementPrice: real)
    requires Find(t.positions, tokenId).Some?
    ensures UnrealizedPnl(ClosePosition(t, tokenId, settlementPrice).0)
              == UnrealizedPnl(t) - t.positions[Find(t.positions, tokenId).value].unrealizedPnl
  {
    var i := Find(t.positions, tokenId).value;
    var ps := t.positions;
    assert UnrealizedPnls(ps[..i] + ps[i + 1..]) == UnrealizedPnls(ps)[..i] + UnrealizedPnls(ps)[i + 1..];
    SumRemove(UnrealizedPnls(ps), i);
  }

  /** Each position's price move times its shares. */
  function PriceMoves(positions: seq<Position>, priceMap: map<string, real>): (r: seq<real>)
    requires forall i :: 0 <= i < |positions| ==> positions[i].tokenId in priceMap
    ensures |r| == |positions|
    ensures forall i :: 0 <= i < |positions| ==>
              r[i] == (priceMap[positions[i].tokenId] - positions[i].avgPrice) * positions[i].size
  {
    seq(|positions|, i requires 0 <= i < |positions| =>
          (priceMap[positions[i].tokenId] - positions[i].avgPrice) * positions[i].size)
  }

  /** After a mark-to-market covering every token, the unrealized P&L is the
      sum over positions of price move times shares. */
  lemma UnrealizedAfterMark(t: Tracker, priceMap: map<string, real>)
    requires forall i :: 0 <= i < |t.positions| ==> t.positions[i].tokenId in priceMap
    ensures UnrealizedPnl(UpdatePrices(t, priceMap)) == Sum(PriceMoves(t.positions, priceMap))
  {
    assert UnrealizedPnls(UpdatePrices(t, priceMap).positions) == PriceMoves(t.positions, priceMap);
  }

  /** `resetDaily`: zero the realized P&L and nothing else. */
  function ResetDaily(t: Tracker): (r: Tracker)
    ensures r.positions == t.positions
    ensures r.realizedPnl == 0.0
  {
    t.(realizedPnl := 0.0)
  }

  /** A first fill on a token opens its position at the end of the list. */
  lemma FirstFillOpens(t: Tracker, tokenId: string, conditionId: string, city: string, date: string,
                       bucketLabel: string, side: Side, price: real, sizeUsd: real, now: string)
    requires Find(t.positions, tokenId).None? && price > 0.0
    ensures FillDefined(t, tokenId, price, sizeUsd)
    ensures var t1 := AddFill(t, tokenId, conditionId, city, date, bucketLabel, side, price, sizeUsd, now);
            && Find(t1.positions, tokenId) == Some(|t.positions|)
            && t1.positions[|t.positions|].costBasis == sizeUsd
            && t1.positions[|t.positions|].size == sizeUsd / price
  {
    var t1 := AddFill(t, tokenId, conditionId, city, date, bucketLabel, side, price, sizeUsd, now);
    assert t1.positions[|t.positions|].tokenId == tokenId;
  }

  /** Two fills of `s1` dollars at `p1` then `s2` at `p2` on a new token
      average to the total dollars over the total shares. */
  lemma TwoFillAverage(t: Tracker, tokenId: string, conditionId: string, city: string, date: string,
                       bucketLabel: string, side: Side, p1: real, s1: real, p2: real, s2: real, now: string)
    requires Find(t.positions, tokenId).None?
    requires p1 > 0.0 && s1 > 0.0 && p2 > 0.0 && s2 > 0.0
    ensures FillDefined(t, tokenId, p1, s1)
    ensures var t1 := AddFill(t, tokenId, conditionId, city, date, bucketLabel, side, p1, s1, now);
            && FillDefined(t1, tokenId, p2, s2)
            && var t2 := AddFill(t1, tokenId, conditionId, city, date, bucketLabel, side, p2, s2, now);
               && Find(t2.positions, tokenId) == Some(|t.positions|)
               && t2.positions[|t.positions|].avgPrice == (s1 + s2) / (s1 / p1 + s2 / p2)
  {
    FirstFillOpens(t, tokenId, conditionId, city, date, bucketLabel, side, p1, s1, now);
    var t1 := AddFill(t, tokenId, conditionId, city, date, bucketLabel, side, p1, s1, now);
    var n := |t.positions|;
    assert s1 / p1 > 0.0 && s2 / p2 > 0.0;
    var t2 := AddFill(t1, tokenId, conditionId, city, date, bucketLabel, side, p2, s2, now);
    assert t2.positions[n] == AverageIn(t1.positions[n], p2, s2);
  }
}

=== FILE: market_types.dfy ===
/** Market records (`src/market/types.ts`). A `null` bucket bound is `None`. */
module MarketTypes {
  import opened Wrappers

  datatype WeatherMarket = WeatherMarket(
    conditionId: string,
    tokenId: string,
    outcome: string,
    price: real,
    question: string,
    city: string,
    date: string,
    bucketLower: Option<real>,
    bucketUpper: Option<real>,
    bucketLabel: string)

  datatype WeatherEvent = WeatherEvent(
    conditionId: string,
    slug: string,
    title: string,
    description: string,
    endDate: string,
    active: bool,
    markets: seq<WeatherMarket>)

  datatype OrderBookEntry = OrderBookEntry(price: real, size: real)

  datatype OrderBook = OrderBook(
    tokenId: string,
    bids: seq<OrderBookEntry>,
    asks: seq<OrderBookEntry>,
    bestBid: real,
    bestAsk: real,
    spread: real)
}

=== FILE: numeric.dfy ===
/** The rounding and clamping idioms of the source: `Math.round`, rounding to
    cents and tenths of a cent, and `Math.max(lo, Math.min(hi, x))`. */
module Numeric {

  /** `Math.round(x)`: the nearest integer, halves rounded up. */
  function JsRound(x: real): (r: int)
    ensures x - 0.5 < r as real <= x + 0.5
  {
    (x + 0.5).Floor
  }

  /** A whole number of cents. */
  predicate OnCentGrid(r: real)
  {
    (r * 100.0).Floor as real == r * 100.0
  }

  /** A whole number of thousandths. */
  predicate OnMilliGrid(r: real)
  {
    (r * 1000.0).Floor as real == r * 1000.0
  }

  /** `Math.round(x * 100) / 100`: the nearest cent. */
  function Round2(x: real): (r: real)
    ensures OnCentGrid(r)
    ensures x - 0.005 < r <= x + 0.005
    ensures x >= 0.0 ==> r >= 0.0
  {
    JsRound(x * 100.0) as real / 100.0
  }

  /** `Math.round(x * 1000) / 1000`: the nearest tenth of a cent. */
  function Round3(x: real): (r: real)
    ensures OnMilliGrid(r)
    ensures x - 0.0005 < r <= x + 0.0005
  {
    JsRound(x * 1000.0) as real / 1000.0
  }

  function Min(a: real, b: real): real
  {
    if a <= b then a else b
  }

  function Max(a: real, b: real): real
  {
    if a >= b then a else b
  }

  /** `Math.max(lo, Math.min(hi, x))`. */
  function Clamp(x: real, lo: real, hi: real): (r: real)
    requires lo <= hi
    ensures lo <= r <= hi
    ensures lo <= x <= hi ==> r == x
    ensures x < lo ==> r == lo
    ensures x > hi ==> r == hi
  {
    Max(lo, Min(hi, x))
  }

  function Abs(x: real): (r: real)
    ensures r >= 0.0
    ensures r == x || r == -x
  {
    if x < 0.0 then -x else x
  }
}

=== FILE: nws.dfy ===
/** The National Weather Service forecast (`src/weather/nws.ts`): each
    daytime period becomes a point forecast whose low comes from the night
    period right after it. The two HTTP calls are left out: the periods of
    the forecast response are the input. */
module Nws {
  import opened Wrappers
  import opened Text
  import opened Config
  import opened WeatherTypes

  const Source: string := "nws"

  datatype Period = Period(
    name: string,
    startTime: string,
    temperature: real,
    temperatureUnit: string,
    shortForecast: string,
    isDaytime: bool)

  function CelsiusToFahrenheit(c: real): real
  {
    c * 9.0 / 5.0 + 32.0
  }

  /** The period's own figure in Fahrenheit, converting when its day period
      is in Celsius. */
  function InFahrenheit(t: real, unit: string): (r: real)
    ensures unit == "C" ==> r == CelsiusToFahrenheit(t)
    ensures unit != "C" ==> r == t
  {
    if unit == "C" then CelsiusToFahrenheit(t) else t
  }

  /** The night temperature paired with the day period at `i`: the next
      period's when that is a night period, else 0. */
  function NightAfter(periods: seq<Period>, i: nat): (r: real)
    requires i < |periods|
    ensures i + 1 < |periods| && !periods[i + 1].isDaytime ==> r == periods[i + 1].temperature
    ensures !(i + 1 < |periods| && !periods[i + 1].isDaytime) ==> r == 0.0
  {
    if i + 1 < |periods| && !periods[i + 1].isDaytime then periods[i + 1].temperature else 0.0
  }

  /** The forecast the day period at `i` yields. Both figures are converted
      by the day period's unit. */
  function ForecastAt(periods: seq<Period>, i: nat, city: CityConfig, weight: int, fetchedAt: string): (r: DeterministicForecast)
    requires i < |periods|
    ensures r.date == PrefixBefore(periods[i].startTime, 'T')
    ensures r.highF == InFahrenheit(periods[i].temperature, periods[i].temperatureUnit)
    ensures r.lowF == Some(InFahrenheit(NightAfter(periods, i), periods[i].temperatureUnit))
    ensures r.city == city.slug && r.source == Source && r.weight == weight
    ensures r.description == Some(periods[i].shortForecast) && r.horizonHours.None?
  {
    var p := periods[i];
    DeterministicForecast(city.slug, PrefixBefore(p.startTime, 'T'), Source,
                          InFahrenheit(p.temperature, p.temperatureUnit),
                          Some(InFahrenheit(NightAfter(periods, i), p.temperatureUnit)),
                          Some(p.shortForecast), weight, fetchedAt, None)
  }

  /** The indices of the daytime periods, in order. */
  function DaytimeIndices(periods: seq<Period>): (r: seq<nat>)
    ensures forall k :: 0 <= k < |r| ==> r[k] < |periods| && periods[r[k]].isDaytime
    ensures forall a, b :: 0 <= a < b < |r| ==> r[a] < r[b]
    ensures forall i :: 0 <= i < |periods| && periods[i].isDaytime ==> i in r
  {
    if |periods| == 0 then []
    else
      var n := |periods| - 1;
      var init := DaytimeIndices(periods[..n]);
      assert forall k :: 0 <= k < |init| ==> periods[..n][init[k]] == periods[init[k]];
      if periods[n].isDaytime then init + [n] else init
  }

  /** `fetchNwsForecast`: nothing outside the US, else one forecast per
      daytime period, in period order. */
  function NwsForecast(periods: seq<Period>, city: CityConfig, weight: int, fetchedAt: string): (r: seq<DeterministicForecast>)
    ensures city.country != "US" ==> r == []
    ensures city.country == "US" ==> |r| == |DaytimeIndices(periods)|
    ensures forall k :: 0 <= k < |r| ==> r[k] == ForecastAt(periods, DaytimeIndices(periods)[k], city, weight, fetchedAt)
  {
    if city.country != "US" then []
    else
      var days := DaytimeIndices(periods);
      seq(|days|, k requires 0 <= k < |days| => ForecastAt(periods, days[k], city, weight, fetchedAt))
  }

  /** A Celsius day with no night period after it reports a low of 32°F:
      the 0 default is converted too. */
  lemma CelsiusDayWithoutNight(periods: seq<Period>, city: CityConfig)
    requires |periods| == 1 && periods[0].isDaytime && periods[0].temperatureUnit == "C"
    requires city.country == "US"
    ensures var r := NwsForecast(periods, city, 1, "");
            |r| == 1 && r[0].lowF == Some(32.0)
  {
    assert DaytimeIndices(periods) == [0] by {
      assert periods[..0] == [];
    }
  }
}

=== FILE: openmeteo.dfy ===
/** Open-Meteo ensemble members (`src/weather/openmeteo.ts`): the member
    series are read from keys `temperature_2m_member00`, `..01`, ...; a
    missing key skips that member. The HTTP call is left out: the hourly
    object of the response is a map from key to series. */
module OpenMeteo {
  import opened Wrappers
  import opened Seqs
  import opened Decimal
  import opened Config
  import opened WeatherTypes

  const MemberKeyPrefix: string := "temperature_2m_member"

  /** `s.padStart(2, "0")` for the non-empty digit strings it is given. */
  function PadTwo(s: string): (r: string)
    ensures |s| < 2 ==> r == "0" + s
    ensures |s| >= 2 ==> r == s
  {
    if |s| < 2 then "0" + s else s
  }

  /** The key of member `i`. */
  function MemberKey(i: nat): string
  {
    MemberKeyPrefix + PadTwo(NatToString(i))
  }

  /** The digits of a member key read back as its index. */
  lemma MemberKeyDigits(i: nat)
    ensures AllDigits(MemberKey(i)[|MemberKeyPrefix|..])
    ensures ParseDigits(MemberKey(i)[|MemberKeyPrefix|..]) == i
  {
    var digits := NatToString(i);
    assert MemberKey(i)[|MemberKeyPrefix|..] == PadTwo(digits);
    ParseNatToString(i);
    if |digits| < 2 {
      ParseLeadingZero(digits);
    }
  }

  /** Distinct members never share a key. */
  lemma MemberKeyInjective(i: nat, j: nat)
    requires MemberKey(i) == MemberKey(j)
    ensures i == j
  {
    MemberKeyDigits(i);
    MemberKeyDigits(j);
  }

  /** The members `parseMembers` reads among indices `0 .. n - 1`. */
  function MembersBelow(hourly: map<string, seq<Option<real>>>, times: seq<string>, modelName: string, n: nat): (r: seq<EnsembleMember>)
    ensures |r| <= n
  {
    if n == 0 then []
    else
      var init := MembersBelow(hourly, times, modelName, n - 1);
      var key := MemberKey(n - 1);
      if key in hourly then init + [EnsembleMember(modelName, n - 1, hourly[key], times)]
      else init
  }

  /** Members in index order, all below `n`, each carrying the series under
      its own key. */
  predicate Shaped(r: seq<EnsembleMember>, hourly: map<string, seq<Option<real>>>, times: seq<string>, modelName: string, n: nat)
  {
    && (forall j :: 0 <= j < |r| ==> 0 <= r[j].memberIndex < n)
    && (forall a, b :: 0 <= a < b < |r| ==> r[a].memberIndex < r[b].memberIndex)
    && (forall j :: 0 <= j < |r| ==>
          && MemberKey(r[j].memberIndex) in hourly
          && r[j].temperatures == hourly[MemberKey(r[j].memberIndex)]
          && r[j].times == times && r[j].model == modelName)
  }

  /** The members read below `n` are shaped. */
  lemma {:induction false} MembersBelowShape(hourly: map<string, seq<Option<real>>>, times: seq<string>, modelName: string, n: nat)
    ensures Shaped(MembersBelow(hourly, times, modelName, n), hourly, times, modelName, n)
  {
    if n > 0 {
      MembersBelowShape(hourly, times, modelName, n - 1);
      var init := MembersBelow(hourly, times, modelName, n - 1);
      var key := MemberKey(n - 1);
      var r := MembersBelow(hourly, times, modelName, n);
      if key in hourly {
        var m := EnsembleMember(modelName, n - 1, hourly[key], times);
        assert r == init + [m];
        forall j | 0 <= j < |r|
          ensures r[j] == (if j < |init| then init[j] else m)
        {
        }
      } else {
        assert r == init;
      }
    }
  }

  /** Every member whose key is present is read. */
  lemma {:induction false} PresentKeysAreRead(hourly: map<string, seq<Option<real>>>, times: seq<string>, modelName: string, n: nat, i: nat)
    requires i < n && MemberKey(i) in hourly
    ensures exists j :: 0 <= j < |MembersBelow(hourly, times, modelName, n)| &&
                        MembersBelow(hourly, times, modelName, n)[j].memberIndex == i
  {
    var init := MembersBelow(hourly, times, modelName, n - 1);
    var r := MembersBelow(hourly, times, modelName, n);
    var key := MemberKey(n - 1);
    assert init <= r by {
      if key in hourly {
        assert r == init + [EnsembleMember(modelName, n - 1, hourly[key], times)];
      }
    }
    if i < n - 1 {
      PresentKeysAreRead(hourly, times, modelName, n - 1, i);
      var j :| 0 <= j < |init| && init[j].memberIndex == i;
      assert r[j] == init[j];
    } else {
      assert r == init + [EnsembleMember(modelName, n - 1, hourly[key], times)];
      assert r[|init|].memberIndex == i;
    }
  }

  /** `parseMembers`: probes `model.memberCount` keys (none when the count
      is not positive). */
  function ParseMembers(hourly: map<string, seq<Option<real>>>, times: seq<string>, model: EnsembleModelConfig): (r: seq<EnsembleMember>)
    ensures |r| <= if model.memberCount > 0 then model.memberCount else 0
    ensures forall j :: 0 <= j < |r| ==> 0 <= r[j].memberIndex < model.memberCount
    ensures forall a, b :: 0 <= a < b < |r| ==> r[a].memberIndex < r[b].memberIndex
    ensures forall j :: 0 <= j < |r| ==> && MemberKey(r[j].memberIndex) in hourly
                                         && r[j].temperatures == hourly[MemberKey(r[j].memberIndex)]
                                         && r[j].times == times && r[j].model == model.name
    ensures forall i: nat :: i < model.memberCount && MemberKey(i) in hourly ==>
              exists j :: 0 <= j < |r| && r[j].memberIndex == i
  {
    var n := if model.memberCount > 0 then model.memberCount else 0;
    var r := MembersBelow(hourly, times, model.name, n);
    MembersBelowShape(hourly, times, model.name, n);
    forall i: nat | i < model.memberCount && MemberKey(i) in hourly
      ensures exists j :: 0 <= j < |r| && r[j].memberIndex == i
    {
      PresentKeysAreRead(hourly, times, model.name, n, i);
    }
    r
  }

  /** A response carrying every member key yields every member, in index order. */
  lemma {:induction false} AllKeysAllMembers(hourly: map<string, seq<Option<real>>>, times: seq<string>, modelName: string, n: nat)
    requires forall i: nat :: i < n ==> MemberKey(i) in hourly
    ensures |MembersBelow(hourly, times, modelName, n)| == n
    ensures forall j :: 0 <= j < n ==> MembersBelow(hourly, times, modelName, n)[j].memberIndex == j
  {
    if n > 0 {
      AllKeysAllMembers(hourly, times, modelName, n - 1);
      var init := MembersBelow(hourly, times, modelName, n - 1);
      assert MemberKey(n - 1) in hourly;
      var r := MembersBelow(hourly, times, modelName, n);
      assert r == init + [EnsembleMember(modelName, n - 1, hourly[MemberKey(n - 1)], times)];
      forall j | 0 <= j < n ensures r[j].memberIndex == j {
        if j < n - 1 {
          assert r[j] == init[j];
        }
      }
    }
  }

  /** `fetchAllModels`: the forecasts of the models whose fetch succeeded,
      in model order. */
  function FetchAllModels(results: seq<Option<EnsembleForecast>>): (r: seq<EnsembleForecast>)
    ensures |r| <= |results|
    ensures forall f :: f in r ==> Some(f) in results
    ensures forall i :: 0 <= i < |results| && results[i].Some? ==> results[i].value in r
    ensures |r| == 0 <==> forall i :: 0 <= i < |results| ==> results[i].None?
  {
    Somes(results)
  }
}

=== FILE: parser.dfy ===
/** The market-title parser (`src/market/parser.ts`): city by alias, date,
    high/low metric and temperature bucket. The date reader depends on the
    clock and is a parameter; the three bucket regular expressions are
    matchers given as parameters, while their precedence and the labels
    built from their captures are concrete. */
module Parser {
  import opened Wrappers
  import opened Seqs
  import opened Text
  import opened Sorting
  import opened BucketLabel
  import Config

  datatype Metric = High | Low

  datatype ParsedMarket = ParsedMarket(
    city: string,
    date: string,
    metric: Metric,
    bucketLower: Option<int>,
    bucketUpper: Option<int>,
    bucketLabel: string)

  datatype BucketResult = BucketResult(bucketLower: Option<int>, bucketUpper: Option<int>, bucketLabel: string)

  /** The integers captured by the range, "or higher" and "or lower"
      expressions of `extractBucket`, or `None` when one does not match. */
  datatype BucketPatterns = BucketPatterns(
    range: string -> Option<(int, int)>,
    higher: string -> Option<int>,
    lower: string -> Option<int>)

  /** An alias as it appears in titles (lower case) and the city slug it names. */
  type Alias = (string, string)

  function AliasLength(a: Alias): real
  {
    |a.0| as real
  }

  /** Aliases in order of non-increasing length. */
  predicate LongestFirst(s: seq<Alias>)
  {
    SortedDesc(s, AliasLength)
  }

  /** `Object.keys(CITY_ALIASES).sort((a, b) => b.length - a.length)`: the
      aliases longest first, a permutation of the table, and stable, so
      aliases of equal length keep their table order. */
  function ByLength(aliases: seq<Alias>): (r: seq<Alias>)
    ensures LongestFirst(r)
    ensures forall i, j :: 0 <= i < j < |r| ==> |r[j].0| <= |r[i].0|
    ensures multiset(r) == multiset(aliases)
    ensures forall v :: Tied(r, AliasLength, v) == Tied(aliases, AliasLength, v)
  {
    var r := SortDesc(aliases, AliasLength);
    assert forall v :: Tied(r, AliasLength, v) == Tied(aliases, AliasLength, v) by {
      forall v ensures Tied(r, AliasLength, v) == Tied(aliases, AliasLength, v) {
        SortIsStable(aliases, AliasLength, v);
      }
    }
    r
  }

  /** The index of the first alias of `s` that occurs in the title. Here and
      below, `occurs` is the test `extractCity` applies to each alias. */
  function FirstContained(occurs: Alias -> bool, s: seq<Alias>): (k: Option<nat>)
    ensures k.Some? ==> k.value < |s| && occurs(s[k.value])
    ensures k.Some? ==> forall j :: 0 <= j < k.value ==> !occurs(s[j])
    ensures k.None? <==> forall j :: 0 <= j < |s| ==> !occurs(s[j])
  {
    if |s| == 0 then None
    else if occurs(s[0]) then Some(0)
    else match FirstContained(occurs, s[1..])
      case None => None
      case Some(k) => Some(k + 1)
  }

  /** The first alias of `s` that occurs. */
  function FirstOccurring(occurs: Alias -> bool, s: seq<Alias>): Option<Alias>
  {
    match FirstContained(occurs, s)
    case None => None
    case Some(k) => Some(s[k])
  }

  /** Independently of any sort: the index of the first, in table order, of
      the longest aliases that occur. */
  function LongestOccurringIndex(occurs: Alias -> bool, s: seq<Alias>): (k: Option<nat>)
    ensures k.None? <==> forall j :: 0 <= j < |s| ==> !occurs(s[j])
    ensures k.Some? ==> k.value < |s| && occurs(s[k.value])
    ensures k.Some? ==> forall j :: 0 <= j < |s| && occurs(s[j]) ==> |s[j].0| <= |s[k.value].0|
    ensures k.Some? ==> forall j :: 0 <= j < k.value && occurs(s[j]) ==> |s[j].0| < |s[k.value].0|
  {
    if |s| == 0 then None
    else
      var n := |s| - 1;
      var b := LongestOccurringIndex(occurs, s[..n]);
      assert forall j :: 0 <= j < n ==> s[..n][j] == s[j];
      if occurs(s[n]) && (b.None? || |s[b.value].0| < |s[n].0|) then Some(n) else b
  }

  function LongestOccurring(occurs: Alias -> bool, s: seq<Alias>): Option<Alias>
  {
    match LongestOccurringIndex(occurs, s)
    case None => None
    case Some(k) => Some(s[k])
  }

  lemma FirstContainedAt(occurs: Alias -> bool, s: seq<Alias>, p: nat)
    requires p < |s| && occurs(s[p])
    requires forall j :: 0 <= j < p ==> !occurs(s[j])
    ensures FirstContained(occurs, s) == Some(p)
  {
  }

  /** Where the first occurring alias lands once `x` is put at position `k`:
      one occurring before `k` stays first ... */
  lemma SpliceBefore(occurs: Alias -> bool, t: seq<Alias>, x: Alias, k: nat, m: nat)
    requires m < k <= |t| && occurs(t[m])
    requires forall j :: 0 <= j < m ==> !occurs(t[j])
    ensures FirstContained(occurs, t[..k] + [x] + t[k..]) == Some(m)
  {
    var r := t[..k] + [x] + t[k..];
    assert forall j :: 0 <= j <= m ==> r[j] == t[j];
    FirstContainedAt(occurs, r, m);
  }

  /** ... `x` comes first when it occurs and nothing before it does ... */
  lemma SpliceAt(occurs: Alias -> bool, t: seq<Alias>, x: Alias, k: nat)
    requires k <= |t| && occurs(x)
    requires forall j :: 0 <= j < k ==> !occurs(t[j])
    ensures FirstContained(occurs, t[..k] + [x] + t[k..]) == Some(k)
  {
    var r := t[..k] + [x] + t[k..];
    assert forall j :: 0 <= j < k ==> r[j] == t[j];
    assert r[k] == x;
    FirstContainedAt(occurs, r, k);
  }

  /** ... one occurring at or after `k` moves up by one when `x` does not
      occur ... */
  lemma SpliceAfter(occurs: Alias -> bool, t: seq<Alias>, x: Alias, k: nat, m: nat)
    requires k <= m < |t| && occurs(t[m]) && !occurs(x)
    requires forall j :: 0 <= j < m ==> !occurs(t[j])
    ensures FirstContained(occurs, t[..k] + [x] + t[k..]) == Some(m + 1)
  {
    var r := t[..k] + [x] + t[k..];
    assert forall j :: 0 <= j < k ==> r[j] == t[j];
    assert r[k] == x;
    assert forall j :: k < j <= m + 1 ==> r[j] == t[j - 1];
    FirstContainedAt(occurs, r, m + 1);
  }

  /** ... and none occurs when neither `x` nor any of `t` does. */
  lemma SpliceNone(occurs: Alias -> bool, t: seq<Alias>, x: Alias, k: nat)
    requires k <= |t| && !occurs(x)
    requires forall j :: 0 <= j < |t| ==> !occurs(t[j])
    ensures FirstContained(occurs, t[..k] + [x] + t[k..]).None?
  {
    var r := t[..k] + [x] + t[k..];
    forall j | 0 <= j < |r| ensures !occurs(r[j]) {
      if j < k {
        assert r[j] == t[j];
      } else if j > k {
        assert r[j] == t[j - 1];
      }
    }
  }

  /** Putting `x` at position `k` of a longest-first list, after exactly the
      aliases at least as long: `x` becomes the first occurring alias exactly
      when it occurs and is strictly longer than the previous first;
      otherwise the first occurring alias stays. */
  lemma SpliceFirstOccurring(occurs: Alias -> bool, t: seq<Alias>, x: Alias, k: nat)
    requires k <= |t|
    requires forall i :: 0 <= i < k ==> |x.0| <= |t[i].0|
    requires k < |t| ==> |t[k].0| < |x.0|
    requires forall i, j :: 0 <= i < j < |t| ==> |t[j].0| <= |t[i].0|
    ensures var f := FirstOccurring(occurs, t);
            FirstOccurring(occurs, t[..k] + [x] + t[k..])
              == if occurs(x) && (f.None? || |f.value.0| < |x.0|) then Some(x) else f
  {
    var r := t[..k] + [x] + t[k..];
    var f := FirstContained(occurs, t);
    if f.None? {
      if occurs(x) {
        SpliceAt(occurs, t, x, k);
        assert r[k] == x;
      } else {
        SpliceNone(occurs, t, x, k);
      }
    } else {
      var m := f.value;
      if m < k {
        SpliceBefore(occurs, t, x, k, m);
        assert r[m] == t[m];
      } else if occurs(x) {
        SpliceAt(occurs, t, x, k);
        assert r[k] == x;
        assert |t[m].0| <= |t[k].0|;
      } else {
        SpliceAfter(occurs, t, x, k, m);
        assert r[m + 1] == t[m];
      }
    }
  }

  /** The same for the stable insertion the sort performs. */
  lemma InsertFirstOccurring(occurs: Alias -> bool, t: seq<Alias>, x: Alias)
    requires LongestFirst(t)
    ensures var f := FirstOccurring(occurs, t);
            FirstOccurring(occurs, Insert(t, x, AliasLength))
              == if occurs(x) && (f.None? || |f.value.0| < |x.0|) then Some(x) else f
  {
    var k := Slot(t, x, AliasLength);
    assert forall i :: 0 <= i < k ==> AliasLength(x) <= AliasLength(t[i]);
    assert forall i, j :: 0 <= i < j < |t| ==> AliasLength(t[j]) <= AliasLength(t[i]);
    SpliceFirstOccurring(occurs, t, x, k);
  }

  /** The reference choice, one alias at a time: the last alias takes over
      exactly when it occurs and is strictly longer than the choice among the
      others. */
  lemma LongestOccurringStep(occurs: Alias -> bool, s: seq<Alias>)
    requires |s| > 0
    ensures var b := LongestOccurring(occurs, s[..|s| - 1]);
            var x := s[|s| - 1];
            LongestOccurring(occurs, s) == if occurs(x) && (b.None? || |b.value.0| < |x.0|) then Some(x) else b
  {
    var n := |s| - 1;
    var b := LongestOccurringIndex(occurs, s[..n]);
    if b.Some? {
      assert s[..n][b.value] == s[b.value];
    }
  }

  /** Scanning the sorted aliases for the first one that occurs finds the
      first, in table order, of the longest occurring aliases. */
  lemma {:induction false} SortedScanFindsLongest(occurs: Alias -> bool, s: seq<Alias>)
    ensures FirstOccurring(occurs, SortDesc(s, AliasLength)) == LongestOccurring(occurs, s)
    decreases |s|
  {
    if |s| > 0 {
      var n := |s| - 1;
      var sorted := SortDesc(s[..n], AliasLength);
      assert SortDesc(s, AliasLength) == Insert(sorted, s[n], AliasLength);
      SortedScanFindsLongest(occurs, s[..n]);
      InsertFirstOccurring(occurs, sorted, s[n]);
      LongestOccurringStep(occurs, s);
    }
  }

  /** The test `extractCity` applies: `lower.includes(alias)`. */
  function InTitle(lower: string): Alias -> bool
  {
    (a: Alias) => Contains(lower, a.0)
  }

  /** The reference choice stated over the table's members. */
  lemma LongestOccurringMembers(lower: string, aliases: seq<Alias>)
    ensures LongestOccurring(InTitle(lower), aliases).None? <==> forall a :: a in aliases ==> !Contains(lower, a.0)
    ensures LongestOccurring(InTitle(lower), aliases).Some? ==>
              forall a :: a in aliases && Contains(lower, a.0) ==> |a.0| <= |LongestOccurring(InTitle(lower), aliases).value.0|
  {
    var k := LongestOccurringIndex(InTitle(lower), aliases);
    if k.Some? {
      forall a | a in aliases && Contains(lower, a.0) ensures |a.0| <= |aliases[k.value].0| {
        var j :| 0 <= j < |aliases| && aliases[j] == a;
      }
    } else {
      forall a | a in aliases ensures !Contains(lower, a.0) {
        var j :| 0 <= j < |aliases| && aliases[j] == a;
      }
    }
  }

  /** The alias `extractCity` settles on: the first, in table order, of the
      longest aliases the lower-cased title contains. */
  function MatchedAlias(lower: string, aliases: seq<Alias>): (r: Option<Alias>)
    ensures r == LongestOccurring(InTitle(lower), aliases)
    ensures r.None? <==> forall a :: a in aliases ==> !Contains(lower, a.0)
    ensures r.Some? ==> r.value in aliases && Contains(lower, r.value.0)
    ensures r.Some? ==> forall a :: a in aliases && Contains(lower, a.0) ==> |a.0| <= |r.value.0|
    ensures r.Some? ==> exists i :: && 0 <= i < |aliases| && aliases[i] == r.value
                                    && forall j :: 0 <= j < i && Contains(lower, aliases[j].0) ==> |aliases[j].0| < |r.value.0|
  {
    SortedScanFindsLongest(InTitle(lower), aliases);
    LongestOccurringMembers(lower, aliases);
    FirstOccurring(InTitle(lower), ByLength(aliases))
  }

  /** `extractCity`: the slug of the first of the longest aliases the title
      contains. */
  function ExtractCity(lower: string, aliases: seq<Alias>): (r: Option<string>)
    ensures r.None? <==> forall a :: a in aliases ==> !Contains(lower, a.0)
    ensures r.Some? ==> LongestOccurring(InTitle(lower), aliases).Some? && r.value == LongestOccurring(InTitle(lower), aliases).value.1
  {
    match MatchedAlias(lower, aliases)
    case None => None
    case Some(a) => Some(a.1)
  }

  /** `/\blow\s+temperature\b/` matching with "low" at `i` and "temperature"
      at `j`. */
  predicate LowTemperatureAt(s: string, i: nat, j: nat)
  {
    && i + 3 < j && j + 11 <= |s|
    && (i == 0 || !IsWordChar(s[i - 1]))
    && s[i..i + 3] == "low"
    && AllSpace(s[i + 3..j])
    && s[j..j + 11] == "temperature"
    && (j + 11 == |s| || !IsWordChar(s[j + 11]))
  }

  predicate MentionsLowTemperature(s: string)
  {
    exists i: nat, j: nat | i < j <= |s| :: LowTemperatureAt(s, i, j)
  }

  function MetricOf(lower: string): (r: Metric)
    ensures r == Low <==> MentionsLowTemperature(lower)
  {
    if MentionsLowTemperature(lower) then Low else High
  }

  /** `extractBucket`: the range form first, then "or higher", then "or
      lower"; each labelled so that the label reads back as its bounds. */
  function ExtractBucket(title: string, patterns: BucketPatterns): (r: Option<BucketResult>)
    ensures r.None? <==> patterns.range(title).None? && patterns.higher(title).None? && patterns.lower(title).None?
    ensures patterns.range(title).Some? ==>
              var (low, high) := patterns.range(title).value;
              r.Some? && r.value.bucketLower == Some(low) && r.value.bucketUpper == Some(high)
    ensures patterns.range(title).None? && patterns.higher(title).Some? ==>
              r.Some? && r.value.bucketLower == patterns.higher(title) && r.value.bucketUpper.None?
    ensures patterns.range(title).None? && patterns.higher(title).None? && patterns.lower(title).Some? ==>
              r.Some? && r.value.bucketLower.None? && r.value.bucketUpper == patterns.lower(title)
    ensures r.Some? ==> ReadLabel(r.value.bucketLabel) == Some(Bounds(r.value.bucketLower, r.value.bucketUpper))
  {
    match patterns.range(title)
    case Some((low, high)) =>
      RangeLabelRoundTrip(low, high);
      Some(BucketResult(Some(low), Some(high), RangeLabel(low, high)))
    case None =>
      match patterns.higher(title)
      case Some(val) =>
        HigherLabelRoundTrip(val);
        Some(BucketResult(Some(val), None, HigherLabel(val)))
      case None =>
        match patterns.lower(title)
        case Some(val) =>
          LowerLabelRoundTrip(val);
          Some(BucketResult(None, Some(val), LowerLabel(val)))
        case None => None
  }

  /** `parseMarketTitle`: `None` unless a city, a date and a bucket are all
      found. */
  function ParseMarketTitle(title: string, aliases: seq<Alias>, extractDate: string -> Option<string>,
                            patterns: BucketPatterns): (r: Option<ParsedMarket>)
    ensures r.Some? <==> && ExtractCity(ToLower(title), aliases).Some?
                         && extractDate(title).Some?
                         && ExtractBucket(title, patterns).Some?
    ensures r.Some? ==> && r.value.city == ExtractCity(ToLower(title), aliases).value
                        && (exists a :: a in aliases && a.1 == r.value.city && Contains(ToLower(title), a.0))
                        && r.value.date == extractDate(title).value
                        && (r.value.metric == Low <==> MentionsLowTemperature(ToLower(title)))
    ensures r.Some? ==> ExtractBucket(title, patterns).value
                          == BucketResult(r.value.bucketLower, r.value.bucketUpper, r.value.bucketLabel)
    ensures r.Some? ==> && (r.value.bucketLower.Some? || r.value.bucketUpper.Some?)
                        && ReadLabel(r.value.bucketLabel) == Some(Bounds(r.value.bucketLower, r.value.bucketUpper))
  {
    var lower := ToLower(title);
    match ExtractCity(lower, aliases)
    case None => None
    case Some(city) =>
      match extractDate(title)
      case None => None
      case Some(date) =>
        var metric := MetricOf(lower);
        match ExtractBucket(title, patterns)
        case None => None
        case Some(b) =>
          Some(ParsedMarket(city, date, metric, b.bucketLower, b.bucketUpper, b.bucketLabel))
  }

  /** "new york city" is the one longest entry of the configured alias
      table. */
  lemma LongestConfiguredAlias()
    ensures forall b :: b in Config.CityAliases ==> |b.0| <= 13
    ensures forall b :: b in Config.CityAliases && |b.0| == 13 ==> b.1 == "nyc"
  {
  }

  /** A contained alias no other alias outgrows decides the city, unless an
      alias as long names another. */
  lemma LongestAliasDecides(lower: string, aliases: seq<Alias>, a: Alias)
    requires a in aliases && Contains(lower, a.0)
    requires forall b :: b in aliases ==> |b.0| <= |a.0|
    requires forall b :: b in aliases && |b.0| == |a.0| ==> b.1 == a.1
    ensures ExtractCity(lower, aliases) == Some(a.1)
  {
  }

  /** Against the configured alias table, any title naming "new york city"
      resolves to `nyc`, however many shorter aliases it also contains. */
  lemma NewYorkCityIsNyc(lower: string)
    requires Contains(lower, "new york city")
    ensures ExtractCity(lower, Config.CityAliases) == Some("nyc")
  {
    LongestConfiguredAlias();
    LongestAliasDecides(lower, Config.CityAliases, ("new york city", "nyc"));
  }

  /** Among aliases of equal length the table order decides, not the
      title's: a title naming Paris before Miami resolves to Miami, which the
      table lists first. */
  lemma TableOrderBreaksTies()
    ensures ExtractCity("paris or miami", [("miami", "miami"), ("paris", "paris")]) == Some("miami")
  {
    var lower := "paris or miami";
    var aliases := [("miami", "miami"), ("paris", "paris")];
    assert lower[9..] == "miami";
    ContainsAt(lower, 9, "miami");
    assert StartsWith(lower, "paris");
    assert InTitle(lower)(aliases[0]) && InTitle(lower)(aliases[1]);
    assert aliases[..1] == [aliases[0]];
    assert [aliases[0]][..0] == [];
    assert LongestOccurringIndex(InTitle(lower), [aliases[0]]) == Some(0);
    assert LongestOccurringIndex(InTitle(lower), aliases) == Some(0);
  }

  /** "low temperature" as two words selects the daily low. */
  lemma LowTemperatureTitle()
    ensures MetricOf("the low temperature in nyc") == Low
  {
    var s := "the " + "low" + " " + "temperature" + " in nyc";
    assert s == "the low temperature in nyc";
    assert s[4..7] == "low";
    assert s[7..8] == " ";
    assert s[8..19] == "temperature";
    assert LowTemperatureAt(s, 4, 8);
  }

  /** "lowest temperature" is not the phrase: the daily high is meant. */
  lemma LowestIsNotLow()
    ensures MetricOf("lowest temperature") == High
  {
    var s := "lowest temperature";
    forall i: nat, j: nat | i < j <= |s| ensures !LowTemperatureAt(s, i, j) {
      if i + 3 < j && j + 11 <= |s| && s[i..i + 3] == "low" {
        assert s[i] == s[i..i + 3][0] == 'l';
        assert i <= 3 && s[1] == 'o' && s[2] == 'w' && s[3] == 'e';
        assert i == 0;
        assert s[3..j][0] == 'e';
        assert !IsSpace('e');
      }
    }
  }
}

=== FILE: prices.dfy ===
/** The CLOB order-book summary (`src/market/prices.ts`): the levels as
    numbers, the best bid and ask with their empty-side defaults, the spread,
    and the map of books fetched for a batch of tokens. Fetching is left
    out: a batch arrives as one outcome per token. */
module Prices {
  import opened Wrappers
  import opened Seqs
  import opened MarketTypes

  /** A price level as the CLOB sends it: decimal strings. */
  datatype RawLevel = RawLevel(price: string, size: string)

  /** The book response; a missing side is `None`. */
  datatype BookResponse = BookResponse(bids: Option<seq<RawLevel>>, asks: Option<seq<RawLevel>>)

  /** `(side || []).map(...)` with `parseFloat` on both fields. */
  function Levels(raw: Option<seq<RawLevel>>, parseFloat: string -> real): (r: seq<OrderBookEntry>)
    ensures |r| == |raw.GetOr([])|
    ensures forall i :: 0 <= i < |r| ==>
              r[i] == OrderBookEntry(parseFloat(raw.value[i].price), parseFloat(raw.value[i].size))
  {
    var levels := raw.GetOr([]);
    seq(|levels|, i requires 0 <= i < |levels| => OrderBookEntry(parseFloat(levels[i].price), parseFloat(levels[i].size)))
  }

  function PricesOf(levels: seq<OrderBookEntry>): (r: seq<real>)
    ensures |r| == |levels|
    ensures forall i :: 0 <= i < |levels| ==> r[i] == levels[i].price
  {
    seq(|levels|, i requires 0 <= i < |levels| => levels[i].price)
  }

  /** The highest bid, or 0 with no bids. */
  function BestBid(bids: seq<OrderBookEntry>): (r: real)
    ensures |bids| == 0 ==> r == 0.0
    ensures |bids| > 0 ==> exists i :: 0 <= i < |bids| && bids[i].price == r
    ensures forall i :: 0 <= i < |bids| ==> bids[i].price <= r
  {
    if |bids| > 0 then
      var r := MaxOf(PricesOf(bids));
      assert exists i :: 0 <= i < |bids| && PricesOf(bids)[i] == r;
      r
    else 0.0
  }

  /** The lowest ask, or 1 with no asks. */
  function BestAsk(asks: seq<OrderBookEntry>): (r: real)
    ensures |asks| == 0 ==> r == 1.0
    ensures |asks| > 0 ==> exists i :: 0 <= i < |asks| && asks[i].price == r
    ensures forall i :: 0 <= i < |asks| ==> r <= asks[i].price
  {
    if |asks| > 0 then
      var r := MinOf(PricesOf(asks));
      assert exists i :: 0 <= i < |asks| && PricesOf(asks)[i] == r;
      r
    else 1.0
  }

  /** The `OrderBook` `fetchOrderBook` builds from a response. */
  function Summarize(tokenId: string, data: BookResponse, parseFloat: string -> real): (r: OrderBook)
    ensures r.tokenId == tokenId
    ensures |r.bids| == |data.bids.GetOr([])| && |r.asks| == |data.asks.GetOr([])|
    ensures forall i :: 0 <= i < |r.bids| ==>
              r.bids[i] == OrderBookEntry(parseFloat(data.bids.value[i].price), parseFloat(data.bids.value[i].size))
    ensures forall i :: 0 <= i < |r.asks| ==>
              r.asks[i] == OrderBookEntry(parseFloat(data.asks.value[i].price), parseFloat(data.asks.value[i].size))
    ensures r.bestBid == BestBid(r.bids) && r.bestAsk == BestAsk(r.asks)
    ensures r.spread == r.bestAsk - r.bestBid
  {
    var bids := Levels(data.bids, parseFloat);
    var asks := Levels(data.asks, parseFloat);
    var bestBid := BestBid(bids);
    var bestAsk := BestAsk(asks);
    OrderBook(tokenId, bids, asks, bestBid, bestAsk, bestAsk - bestBid)
  }

  /** A book whose bids all sit below its asks, with prices inside (0, 1),
      has a positive spread, empty sides included. */
  lemma UncrossedBookHasPositiveSpread(b: OrderBook)
    requires b.bestBid == BestBid(b.bids) && b.bestAsk == BestAsk(b.asks)
    requires b.spread == b.bestAsk - b.bestBid
    requires forall i :: 0 <= i < |b.bids| ==> b.bids[i].price < 1.0
    requires forall j :: 0 <= j < |b.asks| ==> 0.0 < b.asks[j].price
    requires forall i, j :: 0 <= i < |b.bids| && 0 <= j < |b.asks| ==> b.bids[i].price < b.asks[j].price
    ensures b.spread > 0.0
  {
    if |b.bids| > 0 && |b.asks| > 0 {
      var i :| 0 <= i < |b.bids| && b.bids[i].price == b.bestBid;
      var j :| 0 <= j < |b.asks| && b.asks[j].price == b.bestAsk;
    } else if |b.bids| > 0 {
      var i :| 0 <= i < |b.bids| && b.bids[i].price == b.bestBid;
    } else if |b.asks| > 0 {
      var j :| 0 <= j < |b.asks| && b.asks[j].price == b.bestAsk;
    }
  }

  /** `fetchOrderBooks`: the books fetched successfully, keyed by token,
      set in token order. */
  function OrderBooks(tokenIds: seq<string>, results: seq<Option<OrderBook>>): (r: map<string, OrderBook>)
    requires |results| == |tokenIds|
    ensures forall t :: t in r ==> exists i :: 0 <= i < |tokenIds| && tokenIds[i] == t && results[i] == Some(r[t])
    ensures forall i :: 0 <= i < |tokenIds| && results[i].Some? ==> tokenIds[i] in r
  {
    if |tokenIds| == 0 then map[]
    else
      var n := |tokenIds| - 1;
      var books := OrderBooks(tokenIds[..n], results[..n]);
      assert forall i :: 0 <= i < n ==> tokenIds[..n][i] == tokenIds[i] && results[..n][i] == results[i];
      match results[n]
      case Some(book) => books[tokenIds[n] := book]
      case None => books
  }

  /** The map's keys are exactly the tokens whose fetch succeeded. */
  lemma {:induction false} OrderBooksKeys(tokenIds: seq<string>, results: seq<Option<OrderBook>>)
    requires |results| == |tokenIds|
    ensures forall t :: t in OrderBooks(tokenIds, results) <==>
              exists i :: 0 <= i < |tokenIds| && tokenIds[i] == t && results[i].Some?
    decreases |tokenIds|
  {
    if |tokenIds| > 0 {
      var n := |tokenIds| - 1;
      OrderBooksKeys(tokenIds[..n], results[..n]);
      forall t ensures t in OrderBooks(tokenIds, results) <==>
                         exists i :: 0 <= i < |tokenIds| && tokenIds[i] == t && results[i].Some? {
        if exists i :: 0 <= i < n && tokenIds[..n][i] == t && results[..n][i].Some? {
          var i :| 0 <= i < n && tokenIds[..n][i] == t && results[..n][i].Some?;
          assert tokenIds[i] == t && results[i].Some?;
        }
        if exists i :: 0 <= i < |tokenIds| && tokenIds[i] == t && results[i].Some? {
          var i :| 0 <= i < |tokenIds| && tokenIds[i] == t && results[i].Some?;
          if i < n {
            assert tokenIds[..n][i] == t && results[..n][i].Some?;
          }
        }
      }
    }
  }

  /** Each key holds the book of the token's last successful fetch. */
  lemma {:induction false} OrderBooksLastWins(tokenIds: seq<string>, results: seq<Option<OrderBook>>, i: nat)
    requires |results| == |tokenIds|
    requires i < |tokenIds| && results[i].Some?
    requires forall j :: i < j < |tokenIds| && tokenIds[j] == tokenIds[i] ==> results[j].None?
    ensures tokenIds[i] in OrderBooks(tokenIds, results)
    ensures OrderBooks(tokenIds, results)[tokenIds[i]] == results[i].value
    decreases |tokenIds|
  {
    var n := |tokenIds| - 1;
    if i < n {
      assert tokenIds[..n][i] == tokenIds[i] && results[..n][i] == results[i];
      forall j | i < j < n && tokenIds[..n][j] == tokenIds[..n][i] ensures results[..n][j].None? {
        assert tokenIds[..n][j] == tokenIds[j] && results[..n][j] == results[j];
      }
      OrderBooksLastWins(tokenIds[..n], results[..n], i);
    }
  }
}

=== FILE: risk.dfy ===
/** The risk predicate (`src/trading/risk.ts`): trading stops once exposure
    reaches 80% of the bankroll or the day's loss reaches its limit, and a
    single trade must also fit the position cap and the bankroll. */
module Risk {
  import opened Wrappers
  import opened Seqs
  import opened Config
  import opened TradingTypes

  /** The share of the bankroll that may be committed before trading stops. */
  const ExposureLimitFactor: real := 0.8

  /** `evaluateRisk`. */
  function EvaluateRisk(positions: seq<Position>, dailyRealizedPnl: real, config: AppConfig): (r: RiskState)
    ensures r.totalExposure == Exposure(positions)
    ensures r.openPositionCount == |positions|
    ensures r.dailyPnl == dailyRealizedPnl
    ensures r.maxPositionReached <==> Exposure(positions) >= config.bankrollUsd * ExposureLimitFactor
    ensures r.dailyLossLimitHit <==> dailyRealizedPnl <= -config.maxDailyLossUsd
    ensures r.canTrade <==> Exposure(positions) < config.bankrollUsd * ExposureLimitFactor
                            && dailyRealizedPnl > -config.maxDailyLossUsd
  {
    var totalExposure := Exposure(positions);
    var maxPositionReached := totalExposure >= config.bankrollUsd * ExposureLimitFactor;
    var dailyLossLimitHit := dailyRealizedPnl <= -config.maxDailyLossUsd;
    RiskState(totalExposure, dailyRealizedPnl, |positions|, maxPositionReached, dailyLossLimitHit,
              !maxPositionReached && !dailyLossLimitHit)
  }

  /** `canPlaceTrade`: `None` when allowed, else the first failed check. */
  function CanPlaceTrade(sizeUsd: real, positions: seq<Position>, dailyRealizedPnl: real, config: AppConfig): (r: Option<BlockReason>)
    ensures r == Some(RiskLimitsHit) <==> !EvaluateRisk(positions, dailyRealizedPnl, config).canTrade
    ensures (r.Some? && r.value.ExceedsMaxPosition?) <==>
              EvaluateRisk(positions, dailyRealizedPnl, config).canTrade && sizeUsd > config.maxPositionUsd
    ensures r.Some? && r.value.ExceedsMaxPosition? ==>
              r.value == ExceedsMaxPosition(sizeUsd, config.maxPositionUsd)
    ensures r == Some(WouldExceedBankroll) <==>
              && EvaluateRisk(positions, dailyRealizedPnl, config).canTrade
              && sizeUsd <= config.maxPositionUsd
              && Exposure(positions) + sizeUsd > config.bankrollUsd
    ensures r.None? <==>
              && EvaluateRisk(positions, dailyRealizedPnl, config).canTrade
              && sizeUsd <= config.maxPositionUsd
              && Exposure(positions) + sizeUsd <= config.bankrollUsd
  {
    var risk := EvaluateRisk(positions, dailyRealizedPnl, config);
    if !risk.canTrade then Some(RiskLimitsHit)
    else if sizeUsd > config.maxPositionUsd then Some(ExceedsMaxPosition(sizeUsd, config.maxPositionUsd))
    else if risk.totalExposure + sizeUsd > config.bankrollUsd then Some(WouldExceedBankroll)
    else None
  }

  /** An allowed trade starts below 80% exposure and, once placed, keeps the
      exposure within the bankroll. */
  lemma AllowedTradeFits(sizeUsd: real, positions: seq<Position>, dailyRealizedPnl: real, config: AppConfig)
    requires CanPlaceTrade(sizeUsd, positions, dailyRealizedPnl, config).None?
    ensures Exposure(positions) < config.bankrollUsd * ExposureLimitFactor
    ensures Exposure(positions) + sizeUsd <= config.bankrollUsd
    ensures sizeUsd <= config.maxPositionUsd
  {
  }

  /** One open position of $980 cost against a $1000 bankroll: a $30 trade
      is refused by the exposure limit, before the bankroll check is
      reached. */
  lemma ExposureLimitComesFirst(p: Position)
    requires p.costBasis == 980.0
    ensures var config := AppConfig(0.08, 0.5, 50.0, 100.0, 1000.0, false);
            CanPlaceTrade(30.0, [p], 0.0, config) == Some(RiskLimitsHit)
  {
    assert CostBases([p]) == [980.0];
    assert [980.0][..0] == [];
  }
}

=== FILE: scanner.dfy ===
/** The Gamma market scanner (`src/market/scanner.ts`): paging through the
    temperature-tagged events, turning each event's markets into
    `WeatherMarket`s, and dropping events left with none. The HTTP fetch is
    an oracle from page offset to page; JSON decoding of the token and price
    arrays is taken as already done. */
module Scanner {
  import opened Wrappers
  import opened Seqs
  import opened BucketLabel
  import opened Parser
  import opened MarketTypes

  /** A Gamma market as the scanner reads it. An empty `question` is a
      missing one; `clobTokenIds` is `None` when its JSON does not parse;
      `yesPrice` is the number `parseFloat` reads from the first outcome
      price, `None` when that is NaN, missing or unparseable. */
  datatype GammaMarket = GammaMarket(
    conditionId: string,
    question: string,
    clobTokenIds: Option<seq<string>>,
    yesPrice: Option<real>,
    closed: bool,
    active: bool,
    acceptingOrders: bool)

  datatype GammaEvent = GammaEvent(
    id: string,
    slug: string,
    title: string,
    description: Option<string>,
    endDate: string,
    active: bool,
    markets: seq<GammaMarket>)

  /** What the parser needs besides the title: the alias table, the date
      reader and the bucket matchers. */
  datatype TitleParsing = TitleParsing(
    aliases: seq<Alias>,
    extractDate: string -> Option<string>,
    patterns: BucketPatterns)

  function Parse(title: string, p: TitleParsing): Option<ParsedMarket>
  {
    ParseMarketTitle(title, p.aliases, p.extractDate, p.patterns)
  }

  /** `m.question || event.title`. */
  function QuestionOf(m: GammaMarket, eventTitle: string): string
  {
    if m.question != "" then m.question else eventTitle
  }

  /** The market `parseEventMarkets` emits for `m`, or `None` when it skips it. */
  function MarketFor(m: GammaMarket, eventTitle: string, p: TitleParsing): (r: Option<WeatherMarket>)
    ensures r.Some? <==> && m.acceptingOrders
                         && Parse(QuestionOf(m, eventTitle), p).Some?
                         && m.clobTokenIds.Some? && |m.clobTokenIds.value| > 0
                         && m.yesPrice.Some? && 0.0 < m.yesPrice.value < 1.0
    ensures r.Some? ==> && r.value.conditionId == m.conditionId
                        && r.value.tokenId == m.clobTokenIds.value[0]
                        && r.value.outcome == "Yes"
                        && r.value.price == m.yesPrice.value
                        && 0.0 < r.value.price < 1.0
                        && r.value.question == QuestionOf(m, eventTitle)
    ensures r.Some? ==> var parsed := Parse(QuestionOf(m, eventTitle), p).value;
                        && r.value.city == parsed.city && r.value.date == parsed.date
                        && r.value.bucketLabel == parsed.bucketLabel
                        && r.value.bucketLower == Real(parsed.bucketLower)
                        && r.value.bucketUpper == Real(parsed.bucketUpper)
                        && ReadLabel(r.value.bucketLabel) == Some(Bounds(parsed.bucketLower, parsed.bucketUpper))
  {
    if !m.acceptingOrders then None
    else
      var question := QuestionOf(m, eventTitle);
      match Parse(question, p)
      case None => None
      case Some(parsed) =>
        match m.clobTokenIds
        case None => None
        case Some(tokenIds) =>
          if |tokenIds| == 0 then None
          else
            match m.yesPrice
            case None => None
            case Some(price) =>
              if price <= 0.0 || price >= 1.0 then None
              else Some(WeatherMarket(m.conditionId, tokenIds[0], "Yes", price, question,
                                      parsed.city, parsed.date, Real(parsed.bucketLower),
                                      Real(parsed.bucketUpper), parsed.bucketLabel))
  }

  /** An integer bound as the number the market record carries. */
  function Real(b: Option<int>): (r: Option<real>)
    ensures r.Some? <==> b.Some?
    ensures r.Some? ==> r.value == b.value as real
  {
    match b
    case None => None
    case Some(v) => Some(v as real)
  }

  /** What `parseEventMarkets` makes of each market of an event, in order. */
  function Candidates(event: GammaEvent, p: TitleParsing): (r: seq<Option<WeatherMarket>>)
    ensures |r| == |event.markets|
    ensures forall i :: 0 <= i < |r| ==> r[i] == MarketFor(event.markets[i], event.title, p)
  {
    seq(|event.markets|, i requires 0 <= i < |event.markets| => MarketFor(event.markets[i], event.title, p))
  }

  /** `parseEventMarkets`: the kept markets of an event, in market order. */
  function ParseEventMarkets(event: GammaEvent, p: TitleParsing): (r: seq<WeatherMarket>)
    ensures |r| <= |event.markets|
    ensures forall w :: w in r ==> Some(w) in Candidates(event, p)
    ensures forall i :: 0 <= i < |event.markets| && MarketFor(event.markets[i], event.title, p).Some? ==>
              MarketFor(event.markets[i], event.title, p).value in r
  {
    Somes(Candidates(event, p))
  }

  /** Every kept market has a price strictly between 0 and 1 and is the
      YES outcome. */
  lemma KeptMarketsArePriced(event: GammaEvent, p: TitleParsing)
    ensures forall w :: w in ParseEventMarkets(event, p) ==> 0.0 < w.price < 1.0 && w.outcome == "Yes"
  {
    var c := Candidates(event, p);
    forall w | w in ParseEventMarkets(event, p) ensures 0.0 < w.price < 1.0 && w.outcome == "Yes" {
      var i :| 0 <= i < |c| && c[i] == Some(w);
      assert MarketFor(event.markets[i], event.title, p) == Some(w);
    }
  }

  /** The `WeatherEvent` an event with surviving markets becomes. */
  function EventOf(event: GammaEvent, markets: seq<WeatherMarket>): WeatherEvent
  {
    WeatherEvent(event.id, event.slug, event.title, event.description.GetOr(""), event.endDate, event.active, markets)
  }

  /** The markets of a list of events, concatenated in order. */
  function Markets(events: seq<WeatherEvent>): seq<WeatherMarket>
  {
    if |events| == 0 then [] else Markets(events[..|events| - 1]) + events[|events| - 1].markets
  }

  /** A list of market lists, concatenated in order. */
  function Concat(lists: seq<seq<WeatherMarket>>): seq<WeatherMarket>
  {
    if |lists| == 0 then [] else Concat(lists[..|lists| - 1]) + lists[|lists| - 1]
  }

  /** The surviving markets of each raw event, in event order. */
  function MarketsOf(events: seq<GammaEvent>, p: TitleParsing): (r: seq<seq<WeatherMarket>>)
    ensures |r| == |events|
    ensures forall i :: 0 <= i < |events| ==> r[i] == ParseEventMarkets(events[i], p)
  {
    seq(|events|, i requires 0 <= i < |events| => ParseEventMarkets(events[i], p))
  }

  /** Every market parsed out of the raw events, in order. */
  function ParsedMarkets(events: seq<GammaEvent>, p: TitleParsing): seq<WeatherMarket>
  {
    Concat(MarketsOf(events, p))
  }

  /** The event loop of `scanWeatherMarkets` once each event's markets are
      parsed: event `i` becomes a `WeatherEvent` carrying `markets[i]` when
      that list is not empty, and is dropped otherwise. */
  function Survivors(events: seq<GammaEvent>, markets: seq<seq<WeatherMarket>>): (r: seq<WeatherEvent>)
    requires |markets| == |events|
    ensures |r| <= |events|
    ensures forall e :: e in r ==> |e.markets| > 0
    ensures Markets(r) == Concat(markets)
  {
    if |events| == 0 then []
    else
      var n := |events| - 1;
      var kept := Survivors(events[..n], markets[..n]);
      if |markets[n]| > 0 then
        var r := kept + [EventOf(events[n], markets[n])];
        assert r[..|r| - 1] == kept;
        r
      else
        assert Markets(kept) == Markets(kept) + markets[n];
        kept
  }

  /** The kept events: each event with a surviving market, in order. */
  function ScanEvents(events: seq<GammaEvent>, p: TitleParsing): (r: seq<WeatherEvent>)
    ensures |r| <= |events|
    ensures forall e :: e in r ==> |e.markets| > 0
    ensures Markets(r) == ParsedMarkets(events, p)
  {
    Survivors(events, MarketsOf(events, p))
  }

  /** Each event with a non-empty market list survives. */
  lemma {:induction false} SurvivorsKeepLive(events: seq<GammaEvent>, markets: seq<seq<WeatherMarket>>, i: nat)
    requires |markets| == |events| && i < |events| && |markets[i]| > 0
    ensures EventOf(events[i], markets[i]) in Survivors(events, markets)
    decreases |events|
  {
    var n := |events| - 1;
    var kept := Survivors(events[..n], markets[..n]);
    if i < n {
      SurvivorsKeepLive(events[..n], markets[..n], i);
    }
  }

  /** Every survivor is some event with its own market list. */
  lemma {:induction false} SurvivorsAreEvents(events: seq<GammaEvent>, markets: seq<seq<WeatherMarket>>)
    requires |markets| == |events|
    ensures forall e :: e in Survivors(events, markets) ==>
              exists i :: 0 <= i < |events| && e == EventOf(events[i], markets[i])
    decreases |events|
  {
    if |events| > 0 {
      var n := |events| - 1;
      var kept := Survivors(events[..n], markets[..n]);
      SurvivorsAreEvents(events[..n], markets[..n]);
      forall e | e in Survivors(events, markets)
        ensures exists i :: 0 <= i < |events| && e == EventOf(events[i], markets[i])
      {
        if e in kept {
          var i :| 0 <= i < n && e == EventOf(events[..n][i], markets[..n][i]);
          assert events[..n][i] == events[i] && markets[..n][i] == markets[i];
        } else {
          assert e == EventOf(events[n], markets[n]);
        }
      }
    }
  }

  /** Each event with a surviving market is kept. */
  lemma ScanKeepsLiveEvents(events: seq<GammaEvent>, p: TitleParsing, i: nat)
    requires i < |events|
    ensures |ParseEventMarkets(events[i], p)| > 0 ==>
              EventOf(events[i], ParseEventMarkets(events[i], p)) in ScanEvents(events, p)
  {
    if |ParseEventMarkets(events[i], p)| > 0 {
      SurvivorsKeepLive(events, MarketsOf(events, p), i);
    }
  }

  /** Every kept event is the record of some raw event, with that event's
      own surviving markets. */
  lemma ScanKeepsOnlyParsedEvents(events: seq<GammaEvent>, p: TitleParsing)
    ensures forall e :: e in ScanEvents(events, p) ==>
              exists i :: 0 <= i < |events| && e == EventOf(events[i], ParseEventMarkets(events[i], p))
  {
    var markets := MarketsOf(events, p);
    SurvivorsAreEvents(events, markets);
    forall e | e in ScanEvents(events, p)
      ensures exists i :: 0 <= i < |events| && e == EventOf(events[i], ParseEventMarkets(events[i], p))
    {
      var i :| 0 <= i < |events| && e == EventOf(events[i], markets[i]);
    }
  }

  /** What one page request gave: an error, or a list of events (a response
      that is not an array is an empty list). */
  datatype PageOutcome = PageFailed | Page(events: seq<GammaEvent>)

  /** Events per page, and the offset at which paging stops. */
  const PageLimit: nat := 100
  const MaxOffset: nat := 1000

  /** The events paging collects from `offset` on: it stops at an error, an
      empty page, or once the next offset reaches 1000. */
  function Paginate(page: nat -> PageOutcome, offset: nat): (r: seq<GammaEvent>)
    ensures r == [] <==> offset >= MaxOffset || page(offset).PageFailed? || |page(offset).events| == 0
    decreases MaxOffset - offset
  {
    if offset >= MaxOffset then []
    else match page(offset)
      case PageFailed => []
      case Page(batch) => if |batch| == 0 then [] else batch + Paginate(page, offset + PageLimit)
  }

  /** Every collected event came from a page below offset 1000. */
  lemma {:induction false} PaginateSources(page: nat -> PageOutcome, offset: nat)
    ensures forall e :: e in Paginate(page, offset) ==>
              exists o :: offset <= o < MaxOffset && page(o).Page? && e in page(o).events
    decreases MaxOffset - offset
  {
    if offset < MaxOffset && page(offset).Page? && |page(offset).events| > 0 {
      PaginateSources(page, offset + PageLimit);
    }
  }

  /** A failed first page gives no events at all. */
  lemma FirstPageFailure(page: nat -> PageOutcome)
    requires page(0).PageFailed?
    ensures Paginate(page, 0) == []
  {
  }

  /** One request of the paging: a non-empty page is followed by the pages
      after it, anything else ends the paging. */
  lemma PaginateStep(page: nat -> PageOutcome, offset: nat)
    requires offset < MaxOffset
    ensures page(offset).Page? && |page(offset).events| > 0 ==>
              Paginate(page, offset) == page(offset).events + Paginate(page, offset + PageLimit)
    ensures page(offset).PageFailed? || |page(offset).events| == 0 ==> Paginate(page, offset) == []
  {
  }

  /** `fetchTemperatureEvents`: requests pages at offsets 0, 100, ... and
      returns the events collected. At most ten pages are requested. */
  method FetchTemperatureEvents(page: nat -> PageOutcome) returns (events: seq<GammaEvent>, offsets: seq<nat>)
    ensures events == Paginate(page, 0)
    ensures 1 <= |offsets| <= MaxOffset / PageLimit
    ensures forall k :: 0 <= k < |offsets| ==> offsets[k] == PageLimit * k
  {
    events := [];
    offsets := [];
    var offset: nat := 0;
    while true
      invariant offset == PageLimit * |offsets| && offset < MaxOffset
      invariant forall k :: 0 <= k < |offsets| ==> offsets[k] == PageLimit * k
      invariant events + Paginate(page, offset) == Paginate(page, 0)
      decreases MaxOffset - offset
    {
      offsets := offsets + [offset];
      PaginateStep(page, offset);
      match page(offset) {
        case PageFailed =>
          assert events + [] == events;
          return;
        case Page(batch) =>
          if |batch| == 0 {
            assert events + [] == events;
            return;
          }
          var rest := Paginate(page, offset + PageLimit);
          assert events + (batch + rest) == (events + batch) + rest;
          events := events + batch;
          offset := offset + PageLimit;
          if offset >= MaxOffset {
            assert events + [] == events;
            return;
          }
      }
    }
  }

  /** `scanWeatherMarkets`: fetch every page, then keep the events with
      surviving markets. */
  method ScanWeatherMarkets(page: nat -> PageOutcome, p: TitleParsing) returns (r: seq<WeatherEvent>)
    ensures r == ScanEvents(Paginate(page, 0), p)
    ensures Markets(r) == ParsedMarkets(Paginate(page, 0), p)
    ensures forall e :: e in r ==> |e.markets| > 0
  {
    var events, _ := FetchTemperatureEvents(page);
    r := ScanEvents(events, p);
  }
}

=== FILE: seqs.dfy ===
/** Sequence helpers shared by the model: sums, filter-maps over `Option`,
    and extrema of non-empty lists. */
module Seqs {
  import opened Wrappers

  /** Left-to-right sum, as `values.reduce((s, v) => s + v, 0)`. */
  function Sum(s: seq<real>): real
  {
    if |s| == 0 then 0.0 else Sum(s[..|s| - 1]) + s[|s| - 1]
  }

  lemma {:induction false} SumAppend(a: seq<real>, b: seq<real>)
    ensures Sum(a + b) == Sum(a) + Sum(b)
    decreases |b|
  {
    if |b| == 0 {
      assert a + b == a;
    } else {
      assert (a + b)[..|a + b| - 1] == a + b[..|b| - 1];
      SumAppend(a, b[..|b| - 1]);
    }
  }

  /** Replacing one element changes the sum by the difference. */
  lemma SumUpdate(s: seq<real>, i: nat, v: real)
    requires i < |s|
    ensures Sum(s[i := v]) == Sum(s) - s[i] + v
  {
    assert s == s[..i] + [s[i]] + s[i + 1..];
    assert s[i := v] == s[..i] + [v] + s[i + 1..];
    SumAppend(s[..i] + [s[i]], s[i + 1..]);
    SumAppend(s[..i], [s[i]]);
    SumAppend(s[..i] + [v], s[i + 1..]);
    SumAppend(s[..i], [v]);
  }

  /** Where each element of `s` with index `i` removed came from. */
  lemma RemoveAt<T>(s: seq<T>, i: nat, r: seq<T>)
    requires i < |s| && r == s[..i] + s[i + 1..]
    ensures |r| == |s| - 1
    ensures forall k :: 0 <= k < |r| ==> r[k] == s[if k < i then k else k + 1]
  {
  }

  lemma SumSingle(x: real)
    ensures Sum([x]) == x
  {
    assert [x][..0] == [];
  }

  /** Removing one element lowers the sum by that element. */
  lemma SumRemove(s: seq<real>, i: nat)
    requires i < |s|
    ensures Sum(s[..i] + s[i + 1..]) == Sum(s) - s[i]
  {
    var a, x, b := s[..i], s[i], s[i + 1..];
    assert s == (a + [x]) + b;
    SumAppend(a + [x], b);
    SumAppend(a, [x]);
    SumSingle(x);
    SumAppend(a, b);
  }

  lemma {:induction false} SumNonNegative(s: seq<real>)
    requires forall i :: 0 <= i < |s| ==> s[i] >= 0.0
    ensures Sum(s) >= 0.0
    decreases |s|
  {
    if |s| > 0 {
      SumNonNegative(s[..|s| - 1]);
    }
  }

  /** The present values of `s`, in order: a filter-map over `Option`s, as the
      source's "push only on success" loops. */
  function Somes<T>(s: seq<Option<T>>): (r: seq<T>)
    ensures |r| <= |s|
    ensures forall x :: x in r ==> Some(x) in s
    ensures |r| == 0 <==> forall i :: 0 <= i < |s| ==> s[i].None?
    ensures forall i :: 0 <= i < |s| && s[i].Some? ==> s[i].value in r
  {
    if |s| == 0 then []
    else
      var rest := Somes(s[1..]);
      assert forall x :: x in rest ==> Some(x) in s by {
        forall x | x in rest ensures Some(x) in s {
          assert Some(x) in s[1..];
        }
      }
      assert forall i :: 1 <= i < |s| && s[i].Some? ==> s[i].value in rest by {
        forall i | 1 <= i < |s| && s[i].Some? ensures s[i].value in rest {
          assert s[1..][i - 1] == s[i];
        }
      }
      (if s[0].Some? then [s[0].value] else []) + rest
  }

  /** Filtering distributes over concatenation, so `Somes` keeps relative order. */
  lemma {:induction false} SomesAppend<T>(a: seq<Option<T>>, b: seq<Option<T>>)
    ensures Somes(a + b) == Somes(a) + Somes(b)
    decreases |a|
  {
    if |a| == 0 {
      assert a + b == b;
    } else {
      var head: seq<T> := if a[0].Some? then [a[0].value] else [];
      assert (a + b)[0] == a[0];
      assert (a + b)[1..] == a[1..] + b;
      SomesAppend(a[1..], b);
      calc {
        Somes(a + b);
        head + Somes((a + b)[1..]);
        head + (Somes(a[1..]) + Somes(b));
        (head + Somes(a[1..])) + Somes(b);
        Somes(a) + Somes(b);
      }
    }
  }

  /** `Math.max(...s)` for a non-empty list. */
  function MaxOf(s: seq<real>): (r: real)
    requires |s| > 0
    ensures r in s
    ensures forall i :: 0 <= i < |s| ==> s[i] <= r
  {
    if |s| == 1 then s[0]
    else
      var m := MaxOf(s[..|s| - 1]);
      assert forall i :: 0 <= i < |s| - 1 ==> s[..|s| - 1][i] == s[i];
      if s[|s| - 1] > m then s[|s| - 1] else m
  }

  /** `Math.min(...s)` for a non-empty list. */
  function MinOf(s: seq<real>): (r: real)
    requires |s| > 0
    ensures r in s
    ensures forall i :: 0 <= i < |s| ==> r <= s[i]
  {
    if |s| == 1 then s[0]
    else
      var m := MinOf(s[..|s| - 1]);
      assert forall i :: 0 <= i < |s| - 1 ==> s[..|s| - 1][i] == s[i];
      if s[|s| - 1] < m then s[|s| - 1] else m
  }

  /** Equal multisets have the same members and length. */
  lemma SameMembers<T>(a: seq<T>, b: seq<T>)
    requires multiset(a) == multiset(b)
    ensures |a| == |b|
    ensures forall x :: x in a <==> x in b
  {
    assert |a| == |multiset(a)|;
    assert |b| == |multiset(b)|;
    forall x ensures x in a <==> x in b {
      assert x in a <==> x in multiset(a);
      assert x in b <==> x in multiset(b);
    }
  }
}

=== FILE: signals.dfy ===
/** Trade-signal generation (`src/strategy/signals.ts`): keep the edges that
    clear the threshold and size to at least a dollar under fractional
    Kelly, cap each at the maximum position, and order the survivors by
    edge, best first. */
module Signals {
  import opened Wrappers
  import opened Seqs
  import opened Sorting
  import opened Numeric
  import opened Kelly
  import opened Config
  import opened WeatherTypes
  import opened MarketTypes
  import opened StrategyTypes
  import Edge

  /** Ensemble agreement: 1 at no spread, falling linearly to 0 at a 20°F
      standard deviation. */
  function Confidence(stdDev: real): (r: real)
    ensures 0.0 <= r <= 1.0
    ensures stdDev <= 0.0 ==> r == 1.0
    ensures stdDev >= 20.0 ==> r == 0.0
    ensures 0.0 <= stdDev <= 20.0 ==> r == 1.0 - stdDev / 20.0
  {
    Clamp(1.0 - stdDev / 20.0, 0.0, 1.0)
  }

  /** A wider ensemble spread never raises the confidence. */
  lemma ConfidenceAntitone(s: real, t: real)
    requires s <= t
    ensures Confidence(t) <= Confidence(s)
  {
    assert s / 20.0 <= t / 20.0;
  }

  /** The Kelly sizing `generateSignals` applies to one edge. */
  function SizingOf(e: EdgeResult, config: AppConfig): KellyResult
  {
    KellySize(e.forecastProb, e.marketPrice, config.bankrollUsd, config.kellyFraction)
  }

  /** The loop body of `generateSignals` for one edge. */
  function SignalFor(e: EdgeResult, confidence: real, config: AppConfig): (r: Option<TradeSignal>)
    ensures r.Some? <==> e.edge >= config.edgeThreshold && SizingOf(e, config).sizeUsd >= 1.0
    ensures r.Some? ==>
              && r.value.tokenId == e.tokenId
              && r.value.conditionId == e.conditionId
              && r.value.city == e.city
              && r.value.date == e.date
              && r.value.bucketLabel == e.bucketLabel
              && r.value.side == e.side
              && r.value.edge == e.edge
              && r.value.forecastProb == e.forecastProb
              && r.value.marketPrice == e.marketPrice
              && r.value.kellyFraction == SizingOf(e, config).fractionalKelly
              && r.value.confidence == confidence
    ensures r.Some? ==> r.value.sizeUsd <= config.maxPositionUsd
    ensures r.Some? ==> r.value.sizeUsd <= SizingOf(e, config).sizeUsd
    ensures r.Some? ==> (r.value.sizeUsd == config.maxPositionUsd || r.value.sizeUsd == SizingOf(e, config).sizeUsd)
  {
    if e.edge < config.edgeThreshold then None
    else
      var kelly := SizingOf(e, config);
      if kelly.sizeUsd < 1.0 then None
      else
        Some(TradeSignal(e.tokenId, e.conditionId, e.city, e.date, e.bucketLabel, e.side, e.edge,
                         e.forecastProb, e.marketPrice, Min(kelly.sizeUsd, config.maxPositionUsd),
                         kelly.fractionalKelly, confidence))
  }

  /** An edge whose forecast does not beat its own entry price is never
      sized, whatever its recorded edge. */
  lemma NoSignalWithoutKellyEdge(e: EdgeResult, confidence: real, config: AppConfig)
    requires e.forecastProb <= e.marketPrice
    ensures SignalFor(e, confidence, config).None?
  {
  }

  /** A NO edge is sized with the YES probability against the NO price, so
      it produces a signal only when the YES forecast exceeds the NO price:
      a NO edge on a market whose forecast and price sum to at most one never
      trades. */
  lemma NoEdgeNeedsOverround(buckets: seq<BucketProbability>, m: WeatherMarket, confidence: real, config: AppConfig)
    requires Edge.EdgeFor(buckets, m).Some? && Edge.EdgeFor(buckets, m).value.side == No
    requires Edge.EdgeFor(buckets, m).value.forecastProb + m.price <= 1.0
    ensures SignalFor(Edge.EdgeFor(buckets, m).value, confidence, config).None?
  {
    NoSignalWithoutKellyEdge(Edge.EdgeFor(buckets, m).value, confidence, config);
  }

  function EdgeOf(s: TradeSignal): real
  {
    s.edge
  }

  predicate SortedByEdgeDesc(s: seq<TradeSignal>)
  {
    SortedDesc(s, EdgeOf)
  }

  /** `signals.sort((a, b) => b.edge - a.edge)`: sorted by edge, best first, a
      permutation of its input, and stable, so signals of equal edge keep
      their input order. */
  function SortByEdgeDesc(s: seq<TradeSignal>): (r: seq<TradeSignal>)
    ensures SortedByEdgeDesc(r)
    ensures forall i, j :: 0 <= i < j < |r| ==> r[j].edge <= r[i].edge
    ensures multiset(r) == multiset(s)
    ensures forall v :: Tied(r, EdgeOf, v) == Tied(s, EdgeOf, v)
  {
    var r := SortDesc(s, EdgeOf);
    assert forall v :: Tied(r, EdgeOf, v) == Tied(s, EdgeOf, v) by {
      forall v ensures Tied(r, EdgeOf, v) == Tied(s, EdgeOf, v) {
        SortIsStable(s, EdgeOf, v);
      }
    }
    r
  }

  /** Signals already in order are left as they are. */
  lemma SortKeepsOrdered(s: seq<TradeSignal>)
    requires forall i, j :: 0 <= i < j < |s| ==> s[j].edge <= s[i].edge
    ensures SortByEdgeDesc(s) == s
  {
    SortKeepsSorted(s, EdgeOf);
  }

  /** The candidate signal of each edge, in edge order. */
  function Candidates(edges: seq<EdgeResult>, forecast: AggregatedForecast, config: AppConfig): (r: seq<Option<TradeSignal>>)
    ensures |r| == |edges|
    ensures forall i :: 0 <= i < |edges| ==> r[i] == SignalFor(edges[i], Confidence(forecast.stdDev), config)
  {
    seq(|edges|, i requires 0 <= i < |edges| => SignalFor(edges[i], Confidence(forecast.stdDev), config))
  }

  /** `generateSignals`. */
  function GenerateSignals(edges: seq<EdgeResult>, forecast: AggregatedForecast, config: AppConfig): (r: seq<TradeSignal>)
    ensures SortedByEdgeDesc(r)
    ensures multiset(r) == multiset(Somes(Candidates(edges, forecast, config)))
    ensures forall v :: Tied(r, EdgeOf, v) == Tied(Somes(Candidates(edges, forecast, config)), EdgeOf, v)
    ensures |r| <= |edges|
    ensures forall s :: s in r ==> exists i :: 0 <= i < |edges| && SignalFor(edges[i], Confidence(forecast.stdDev), config) == Some(s)
    ensures forall s :: s in r ==> && s.edge >= config.edgeThreshold
                                   && s.sizeUsd <= config.maxPositionUsd
                                   && s.confidence == Confidence(forecast.stdDev)
                                   && 0.0 <= s.kellyFraction <= 1.0
  {
    var candidates := Candidates(edges, forecast, config);
    var r := SortByEdgeDesc(Somes(candidates));
    SameMembers(r, Somes(candidates));
    r
  }

  /** A forecast at 70% against a 50-cent price with $1000 of bankroll sizes
      a $200 half-Kelly stake, which the $50 position cap cuts to $50. */
  lemma ExampleCappedSignal()
    ensures var cfg := AppConfig(0.05, 0.5, 50.0, 100.0, 1000.0, true);
            var e := EdgeResult("tok", "cond", "nyc", "2026-02-14", "40-41°F", 0.7, 0.5, 0.2, Yes);
            SignalFor(e, 0.9, cfg) == Some(TradeSignal("tok", "cond", "nyc", "2026-02-14", "40-41°F", Yes, 0.2,
                                                      0.7, 0.5, 50.0, 0.2, 0.9))
  {
    ExampleStrongEdge();
  }
}

=== FILE: sorting.dfy ===
/** The stable sort the source gets from `Array.prototype.sort` with a
    comparator `(a, b) => key(b) - key(a)`: descending by a real key, with
    elements of equal key left in input order. Modelled as insertion sort. */
module Sorting {

  predicate SortedDesc<T>(s: seq<T>, key: T -> real)
  {
    forall i, j :: 0 <= i < j < |s| ==> key(s[j]) <= key(s[i])
  }

  /** Where a stable insertion puts `x`: after the leading elements whose key
      is at least its own. */
  function Slot<T>(s: seq<T>, x: T, key: T -> real): (k: nat)
    ensures k <= |s|
    ensures forall i :: 0 <= i < k ==> key(x) <= key(s[i])
    ensures k < |s| ==> key(s[k]) < key(x)
  {
    if |s| == 0 || key(s[0]) < key(x) then 0
    else 1 + Slot(s[1..], x, key)
  }

  lemma SpliceSorted<T>(s: seq<T>, x: T, key: T -> real, k: nat)
    requires SortedDesc(s, key)
    requires k <= |s|
    requires forall i :: 0 <= i < k ==> key(x) <= key(s[i])
    requires k < |s| ==> key(s[k]) < key(x)
    ensures SortedDesc(s[..k] + [x] + s[k..], key)
  {
    var r := s[..k] + [x] + s[k..];
    forall i, j | 0 <= i < j < |r| ensures key(r[j]) <= key(r[i]) {
      if j < k {
        assert r[i] == s[i] && r[j] == s[j];
      } else if j == k {
        assert r[i] == s[i] && r[j] == x;
      } else if i < k {
        assert r[i] == s[i] && r[j] == s[j - 1];
      } else if i == k {
        assert r[i] == x && r[j] == s[j - 1];
        assert key(s[j - 1]) <= key(s[k]);
      } else {
        assert r[i] == s[i - 1] && r[j] == s[j - 1];
      }
    }
  }

  /** Putting `x` at position `k` adds exactly one `x`. */
  lemma SpliceMultiset<T>(s: seq<T>, x: T, k: nat)
    requires k <= |s|
    ensures multiset(s[..k] + [x] + s[k..]) == multiset(s) + multiset{x}
  {
    assert s == s[..k] + s[k..];
  }

  /** Stable insertion of `x` into a sorted sequence. */
  function Insert<T>(s: seq<T>, x: T, key: T -> real): (r: seq<T>)
    requires SortedDesc(s, key)
    ensures SortedDesc(r, key)
    ensures multiset(r) == multiset(s) + multiset{x}
  {
    var k := Slot(s, x, key);
    SpliceSorted(s, x, key, k);
    SpliceMultiset(s, x, k);
    s[..k] + [x] + s[k..]
  }

  /** The sort: sorted, and a permutation of its input. */
  function SortDesc<T>(s: seq<T>, key: T -> real): (r: seq<T>)
    ensures SortedDesc(r, key)
    ensures multiset(r) == multiset(s)
  {
    if |s| == 0 then []
    else
      assert s == s[..|s| - 1] + [s[|s| - 1]];
      Insert(SortDesc(s[..|s| - 1], key), s[|s| - 1], key)
  }

  /** The elements of `s` whose key is `v`, in order. */
  function Tied<T>(s: seq<T>, key: T -> real, v: real): seq<T>
  {
    if |s| == 0 then []
    else Tied(s[..|s| - 1], key, v) + (if key(s[|s| - 1]) == v then [s[|s| - 1]] else [])
  }

  lemma {:induction false} TiedAppend<T>(a: seq<T>, b: seq<T>, key: T -> real, v: real)
    ensures Tied(a + b, key, v) == Tied(a, key, v) + Tied(b, key, v)
    decreases |b|
  {
    if |b| == 0 {
      assert a + b == a;
    } else {
      var n := |b| - 1;
      assert (a + b)[..|a + b| - 1] == a + b[..n];
      TiedAppend(a, b[..n], key, v);
    }
  }

  /** No element below `v` has key `v`. */
  lemma {:induction false} TiedBelow<T>(s: seq<T>, key: T -> real, v: real)
    requires forall i :: 0 <= i < |s| ==> key(s[i]) < v
    ensures Tied(s, key, v) == []
    decreases |s|
  {
    if |s| > 0 {
      var n := |s| - 1;
      assert forall i :: 0 <= i < n ==> s[..n][i] == s[i];
      TiedBelow(s[..n], key, v);
    }
  }

  lemma TiedSingle<T>(x: T, key: T -> real, v: real)
    ensures Tied([x], key, v) == if key(x) == v then [x] else []
  {
    assert [x][..0] == [];
  }

  /** Behind the insertion point every key is below the inserted one. */
  lemma SlotAfter<T>(s: seq<T>, x: T, key: T -> real)
    requires SortedDesc(s, key)
    ensures forall i :: Slot(s, x, key) <= i < |s| ==> key(s[i]) < key(x)
  {
    var k := Slot(s, x, key);
    forall i | k <= i < |s| ensures key(s[i]) < key(x) {
      assert key(s[i]) <= key(s[k]);
    }
  }

  /** Putting `x` in front of elements of smaller key appends it to the
      elements that tie with it and leaves every other tie class as it was. */
  lemma SpliceTied<T>(s: seq<T>, x: T, key: T -> real, v: real, k: nat)
    requires k <= |s|
    requires forall i :: k <= i < |s| ==> key(s[i]) < key(x)
    ensures Tied(s[..k] + [x] + s[k..], key, v) == Tied(s, key, v) + (if key(x) == v then [x] else [])
  {
    var front, back := s[..k], s[k..];
    assert s == front + back;
    TiedAppend(front + [x], back, key, v);
    TiedAppend(front, [x], key, v);
    TiedAppend(front, back, key, v);
    TiedSingle(x, key, v);
    if key(x) == v {
      forall i | 0 <= i < |back| ensures key(back[i]) < v {
        assert back[i] == s[k + i];
      }
      TiedBelow(back, key, v);
    }
  }

  /** The same for the stable insertion. */
  lemma InsertTied<T>(s: seq<T>, x: T, key: T -> real, v: real)
    requires SortedDesc(s, key)
    ensures Tied(Insert(s, x, key), key, v) == Tied(s, key, v) + (if key(x) == v then [x] else [])
  {
    var k := Slot(s, x, key);
    assert Insert(s, x, key) == s[..k] + [x] + s[k..];
    SlotAfter(s, x, key);
    SpliceTied(s, x, key, v, k);
  }

  /** The sort is stable: each tie class keeps its input order. */
  lemma {:induction false} SortIsStable<T>(s: seq<T>, key: T -> real, v: real)
    ensures Tied(SortDesc(s, key), key, v) == Tied(s, key, v)
    decreases |s|
  {
    if |s| > 0 {
      var n := |s| - 1;
      SortIsStable(s[..n], key, v);
      InsertTied(SortDesc(s[..n], key), s[n], key, v);
    }
  }

  /** An element whose key is no greater than any already placed goes last. */
  lemma InsertLast<T>(s: seq<T>, x: T, key: T -> real)
    requires SortedDesc(s, key)
    requires forall i :: 0 <= i < |s| ==> key(x) <= key(s[i])
    ensures Insert(s, x, key) == s + [x]
  {
    var k := Slot(s, x, key);
    if k < |s| {
      assert false;
    }
    assert s[..k] == s && s[k..] == [];
  }

  /** Dropping the last element of a sorted sequence leaves it sorted, with
      the dropped key no greater than any kept one. */
  lemma SortedInit<T>(s: seq<T>, init: seq<T>, key: T -> real)
    requires |s| > 0 && init == s[..|s| - 1] && SortedDesc(s, key)
    ensures SortedDesc(init, key)
    ensures forall i :: 0 <= i < |init| ==> key(s[|s| - 1]) <= key(init[i])
  {
    forall i, j | 0 <= i < j < |init| ensures key(init[j]) <= key(init[i]) {
      assert init[i] == s[i] && init[j] == s[j];
    }
    forall i | 0 <= i < |init| ensures key(s[|s| - 1]) <= key(init[i]) {
      assert init[i] == s[i];
    }
  }

  /** A sorted sequence is left as it is. */
  lemma {:induction false} SortKeepsSorted<T>(s: seq<T>, key: T -> real)
    requires SortedDesc(s, key)
    ensures SortDesc(s, key) == s
    decreases |s|
  {
    if |s| > 0 {
      var n := |s| - 1;
      SortedInit(s, s[..n], key);
      SortKeepsSorted(s[..n], key);
      InsertLast(s[..n], s[n], key);
      assert s == s[..n] + [s[n]];
    }
  }
}

=== FILE: stats.dfy ===
/** Basic statistics over temperature samples (`src/utils/math.ts`): mean,
    sample standard deviation, and the empirical bucket probability. */
module Stats {
  import opened Wrappers
  import opened Seqs

  /** Arithmetic mean; 0 for an empty list. */
  function Mean(values: seq<real>): (r: real)
    ensures |values| == 0 ==> r == 0.0
    ensures |values| > 0 ==> r * |values| as real == Sum(values)
  {
    if |values| == 0 then 0.0 else Sum(values) / |values| as real
  }

  function SquaredDeviations(values: seq<real>, m: real): (r: seq<real>)
    ensures |r| == |values|
    ensures forall i :: 0 <= i < |r| ==> r[i] >= 0.0
  {
    seq(|values|, i requires 0 <= i < |values| => Square(values[i] - m))
  }

  function Square(x: real): (r: real)
    ensures r >= 0.0
  {
    if x >= 0.0 then x * x else (-x) * (-x)
  }

  /** Variance with the n - 1 denominator. */
  function SampleVariance(values: seq<real>): (r: real)
    requires |values| >= 2
    ensures r >= 0.0
  {
    var squares := SquaredDeviations(values, Mean(values));
    SumNonNegative(squares);
    Sum(squares) / (|values| - 1) as real
  }

  /** Sample standard deviation, guarded to 0 below two samples; the square
      root is the caller-supplied `sqrt`. */
  function StdDev(values: seq<real>, sqrt: real -> real): (r: real)
    ensures |values| < 2 ==> r == 0.0
    ensures |values| >= 2 ==> r == sqrt(SampleVariance(values))
  {
    if |values| < 2 then 0.0 else sqrt(SampleVariance(values))
  }

  /** The filter of `empiricalProbability`: both bounds inclusive, a missing
      bound open on that side. */
  predicate InBucket(v: real, lower: Option<real>, upper: Option<real>)
  {
    !(lower.Some? && v < lower.value) && !(upper.Some? && v > upper.value)
  }

  /** How many samples fall in the bucket. */
  function CountIn(samples: seq<real>, lower: Option<real>, upper: Option<real>): (r: nat)
    ensures r <= |samples|
  {
    if |samples| == 0 then 0
    else
      CountIn(samples[..|samples| - 1], lower, upper)
      + (if InBucket(samples[|samples| - 1], lower, upper) then 1 else 0)
  }

  /** Share of samples inside `[lower, upper]`; 0 when there are no samples. */
  function EmpiricalProbability(samples: seq<real>, lower: Option<real>, upper: Option<real>): (r: real)
    ensures |samples| == 0 ==> r == 0.0
    ensures 0.0 <= r <= 1.0
    ensures |samples| > 0 ==> r * |samples| as real == CountIn(samples, lower, upper) as real
  {
    if |samples| == 0 then 0.0
    else CountIn(samples, lower, upper) as real / |samples| as real
  }

  lemma {:induction false} CountUnbounded(samples: seq<real>)
    ensures CountIn(samples, None, None) == |samples|
    decreases |samples|
  {
    if |samples| > 0 {
      CountUnbounded(samples[..|samples| - 1]);
    }
  }

  /** A bucket open on both sides holds every sample. */
  lemma UnboundedBucketIsCertain(samples: seq<real>)
    requires |samples| > 0
    ensures EmpiricalProbability(samples, None, None) == 1.0
  {
    CountUnbounded(samples);
  }

  /** Bucket `(lower', upper')` contains bucket `(lower, upper)`. */
  predicate Covers(lower': Option<real>, upper': Option<real>, lower: Option<real>, upper: Option<real>)
  {
    && (lower'.None? || (lower.Some? && lower'.value <= lower.value))
    && (upper'.None? || (upper.Some? && upper.value <= upper'.value))
  }

  lemma {:induction false} CountMonotone(samples: seq<real>, lower: Option<real>, upper: Option<real>,
                                         lower': Option<real>, upper': Option<real>)
    requires Covers(lower', upper', lower, upper)
    ensures CountIn(samples, lower, upper) <= CountIn(samples, lower', upper')
    decreases |samples|
  {
    if |samples| > 0 {
      CountMonotone(samples[..|samples| - 1], lower, upper, lower', upper');
    }
  }

  lemma DivideMonotone(a: real, b: real, n: real)
    requires a <= b && n > 0.0
    ensures a / n <= b / n
  {
    assert b / n - a / n == (b - a) / n;
  }

  /** Widening a bucket never lowers its probability. */
  lemma WideningNeverLowers(samples: seq<real>, lower: Option<real>, upper: Option<real>,
                            lower': Option<real>, upper': Option<real>)
    requires Covers(lower', upper', lower, upper)
    ensures EmpiricalProbability(samples, lower, upper) <= EmpiricalProbability(samples, lower', upper')
  {
    if |samples| > 0 {
      CountMonotone(samples, lower, upper, lower', upper');
      DivideMonotone(CountIn(samples, lower, upper) as real,
                     CountIn(samples, lower', upper') as real, |samples| as real);
    }
  }
}

=== FILE: strategy_types.dfy ===
/** Strategy records (`src/strategy/types.ts`). */
module StrategyTypes {

  /** The outcome token a trade is on: YES, or NO bought at `1 - price`. */
  datatype Side = Yes | No

  datatype EdgeResult = EdgeResult(
    tokenId: string,
    conditionId: string,
    city: string,
    date: string,
    bucketLabel: string,
    forecastProb: real,
    marketPrice: real,
    edge: real,
    side: Side)

  datatype TradeSignal = TradeSignal(
    tokenId: string,
    conditionId: string,
    city: string,
    date: string,
    bucketLabel: string,
    side: Side,
    edge: real,
    forecastProb: real,
    marketPrice: real,
    sizeUsd: real,
    kellyFraction: real,
    confidence: real)
}

=== FILE: text.dfy ===
/** String helpers with the semantics of the JavaScript string methods the
    source uses: `startsWith`, `includes`, `split(c)[0]`, `toLowerCase`. */
module Text {

  /** `s.startsWith(p)`. */
  predicate StartsWith(s: string, p: string)
  {
    |p| <= |s| && s[..|p|] == p
  }

  /** `s.endsWith(p)`. */
  predicate EndsWith(s: string, p: string)
  {
    |p| <= |s| && s[|s| - |p|..] == p
  }

  /** `s.includes(sub)`: `sub` occurs at some offset of `s`. */
  predicate Contains(s: string, sub: string)
    decreases |s|
  {
    StartsWith(s, sub) || (|s| > 0 && Contains(s[1..], sub))
  }

  /** An occurrence at offset `i` is an occurrence in `s`. */
  lemma {:induction false} ContainsAt(s: string, i: nat, sub: string)
    requires i <= |s| && StartsWith(s[i..], sub)
    ensures Contains(s, sub)
    decreases i
  {
    if i > 0 {
      assert s[1..][i - 1..] == s[i..];
      ContainsAt(s[1..], i - 1, sub);
    }
  }

  /** `s.split(c)[0]`: the text before the first `c`, or all of `s`. */
  function PrefixBefore(s: string, c: char): (r: string)
    ensures r <= s
    ensures c !in r
    ensures |r| < |s| ==> s[|r|] == c
  {
    if |s| == 0 then ""
    else if s[0] == c then ""
    else [s[0]] + PrefixBefore(s[1..], c)
  }

  /** The capitals whose lower-case form is 32 code points on: A to Z, and
      the Latin-1 capitals À to Þ except the multiplication sign. */
  predicate IsUpper(c: char)
  {
    ('A' <= c <= 'Z') || ('À' <= c <= 'Þ' && c != '×')
  }

  /** Lower-casing of one character: each capital above becomes its small
      letter, every other character is kept. */
  function LowerChar(c: char): (r: char)
    ensures !IsUpper(r)
    ensures IsUpper(c) ==> r as int == c as int + 32
    ensures !IsUpper(c) ==> r == c
  {
    if IsUpper(c) then (c as int + 32) as char else c
  }

  /** `s.toLowerCase()`, restricted to the capitals of `IsUpper`. */
  function ToLower(s: string): (r: string)
    ensures |r| == |s|
    ensures forall i :: 0 <= i < |s| ==> r[i] == LowerChar(s[i])
  {
    seq(|s|, i requires 0 <= i < |s| => LowerChar(s[i]))
  }

  /** Lower-casing twice is lower-casing once. */
  lemma ToLowerIdempotent(s: string)
    ensures ToLower(ToLower(s)) == ToLower(s)
  {
  }

  /** The accented capital of "SÃO PAULO" is lowered too. */
  lemma LowerSaoPaulo()
    ensures ToLower("SÃO PAULO") == "são paulo"
  {
  }

  /** A character of the regular-expression class `\w`. */
  predicate IsWordChar(c: char)
  {
    ('a' <= c <= 'z') || ('A' <= c <= 'Z') || ('0' <= c <= '9') || c == '_'
  }

  /** A character of the JavaScript regular-expression class `\s`. */
  predicate IsSpace(c: char)
  {
    var n := c as int;
    n == 0x20 || (0x09 <= n <= 0x0D) || n == 0xA0 || n == 0x1680
    || (0x2000 <= n <= 0x200A) || n == 0x2028 || n == 0x2029
    || n == 0x202F || n == 0x205F || n == 0x3000 || n == 0xFEFF
  }

  predicate AllSpace(s: string)
  {
    forall i :: 0 <= i < |s| ==> IsSpace(s[i])
  }
}

=== FILE: trading_types.dfy ===
/** Trading records (`src/trading/types.ts`) and the order-client responses
    the trading code inspects. Timestamps are left out. */
module TradingTypes {
  import opened Wrappers
  import opened Seqs
  import opened StrategyTypes

  /** The CLOB order side. */
  datatype OrderSide = Buy | Sell

  datatype Position = Position(
    tokenId: string,
    conditionId: string,
    city: string,
    date: string,
    bucketLabel: string,
    side: Side,
    avgPrice: real,
    size: real,
    costBasis: real,
    currentPrice: real,
    unrealizedPnl: real,
    openedAt: string)

  datatype ExecStatus = Placed | Filled | Partial | Failed | DryRun

  /** Why an order attempt failed. */
  datatype OrderError =
    | ClientError(message: string)
    | EmptyResponse
    | Rejected(errorMsg: string)
    | MissingOrderId

  /** Why the risk predicate refused a trade. */
  datatype BlockReason =
    | RiskLimitsHit
    | ExceedsMaxPosition(sizeUsd: real, maxPositionUsd: real)
    | WouldExceedBankroll

  datatype ExecError =
    | InsufficientRemainingBalance
    | RiskBlocked(reason: BlockReason)
    | OrderFailed(cause: OrderError)

  datatype ExecutionResult = ExecutionResult(
    orderId: string,
    tokenId: string,
    side: OrderSide,
    price: real,
    size: real,
    status: ExecStatus,
    error: Option<ExecError>)

  datatype RiskState = RiskState(
    totalExposure: real,
    dailyPnl: real,
    openPositionCount: nat,
    maxPositionReached: bool,
    dailyLossLimitHit: bool,
    canTrade: bool)

  /** The fields of a CLOB order response the code reads; a missing
      `orderID` is the empty string. */
  datatype OrderResponse = OrderResponse(success: Option<bool>, orderId: string, errorMsg: string, status: string)

  /** What one order call did: threw, or returned a response that may be
      `undefined`. */
  datatype OrderOutcome = Threw(message: string) | Responded(response: Option<OrderResponse>)

  /** A limit order sent by the executor, or a market order sent to exit. */
  datatype OrderRequest = OrderRequest(tokenId: string, side: OrderSide, price: real, size: real)

  /** The order side of a signal or position: YES buys, NO sells. */
  function OrderSideOf(side: Side): (r: OrderSide)
    ensures r == Buy <==> side == Yes
  {
    if side == Yes then Buy else Sell
  }

  function CostBases(positions: seq<Position>): (r: seq<real>)
    ensures |r| == |positions|
    ensures forall i :: 0 <= i < |positions| ==> r[i] == positions[i].costBasis
  {
    seq(|positions|, i requires 0 <= i < |positions| => positions[i].costBasis)
  }

  /** The dollars at risk: the sum of the positions' cost bases. */
  function Exposure(positions: seq<Position>): real
  {
    Sum(CostBases(positions))
  }
}

=== FILE: weather_service.dfy ===
/** The three-hourly forecast of the legacy weather service
    (`src/weather/weatherService.ts`), folded into one entry per day. The
    HTTP call is left out: the `list` of the response is the input. */
module WeatherService {
  import opened Wrappers
  import opened Seqs
  import opened Text
  import opened Grouping

  /** One three-hourly item; `description` is that of its first `weather`
      entry. */
  datatype ForecastItem = ForecastItem(dtTxt: string, tempMin: real, tempMax: real, pop: real, description: string)

  /** One day of the forecast; the date is kept as the `YYYY-MM-DD` text it
      is parsed from. */
  datatype DailyForecast = DailyForecast(
    date: string,
    minTemp: real,
    maxTemp: real,
    precipitationChance: real,
    description: string)

  datatype WeatherForecast = WeatherForecast(location: string, forecasts: seq<DailyForecast>)

  /** The day of an item: its `dt_txt` before the first space. */
  function DayOf(item: ForecastItem): string
  {
    PrefixBefore(item.dtTxt, ' ')
  }

  function Keyed(list: seq<ForecastItem>): (r: seq<(string, ForecastItem)>)
    ensures |r| == |list|
    ensures forall i :: 0 <= i < |list| ==> r[i] == (DayOf(list[i]), list[i])
  {
    seq(|list|, i requires 0 <= i < |list| => (DayOf(list[i]), list[i]))
  }

  /** The items of `day`, in input order. */
  function ItemsOn(list: seq<ForecastItem>, day: string): seq<ForecastItem>
  {
    ValuesOf(Keyed(list), day)
  }

  function MinTemps(items: seq<ForecastItem>): (r: seq<real>)
    ensures |r| == |items| && forall i :: 0 <= i < |items| ==> r[i] == items[i].tempMin
  {
    seq(|items|, i requires 0 <= i < |items| => items[i].tempMin)
  }

  function MaxTemps(items: seq<ForecastItem>): (r: seq<real>)
    ensures |r| == |items| && forall i :: 0 <= i < |items| ==> r[i] == items[i].tempMax
  {
    seq(|items|, i requires 0 <= i < |items| => items[i].tempMax)
  }

  function Pops(items: seq<ForecastItem>): (r: seq<real>)
    ensures |r| == |items| && forall i :: 0 <= i < |items| ==> r[i] == items[i].pop
  {
    seq(|items|, i requires 0 <= i < |items| => items[i].pop)
  }

  /** The entry of one day: the lowest minimum, the highest maximum, the
      highest precipitation chance, and the middle item's description. */
  function Summary(day: string, items: seq<ForecastItem>): (r: DailyForecast)
    requires |items| > 0
    ensures r.date == day
    ensures r.description == items[|items| / 2].description
  {
    DailyForecast(day, MinOf(MinTemps(items)), MaxOf(MaxTemps(items)), MaxOf(Pops(items)),
                  items[|items| / 2].description)
  }

  /** A day's entry bounds every item of the day and is attained by one. */
  lemma SummaryBounds(day: string, items: seq<ForecastItem>)
    requires |items| > 0
    ensures var r := Summary(day, items);
            && (forall i :: 0 <= i < |items| ==> r.minTemp <= items[i].tempMin)
            && (forall i :: 0 <= i < |items| ==> items[i].tempMax <= r.maxTemp)
            && (forall i :: 0 <= i < |items| ==> items[i].pop <= r.precipitationChance)
    ensures var r := Summary(day, items);
            && (exists i :: 0 <= i < |items| && items[i].tempMin == r.minTemp)
            && (exists i :: 0 <= i < |items| && items[i].tempMax == r.maxTemp)
            && (exists i :: 0 <= i < |items| && items[i].pop == r.precipitationChance)
  {
    var r := Summary(day, items);
    assert r.minTemp in MinTemps(items);
    assert r.maxTemp in MaxTemps(items);
    assert r.precipitationChance in Pops(items);
  }

  /** `aggregateDailyForecasts`: one entry per day, days in order of first
      appearance, each summarising exactly that day's items. */
  function AggregateDailyForecasts(list: seq<ForecastItem>): (r: seq<DailyForecast>)
    ensures |r| == |Distinct(Keys(Keyed(list)))|
    ensures forall j :: 0 <= j < |r| ==> r[j].date == Distinct(Keys(Keyed(list)))[j]
    ensures forall j :: 0 <= j < |r| ==> |ItemsOn(list, r[j].date)| > 0
    ensures forall j :: 0 <= j < |r| ==> r[j] == Summary(r[j].date, ItemsOn(list, r[j].date))
  {
    var groups := GroupBy(Keyed(list));
    var days := Distinct(Keys(Keyed(list)));
    var r := seq(|groups|, j requires 0 <= j < |groups| => Summary(groups[j].0, groups[j].1));
    assert forall j :: 0 <= j < |r| ==> r[j].date == days[j] && ItemsOn(list, r[j].date) == groups[j].1 by {
      forall j | 0 <= j < |r| ensures r[j].date == days[j] && ItemsOn(list, r[j].date) == groups[j].1 {
        assert Keys(groups)[j] == groups[j].0;
      }
    }
    r
  }

  /** No day has two entries. */
  lemma DaysAreDistinct(list: seq<ForecastItem>)
    ensures var r := AggregateDailyForecasts(list);
            forall a, b :: 0 <= a < b < |r| ==> r[a].date != r[b].date
  {
    var r := AggregateDailyForecasts(list);
    var days := Distinct(Keys(Keyed(list)));
    forall a, b | 0 <= a < b < |r| ensures r[a].date != r[b].date {
      assert r[a].date == days[a] && r[b].date == days[b];
    }
  }

  /** Every item's day has an entry. */
  lemma EveryDayHasEntry(list: seq<ForecastItem>, i: nat)
    requires i < |list|
    ensures exists j :: 0 <= j < |AggregateDailyForecasts(list)| && AggregateDailyForecasts(list)[j].date == DayOf(list[i])
  {
    var days := Distinct(Keys(Keyed(list)));
    assert Keys(Keyed(list))[i] == DayOf(list[i]);
    assert DayOf(list[i]) in days;
    var j :| 0 <= j < |days| && days[j] == DayOf(list[i]);
    assert AggregateDailyForecasts(list)[j].date == DayOf(list[i]);
  }

  /** Every entry is the day of some item. */
  lemma EveryEntryIsADay(list: seq<ForecastItem>, j: nat)
    requires j < |AggregateDailyForecasts(list)|
    ensures exists i :: 0 <= i < |list| && DayOf(list[i]) == AggregateDailyForecasts(list)[j].date
  {
    var days := Distinct(Keys(Keyed(list)));
    assert days[j] in Keys(Keyed(list));
    var i :| 0 <= i < |list| && Keys(Keyed(list))[i] == days[j];
  }

  /** An item belongs to the items of a day exactly when it falls on it. */
  lemma ItemsOnDay(list: seq<ForecastItem>, day: string, item: ForecastItem)
    ensures item in ItemsOn(list, day) <==> item in list && DayOf(item) == day
  {
    InValuesOf(Keyed(list), day, item);
    if item in list && DayOf(item) == day {
      var i :| 0 <= i < |list| && list[i] == item;
      assert Keyed(list)[i] == (day, item);
    }
  }

  /** `array.slice(0, end)` for an integer `end`: a negative end counts from
      the back. */
  function SliceTo<T>(s: seq<T>, end: int): (r: seq<T>)
    ensures r <= s
    ensures 0 <= end ==> |r| == if end < |s| then end else |s|
    ensures end < 0 ==> |r| == if |s| + end > 0 then |s| + end else 0
  {
    if end < 0 then (if |s| + end > 0 then s[..|s| + end] else [])
    else if end < |s| then s[..end]
    else s
  }

  /** The default forecast length of `getForecast`. */
  const DefaultDays: int := 5

  /** `getForecast` on the response list: the leading `days` daily entries. */
  function GetForecast(location: string, list: seq<ForecastItem>, days: int): (r: WeatherForecast)
    ensures r.location == location
    ensures r.forecasts <= AggregateDailyForecasts(list)
    ensures 0 <= days ==> |r.forecasts| <= days
    ensures 0 <= days <= |AggregateDailyForecasts(list)| ==> |r.forecasts| == days
  {
    WeatherForecast(location, SliceTo(AggregateDailyForecasts(list), days))
  }
}

=== FILE: weather_strategy.dfy ===
/** The legacy keyword strategy (`src/strategy/weatherStrategy.ts`): a
    market whose question names a location gets a temperature signal when
    it asks "above N", else a precipitation signal when it mentions rain,
    precipitation or snow. Signals below the minimum confidence are
    dropped. Market listing and forecast fetching are left out: the
    markets are an input and the forecast list of each location an oracle. */
module LegacyStrategy {
  import opened Wrappers
  import opened Seqs
  import opened Text
  import opened Stats
  import opened WeatherService
  import TradingTypes
  import Numeric

  /** A JavaScript number as far as the confidence needs it: `0 / 0` and
      `Math.max()` of nothing leave the finite reals. */
  datatype Num = Finite(v: real) | NaN | Infinity

  /** `x >= m` for a finite `m`: false on `NaN`, true on `Infinity`. */
  predicate AtLeast(x: Num, m: real)
  {
    match x
    case Finite(v) => v >= m
    case NaN => false
    case Infinity => true
  }

  /** The `Market` of the Polymarket client. */
  datatype Market = Market(
    id: string,
    question: string,
    conditionId: string,
    outcomes: seq<string>,
    outcomePrices: seq<real>,
    volume: real,
    active: bool,
    closed: bool)

  /** A legacy trade signal; the free-text reasoning is not modelled. An
      outcome or price past the end of its array reads `undefined`, here
      `None`. */
  datatype LegacySignal = LegacySignal(
    marketId: string,
    question: string,
    outcomeIndex: nat,
    outcome: Option<string>,
    side: TradingTypes.OrderSide,
    price: Option<real>,
    confidence: Num)

  /** `s[i]`, `undefined` past the end. */
  function At<T>(s: seq<T>, i: nat): (r: Option<T>)
    ensures i < |s| ==> r == Some(s[i])
    ensures |s| <= i ==> r.None?
  {
    if i < |s| then Some(s[i]) else None
  }

  /** A buy of outcome `index` of `market`. */
  function BuySignal(market: Market, index: nat, confidence: Num): (r: LegacySignal)
    ensures r.marketId == market.id && r.question == market.question
    ensures r.outcomeIndex == index && r.side == TradingTypes.Buy
    ensures r.outcome == At(market.outcomes, index) && r.price == At(market.outcomePrices, index)
    ensures r.confidence == confidence
  {
    LegacySignal(market.id, market.question, index, At(market.outcomes, index), TradingTypes.Buy,
                 At(market.outcomePrices, index), confidence)
  }

  function DailyMaxima(forecasts: seq<DailyForecast>): (r: seq<real>)
    ensures |r| == |forecasts| && forall i :: 0 <= i < |r| ==> r[i] == forecasts[i].maxTemp
  {
    seq(|forecasts|, i requires 0 <= i < |forecasts| => forecasts[i].maxTemp)
  }

  function DailyChances(forecasts: seq<DailyForecast>): (r: seq<real>)
    ensures |r| == |forecasts| && forall i :: 0 <= i < |r| ==> r[i] == forecasts[i].precipitationChance
  {
    seq(|forecasts|, i requires 0 <= i < |forecasts| => forecasts[i].precipitationChance)
  }

  /** `Math.min(0.5 + margin / 20, 0.95)`: half for no margin, growing by
      0.05 per degree, capped at 0.95. */
  function TemperatureConfidence(avg: real, threshold: real): (r: real)
    ensures 0.5 <= r <= 0.95
    ensures r < 0.95 ==> (r - 0.5) * 20.0 == Numeric.Abs(avg - threshold)
    ensures r == 0.95 ==> Numeric.Abs(avg - threshold) >= 9.0
  {
    var c := 0.5 + Numeric.Abs(avg - threshold) / 20.0;
    if c < 0.95 then c else 0.95
  }

  /** `detectTemperatureSignal`. `above` stands for the `above N` pattern
      applied to the lower-cased question: `None` when it does not match,
      `Some(None)` when the captured text parses to `NaN`. The average of
      no days is `NaN`, and so is every comparison or confidence built on a
      `NaN`: the signal then buys outcome 1 with confidence `NaN`. */
  function DetectTemperature(market: Market, forecast: WeatherForecast, above: string -> Option<Option<real>>): (r: Option<LegacySignal>)
    ensures r.None? <==> above(ToLower(market.question)).None?
    ensures r.Some? ==> r.value == BuySignal(market, r.value.outcomeIndex, r.value.confidence)
    ensures r.Some? ==> r.value.outcomeIndex == 0 || r.value.outcomeIndex == 1
    ensures r.Some? ==> (r.value.confidence.Finite? <==> above(ToLower(market.question)).value.Some? && |forecast.forecasts| > 0)
    ensures r.Some? && r.value.confidence.Finite? ==> 0.5 <= r.value.confidence.v <= 0.95
    ensures r.Some? && r.value.confidence.Finite? ==>
              var avg := Mean(DailyMaxima(forecast.forecasts));
              var threshold := above(ToLower(market.question)).value.value;
              && r.value.confidence.v == TemperatureConfidence(avg, threshold)
              && (r.value.outcomeIndex == 0 <==> avg > threshold)
    ensures r.Some? && !r.value.confidence.Finite? ==> r.value.outcomeIndex == 1 && r.value.confidence == NaN
  {
    match above(ToLower(market.question))
    case None => None
    case Some(None) => Some(BuySignal(market, 1, NaN))
    case Some(Some(threshold)) =>
      if |forecast.forecasts| == 0 then Some(BuySignal(market, 1, NaN))
      else
        var avg := Mean(DailyMaxima(forecast.forecasts));
        var confidence := Finite(TemperatureConfidence(avg, threshold));
        if avg > threshold then Some(BuySignal(market, 0, confidence))
        else Some(BuySignal(market, 1, confidence))
  }

  predicate MentionsPrecipitation(question: string)
  {
    Contains(question, "rain") || Contains(question, "precipitation") || Contains(question, "snow")
  }

  /** `detectPrecipitationSignal`: buys outcome 0 when some day's chance
      exceeds one half, else outcome 1; the confidence is the distance of
      the highest chance from one half, plus one half. With no days the
      highest chance is `-Infinity` and the confidence `Infinity`. */
  function DetectPrecipitation(market: Market, forecast: WeatherForecast): (r: Option<LegacySignal>)
    ensures r.None? <==> !MentionsPrecipitation(ToLower(market.question))
    ensures r.Some? ==> r.value == BuySignal(market, r.value.outcomeIndex, r.value.confidence)
    ensures r.Some? && |forecast.forecasts| == 0 ==> r.value.outcomeIndex == 1 && r.value.confidence == Infinity
    ensures r.Some? && |forecast.forecasts| > 0 ==>
              (r.value.outcomeIndex == 0 <==> exists i :: 0 <= i < |forecast.forecasts| && forecast.forecasts[i].precipitationChance > 0.5)
    ensures r.Some? && |forecast.forecasts| > 0 ==> r.value.outcomeIndex == 0 || r.value.outcomeIndex == 1
    ensures r.Some? && |forecast.forecasts| > 0 ==>
              && r.value.confidence.Finite?
              && r.value.confidence.v >= 0.5
              && exists i :: && 0 <= i < |forecast.forecasts|
                             && r.value.confidence.v == Numeric.Abs(forecast.forecasts[i].precipitationChance - 0.5) + 0.5
                             && forall k :: 0 <= k < |forecast.forecasts| ==>
                                  forecast.forecasts[k].precipitationChance <= forecast.forecasts[i].precipitationChance
  {
    if !MentionsPrecipitation(ToLower(market.question)) then None
    else if |forecast.forecasts| == 0 then Some(BuySignal(market, 1, Infinity))
    else
      var chances := DailyChances(forecast.forecasts);
      var top := MaxOf(chances);
      assert top in chances;
      var confidence := Finite(Numeric.Abs(top - 0.5) + 0.5);
      if top > 0.5 then Some(BuySignal(market, 0, confidence))
      else Some(BuySignal(market, 1, confidence))
  }

  /** `analyzeMarket`: nothing unless the lower-cased question contains the
      lower-cased location; then the temperature signal when the question
      asks "above N", else the precipitation signal. */
  function AnalyzeMarket(market: Market, forecast: WeatherForecast, location: string,
                         above: string -> Option<Option<real>>): (r: Option<LegacySignal>)
    ensures !Contains(ToLower(market.question), ToLower(location)) ==> r.None?
    ensures Contains(ToLower(market.question), ToLower(location)) && above(ToLower(market.question)).Some? ==>
              r == DetectTemperature(market, forecast, above)
    ensures Contains(ToLower(market.question), ToLower(location)) && above(ToLower(market.question)).None? ==>
              r == DetectPrecipitation(market, forecast)
    ensures r.None? <==> (|| !Contains(ToLower(market.question), ToLower(location))
                          || (above(ToLower(market.question)).None? && !MentionsPrecipitation(ToLower(market.question))))
  {
    if !Contains(ToLower(market.question), ToLower(location)) then None
    else
      var signal := DetectTemperature(market, forecast, above);
      if signal.Some? then signal else DetectPrecipitation(market, forecast)
  }

  /** `markets.filter(m => m.active && !m.closed)`. */
  function ActiveMarkets(markets: seq<Market>): (r: seq<Market>)
    ensures |r| <= |markets|
    ensures forall m :: m in r <==> m in markets && m.active && !m.closed
  {
    if |markets| == 0 then []
    else
      var init := ActiveMarkets(markets[..|markets| - 1]);
      var m := markets[|markets| - 1];
      assert markets == markets[..|markets| - 1] + [m];
      if m.active && !m.closed then init + [m] else init
  }

  /** The filter distributes over concatenation, so the active markets keep
      their input order. */
  lemma {:induction false} ActiveMarketsAppend(a: seq<Market>, b: seq<Market>)
    ensures ActiveMarkets(a + b) == ActiveMarkets(a) + ActiveMarkets(b)
    decreases |b|
  {
    if |b| == 0 {
      assert a + b == a;
    } else {
      var n := |b| - 1;
      assert (a + b)[..|a + b| - 1] == a + b[..n];
      ActiveMarketsAppend(a, b[..n]);
    }
  }

  /** The signal kept for one market: its analysis when that reaches the
      minimum confidence. */
  function Kept(signal: Option<LegacySignal>, minConfidence: real): (r: Option<LegacySignal>)
    ensures r.Some? <==> signal.Some? && AtLeast(signal.value.confidence, minConfidence)
    ensures r.Some? ==> r == signal
  {
    if signal.Some? && AtLeast(signal.value.confidence, minConfidence) then signal else None
  }

  /** The signals of one location, in market order. */
  function SignalsAt(markets: seq<Market>, location: string, forecast: WeatherForecast,
                     above: string -> Option<Option<real>>, minConfidence: real): (r: seq<LegacySignal>)
    ensures |r| <= |markets|
    ensures forall s :: s in r ==> AtLeast(s.confidence, minConfidence)
    ensures forall s :: s in r ==> exists i :: 0 <= i < |markets| && AnalyzeMarket(markets[i], forecast, location, above) == Some(s)
    ensures forall i :: 0 <= i < |markets| && Kept(AnalyzeMarket(markets[i], forecast, location, above), minConfidence).Some? ==>
              AnalyzeMarket(markets[i], forecast, location, above).value in r
  {
    var kept := seq(|markets|, i requires 0 <= i < |markets| => Kept(AnalyzeMarket(markets[i], forecast, location, above), minConfidence));
    var r := Somes(kept);
    forall s | s in r ensures AtLeast(s.confidence, minConfidence) && exists i :: 0 <= i < |markets| && AnalyzeMarket(markets[i], forecast, location, above) == Some(s) {
      var i :| 0 <= i < |kept| && kept[i] == Some(s);
    }
    forall i | 0 <= i < |markets| && Kept(AnalyzeMarket(markets[i], forecast, location, above), minConfidence).Some?
      ensures AnalyzeMarket(markets[i], forecast, location, above).value in r
    {
      assert kept[i].Some?;
    }
    r
  }

  /** `findTradeSignals`: for each location in turn, the kept signals of the
      active markets. `forecastFor(location)` is what `getForecast(location, 5)`
      returned (`WeatherService.GetForecast` with `DefaultDays`). */
  function FindTradeSignals(markets: seq<Market>, locations: seq<string>, forecastFor: string -> WeatherForecast,
                            above: string -> Option<Option<real>>, minConfidence: real): (r: seq<LegacySignal>)
    ensures forall s :: s in r ==> AtLeast(s.confidence, minConfidence)
  {
    if |locations| == 0 then []
    else
      var location := locations[|locations| - 1];
      FindTradeSignals(markets, locations[..|locations| - 1], forecastFor, above, minConfidence)
      + SignalsAt(ActiveMarkets(markets), location, forecastFor(location), above, minConfidence)
  }

  /** Every signal comes from an active, open market whose question names
      one of the locations. */
  lemma {:induction false} SignalsComeFromActiveMarkets(markets: seq<Market>, locations: seq<string>, forecastFor: string -> WeatherForecast,
                                                        above: string -> Option<Option<real>>, minConfidence: real, s: LegacySignal)
    ensures s in FindTradeSignals(markets, locations, forecastFor, above, minConfidence) ==>
              exists m, location :: && m in markets && m.active && !m.closed && location in locations
                                    && Contains(ToLower(m.question), ToLower(location))
                                    && AnalyzeMarket(m, forecastFor(location), location, above) == Some(s)
    decreases |locations|
  {
    if s !in FindTradeSignals(markets, locations, forecastFor, above, minConfidence) { return; }
    var n := |locations| - 1;
    var location := locations[n];
    var active := ActiveMarkets(markets);
    var earlier := FindTradeSignals(markets, locations[..n], forecastFor, above, minConfidence);
    if s in earlier {
      SignalsComeFromActiveMarkets(markets, locations[..n], forecastFor, above, minConfidence, s);
      var m, loc :| && m in markets && m.active && !m.closed && loc in locations[..n]
                    && Contains(ToLower(m.question), ToLower(loc))
                    && AnalyzeMarket(m, forecastFor(loc), loc, above) == Some(s);
      assert loc in locations;
    } else {
      var i :| 0 <= i < |active| && AnalyzeMarket(active[i], forecastFor(location), location, above) == Some(s);
      assert active[i] in active;
    }
  }

  lemma InEarlier<T>(xs: seq<T>, x: T)
    requires x in xs && xs[|xs| - 1] != x
    ensures x in xs[..|xs| - 1]
  {
    var j :| 0 <= j < |xs| && xs[j] == x;
    assert xs[..|xs| - 1][j] == x;
  }

  /** Every active, open market whose analysis for a location reaches the
      minimum confidence yields its signal. */
  lemma {:induction false} KeptSignalsAreFound(markets: seq<Market>, locations: seq<string>, forecastFor: string -> WeatherForecast,
                                               above: string -> Option<Option<real>>, minConfidence: real, m: Market, location: string)
    requires m in markets && m.active && !m.closed && location in locations
    requires Kept(AnalyzeMarket(m, forecastFor(location), location, above), minConfidence).Some?
    ensures AnalyzeMarket(m, forecastFor(location), location, above).value in FindTradeSignals(markets, locations, forecastFor, above, minConfidence)
    decreases |locations|
  {
    var n := |locations| - 1;
    var active := ActiveMarkets(markets);
    var earlier := FindTradeSignals(markets, locations[..n], forecastFor, above, minConfidence);
    var here := SignalsAt(active, locations[n], forecastFor(locations[n]), above, minConfidence);
    var s := AnalyzeMarket(m, forecastFor(location), location, above).value;
    assert FindTradeSignals(markets, locations, forecastFor, above, minConfidence) == earlier + here;
    if locations[n] == location {
      var i :| 0 <= i < |active| && active[i] == m;
      assert s in here;
    } else {
      InEarlier(locations, location);
      KeptSignalsAreFound(markets, locations[..n], forecastFor, above, minConfidence, m, location);
      assert s in earlier;
    }
  }

  /** A rain question for a location with no forecast days passes every
      minimum confidence: the confidence is `Infinity`. */
  lemma RainWithoutForecastAlwaysPasses(market: Market, location: string, above: string -> Option<Option<real>>, minConfidence: real)
    requires Contains(ToLower(market.question), ToLower(location))
    requires above(ToLower(market.question)).None?
    requires MentionsPrecipitation(ToLower(market.question))
    ensures var r := AnalyzeMarket(market, WeatherForecast(location, []), location, above);
            && r == Some(BuySignal(market, 1, Infinity))
            && Kept(r, minConfidence) == r
  {
  }

  /** A temperature question for a location with no forecast days never
      passes: its confidence is `NaN`. */
  lemma TemperatureWithoutForecastNeverPasses(market: Market, location: string, above: string -> Option<Option<real>>, minConfidence: real)
    requires Contains(ToLower(market.question), ToLower(location))
    requires above(ToLower(market.question)).Some?
    ensures Kept(AnalyzeMarket(market, WeatherForecast(location, []), location, above), minConfidence).None?
  {
  }

  /** Above a minimum of 0.95 no temperature signal passes. */
  lemma HighMinimumDropsTemperatureSignals(market: Market, forecast: WeatherForecast, location: string,
                                           above: string -> Option<Option<real>>, minConfidence: real)
    requires above(ToLower(market.question)).Some?
    requires minConfidence > 0.95
    ensures Kept(AnalyzeMarket(market, forecast, location, above), minConfidence).None?
  {
  }

  /** With chances inside [0, 1] a precipitation signal's finite confidence
      stays inside [0.5, 1]. */
  lemma PrecipitationConfidenceAtMostOne(market: Market, forecast: WeatherForecast)
    requires |forecast.forecasts| > 0
    requires forall i :: 0 <= i < |forecast.forecasts| ==> 0.0 <= forecast.forecasts[i].precipitationChance <= 1.0
    requires MentionsPrecipitation(ToLower(market.question))
    ensures 0.5 <= DetectPrecipitation(market, forecast).value.confidence.v <= 1.0
  {
    var r := DetectPrecipitation(market, forecast);
    var i :| && 0 <= i < |forecast.forecasts|
             && r.value.confidence.v == Numeric.Abs(forecast.forecasts[i].precipitationChance - 0.5) + 0.5
             && forall k :: 0 <= k < |forecast.forecasts| ==>
                  forecast.forecasts[k].precipitationChance <= forecast.forecasts[i].precipitationChance;
  }
}

=== FILE: weather_types.dfy ===
/** Weather records (`src/weather/types.ts`). A `null` temperature or bound
    is `None`. */
module WeatherTypes {
  import opened Wrappers

  /** One ensemble run: hourly temperatures (°F) with their ISO timestamps. */
  datatype EnsembleMember = EnsembleMember(
    model: string,
    memberIndex: int,
    temperatures: seq<Option<real>>,
    times: seq<string>)

  datatype EnsembleForecast = EnsembleForecast(
    city: string,
    date: string,
    model: string,
    members: seq<EnsembleMember>,
    fetchedAt: string)

  /** A temperature bucket as the market defines it; a `None` bound is open. */
  datatype Bucket = Bucket(lower: Option<real>, upper: Option<real>, bucketLabel: string)

  datatype BucketProbability = BucketProbability(
    lower: Option<real>,
    upper: Option<real>,
    bucketLabel: string,
    probability: real)

  datatype AggregatedForecast = AggregatedForecast(
    city: string,
    date: string,
    totalMembers: int,
    highTemps: seq<real>,
    mean: real,
    stdDev: real,
    bucketProbabilities: seq<BucketProbability>)

  /** A single point forecast from one source, counted `weight` times when pooled. */
  datatype DeterministicForecast = DeterministicForecast(
    city: string,
    date: string,
    source: string,
    highF: real,
    lowF: Option<real>,
    description: Option<string>,
    weight: int,
    fetchedAt: string,
    horizonHours: Option<int>)
}

=== FILE: wrappers.dfy ===
/** Failure-compatible wrappers: `Option` for the source's `null`/`undefined`
    results and `Result` for its thrown errors. */
module Wrappers {

  datatype Option<+T> = None | Some(value: T) {

    /** The value, or `default` when absent (the source's `?? default`). */
    function GetOr(default: T): T {
      match this
      case Some(v) => v
      case None => default
    }
  }

  datatype Result<+T, +E> = Success(value: T) | Failure(error: E)
}
